=== FILE: README.md ===
# Course management system — a Dafny model

This project models the deterministic core of a small learning-management system. The system has two tiers.

**The Django REST backend** (`lms/courses`, `lms/users`) is modelled as follows.
- `Store`: the course, lesson, enrollment and lesson-progress tables, with the unique pairs, cascading deletes and default orderings the models declare. The store is one immutable value.
- `Users` and `Accounts`: the user role and the account endpoints. These cover registration, the refresh-token cookie, `/me` and logout.
- `Permissions`: the four permission classes and the framework's rule for combining them.
- `CourseSerializers`: the three `validate` hooks.
- `CourseViews`: every course endpoint. Each takes a request, runs it against a store and returns the new store with a result or the error.

**The React client** (`lms_frontend/frontend/src`) is modelled as follows.
- `Json`: a JSON-like `Value` with JavaScript's truthiness, `??` and property access. `JsNumber` covers `Number()`, and `Text` covers the string built-ins the pages use.
- `Session`: the token storage, the bearer-header interceptor and the auth provider's state machine.
- `Routes`: the route guards.
- `Toast`: the toast store, as a listener registry with an explicit hide timer.
- `Forms`: the form schemas.
- Page helpers:
  - `Messages`: error-message extraction;
  - `Search`: list normalisation and search;
  - `Cards`: the cards' text;
  - `ProgressBar`: the progress clamp;
  - `CourseDetails`, `LessonViewer`, `InstructorCourses`, `ManageLessons`, `MyEnrolled`, `AuthPages`: the pages' state transitions.
- `Wire`: the JSON the serializers write. It joins the two tiers, so client lemmas can speak of what the server actually sends.

`services/api/refreshToken.js` defines `refreshAccessToken`, which posts to `/auth/token/refresh/` with the request flags `skipAuthHeader` and `skipAuthRefresh`. No other file imports it. `services/api/http.js` reads neither flag and installs only a request interceptor that attaches the bearer header; it has no response interceptor. So nothing in the client refreshes an expired access token or retries a request that failed with 401, and the model has no refresh step.

## Model

| member | source | states |
|---|---|---|
| Accounts.Candidate | course-management-system/lms/users/serializers.py:21-25 | the user the password validators judge carries the registration's username, its e-mail or "" and its role or student |
| Accounts.ValidateRegistration | course-management-system/lms/users/serializers.py:16-32 | a registration passes exactly when its password is empty or the validators report nothing; a rejection carries the validators' messages under "password"; a pass changes nothing |
| Accounts.CreateUser | course-management-system/lms/users/serializers.py:34-42 | exactly one user is appended; e-mail defaults to "", role to student, and only the password's hash is stored |
| Accounts.Register | course-management-system/lms/users/views.py:76-78 | registration fails exactly when validation fails; on success the table grows by exactly the new user, whose stored hash is that of the password, and the response shows its id, username, e-mail and role |
| Accounts.RegisterDefaultsToStudent | course-management-system/lms/users/serializers.py:38 | a registration naming no role creates a student |
| Accounts.TruncToInt | course-management-system/lms/users/views.py:15 | `int()` truncates toward zero: the floor for non-negative values, minus the floor of the magnitude otherwise, always less than 1 away |
| Accounts.RefreshCookie | course-management-system/lms/users/views.py:14-25 | the cookie is set to the token and lives the whole number of seconds of a non-negative lifetime |
| Accounts.MoveRefreshToCookie | course-management-system/lms/users/views.py:56-61 | the response body loses `refresh` and keeps every other key and value; the cookie is set exactly when a non-empty refresh token was in the body |
| Accounts.RefreshNeverInBody | course-management-system/lms/users/views.py:58 | no body that passed through the token views contains the refresh token |
| Accounts.OrElse | course-management-system/lms/users/views.py:93 | Python's `or` on optional strings: a present non-empty value wins, anything else falls through to the fallback |
| Accounts.ValidateRefresh | course-management-system/lms/users/views.py:40-50 | the body's token is verified when present; else the cookie's; with neither the request is refused with "No valid refresh token found." |
| Accounts.Me | course-management-system/lms/users/views.py:81-86 | `/me` answers exactly signed-in users, with their id and a role text that parses back to their role |
| Accounts.Logout | course-management-system/lms/users/views.py:89-105 | logout always answers 205 "Logged Out." and clears the cookie; a token is revoked exactly when it is the body's non-empty token (else the cookie's) and blacklisting it succeeded |
| Accounts.LogoutIgnoresBlacklistFailure | course-management-system/lms/users/views.py:96-101 | whether blacklisting succeeds or fails, the status, the detail and the cookie are the same |
| AuthPages.LoginTarget | course-management-system/lms_frontend/frontend/src/pages/Login/LoginPage.jsx:24 | a successful login goes to the remembered `from` when it is truthy, otherwise to "/courses"; the target is never empty |
| AuthPages.LoginValid | course-management-system/lms_frontend/frontend/src/pages/Login/LoginPage.jsx:13-16 | the login schema: a username of at least one character and a password of at least eight |
| AuthPages.LoginReturnsToGuardedPage | course-management-system/lms_frontend/frontend/src/app/router/ProtectedRoute.jsx:15-17 | a visitor the session guard sent to the login page returns to the page they asked for |
| AuthPages.LoginSubmit | course-management-system/lms_frontend/frontend/src/pages/Login/LoginPage.jsx:35-63 | the page navigates exactly when the request succeeded with a readable body; then both tokens are stored, the access token is in memory and the user is the `/me` answer or null; otherwise the session is untouched and a non-empty error (`detail`, else `message`, else the fallback) is shown |
| AuthPages.LoginAuthorizes | course-management-system/lms_frontend/frontend/src/pages/Login/LoginPage.jsx:41-44 | after a login with a non-empty access token the session is signed in and requests carry `Bearer <token>` |
| AuthPages.LoginProfileDecidesInstructorPages | course-management-system/lms_frontend/frontend/src/pages/Login/LoginPage.jsx:46-52 | when `/me` answers, the instructor pages open exactly for users whose role is instructor; when it fails they open for nobody |
| AuthPages.RegisterRoleIsServerRole | course-management-system/lms_frontend/frontend/src/pages/Register/RegisterPage.jsx:17-19 | every role the register form accepts is a role the server stores |
| AuthPages.RegisterValid | course-management-system/lms_frontend/frontend/src/pages/Register/RegisterPage.jsx:12-20 | the register schema: a username of at least one character, an e-mail address, a password of at least six characters and one of the two role values |
| AuthPages.DefaultRegisterFormInvalid | course-management-system/lms_frontend/frontend/src/pages/Register/RegisterPage.jsx:33 | the form as it opens never passes its schema |
| AuthPages.ShortPasswordRegistersButCannotLogIn | course-management-system/lms_frontend/frontend/src/pages/Register/RegisterPage.jsx:16 | a password the register form accepts with fewer than eight characters is refused by the login form's schema |
| AuthPages.RegisterSubmit | course-management-system/lms_frontend/frontend/src/pages/Register/RegisterPage.jsx:36-56 | success shows the success text and goes to "/login"; failure stays, shows no success text, and shows the error text as the page computes it |
| AuthPages.RegisterSubmitEmptyBodySilent | course-management-system/lms_frontend/frontend/src/pages/Register/RegisterPage.jsx:47-54 | a failure whose body is `{}` stays on the page and shows an error text that reads as nothing |
| AuthPages.RegisterSubmitCorrected | course-management-system/lms_frontend/frontend/src/pages/Register/RegisterPage.jsx:36-56 | with the fallback applied to an empty join, every failure stays on the page and shows a non-empty error text |
| AuthPages.RegisterSubmitCorrectedAgrees | course-management-system/lms_frontend/frontend/src/pages/Register/RegisterPage.jsx:47-54 | the corrected page differs from the written one only when the written one shows an empty error |
| AuthPages.FieldErrorsJson | course-management-system/lms/users/serializers.py:29-30 | a field rejection reaches the client as an object with one entry, the list of the messages |
| AuthPages.PasswordRejectionShown | course-management-system/lms_frontend/frontend/src/pages/Register/RegisterPage.jsx:47-53 | a password the server's validators reject is shown as their messages joined by spaces |
| Session.GetItem | course-management-system/lms_frontend/frontend/src/services/api/tokenStorage.js:2-4 | a stored key reads as its string, a missing one as null |
| Session.SetTokens | course-management-system/lms_frontend/frontend/src/services/api/tokenStorage.js:8-11 | both token slots hold the string form of the given values and every other key reads as before |
| Session.ClearTokens | course-management-system/lms_frontend/frontend/src/services/api/tokenStorage.js:12-15 | both token slots read as null afterwards and every other key reads as before |
| Session.RequestHeaders | course-management-system/lms_frontend/frontend/src/services/api/http.js:4-14 | every request is JSON, and carries `Bearer <token>` exactly when a non-empty access token is stored |
| Session.Mount | course-management-system/lms_frontend/frontend/src/app/providers/AuthProvider.jsx:11-16 | the provider starts booting, with no user, and signed in exactly when a non-empty access token is stored |
| Session.Boot | course-management-system/lms_frontend/frontend/src/app/providers/AuthProvider.jsx:20-46 | booting ends unless the provider unmounted; without a token nothing else changes; a failed profile request signs out and clears storage; a successful one keeps the tokens and sets the user |
| Session.BootFailureSignsOut | course-management-system/lms_frontend/frontend/src/app/providers/AuthProvider.jsx:32-36 | after a failed profile request the session is signed out and no request carries a token |
| Session.Login | course-management-system/lms_frontend/frontend/src/app/providers/AuthProvider.jsx:49-53 | login stores both tokens, keeps the access token in memory, takes the payload (or null) as the user, and leaves booting alone |
| Session.Logout | course-management-system/lms_frontend/frontend/src/app/providers/AuthProvider.jsx:56-60 | logout clears both slots and signs out with no user |
| Session.LoginAuthorizesRequests | course-management-system/lms_frontend/frontend/src/services/api/http.js:10-13 | after a login with a non-empty access token every request carries it as a bearer token |
| Session.LogoutRevokesHeader | course-management-system/lms_frontend/frontend/src/app/providers/AuthProvider.jsx:56-60 | logout undoes login: no later request carries a token |
| Session.LoginWithoutRefreshStoresUndefined | course-management-system/lms_frontend/frontend/src/pages/Login/LoginPage.jsx:41-44 | since the server moves the refresh token into a cookie, the login page stores the text "undefined" in the refresh slot |
| Routes.ProtectedRoute | course-management-system/lms_frontend/frontend/src/app/router/ProtectedRoute.jsx:6-20 | the page opens exactly when the session is not booting and signed in; booting shows the spinner; a signed-out visitor is redirected to "/login" remembering the path |
| Routes.RoleGuard | course-management-system/lms_frontend/frontend/src/app/router/RoleGuard.jsx:9-20 | the page opens exactly when not booting and the user's role is a non-empty allowed string; otherwise the spinner or a redirect to "/courses" |
| Routes.RoleGuardDefaultDenies | course-management-system/lms_frontend/frontend/src/app/router/RoleGuard.jsx:9 | with the default empty allow-list no page opens |
| Routes.RoleGuardNeedsProfile | course-management-system/lms_frontend/frontend/src/app/router/RoleGuard.jsx:14-17 | with no user profile every role-guarded page redirects to the course list |
| Routes.InstructorGuardMatchesServer | course-management-system/lms/courses/permissions.py:6-12 | with the `/me` profile loaded, the instructor guard opens exactly for the users the server's `IsInstructor` admits |
| Cards.Title | course-management-system/lms_frontend/frontend/src/entities/course/CourseCard.jsx:17 | a nullish title shows "Untitled course"; any other title is shown as it is |
| Cards.Description | course-management-system/lms_frontend/frontend/src/entities/course/CourseCard.jsx:20-26 | no falsy description (missing, null, "", 0, false) shows a line, as the `course.description && …` guard promises; a text description shows one exactly when it is non-empty; one within the limit is shown whole, a longer one is cut to the limit and gains the suffix |
| Cards.CourseCardDescription | course-management-system/lms_frontend/frontend/src/entities/course/CourseCard.jsx:22-24 | the course card's description has at most 141 characters, and a cut one ends in an ellipsis |
| Cards.EnrolledCardDescription | course-management-system/lms_frontend/frontend/src/features/enroll/EnrolledCourseCard.jsx:27-33 | the enrolled card's description has at most 121 characters, and a cut one ends in an ellipsis |
| Cards.InstructorRowGarbled | course-management-system/lms_frontend/frontend/src/pages/InstructorCourses/InstructorCoursesPage.jsx:36 | as written, a description longer than 120 characters in the instructor's list ends in three stray characters, not an ellipsis |
| Cards.InstructorRowDescription | course-management-system/lms_frontend/frontend/src/pages/InstructorCourses/InstructorCoursesPage.jsx:34-38 | corrected: the instructor's row cuts at 120 characters with the same ellipsis as the enrolled card, and shows what that card shows |
| Cards.CardsShareOpening | course-management-system/lms_frontend/frontend/src/entities/course/CourseCard.jsx:20-26 | the course card, the enrolled card and the instructor's row show a text description of at most 120 characters whole and identically, and a longer one with the same first 120 characters |
| Cards.LessonsPill | course-management-system/lms_frontend/frontend/src/entities/course/CourseCard.jsx:45-58 | the pill is shown exactly when `lessons_count` is a number, and reads "<count> lessons" |
| Cards.ListedCourseCard | course-management-system/lms_frontend/frontend/src/entities/course/CourseCard.jsx:15-75 | a row of the public course list is shown with its own title, "<n> lessons" for its lesson count, and a link to "/courses/<id>" |
| Cards.UncountedCourseCard | course-management-system/lms_frontend/frontend/src/entities/course/CourseCard.jsx:45 | a course row without a lesson count shows no pill |
| Cards.EnrolledCourse | course-management-system/lms_frontend/frontend/src/features/enroll/EnrolledCourseCard.jsx:7 | the card reads the nested course when there is one, otherwise the item itself |
| Cards.EnrolledProgress | course-management-system/lms_frontend/frontend/src/features/enroll/EnrolledCourseCard.jsx:8 | the card's progress is `progress`, else `progress_percent`, else 0, skipping nullish values |
| Cards.EnrolledBar | course-management-system/lms_frontend/frontend/src/features/enroll/EnrolledCourseCard.jsx:36 | the enrolled card's bar is within [0, 100], and empty when the item carries no progress |
| ProgressBar.Clamp | course-management-system/lms_frontend/frontend/src/shared/ui/ProgressBar.jsx:1-2 | the bar value is always within [0, 100]: a number inside is kept, one above shows 100, one below, undefined, null or an object shows 0 |
| ProgressBar.ClampIdempotent | course-management-system/lms_frontend/frontend/src/components/ui/progress-bar.jsx:3-4 | clamping the shown value again shows the same value |
| ProgressBar.ClampMonotone | course-management-system/lms_frontend/frontend/src/shared/ui/ProgressBar.jsx:2 | a larger number never shows a shorter bar |
| ProgressBar.ClampNumericText | course-management-system/lms_frontend/frontend/src/shared/ui/ProgressBar.jsx:2 | a percentage sent as decimal text shows the same bar as the number |
| ProgressBar.ClampNotANumber | course-management-system/lms_frontend/frontend/src/shared/ui/ProgressBar.jsx:2 | any value `Number` reads as NaN shows an empty bar |
| ProgressBar.ClampNotANumberText | course-management-system/lms_frontend/frontend/src/shared/ui/ProgressBar.jsx:2 | the text "n/a" reads as NaN and shows an empty bar |
| CourseDetails.Load | course-management-system/lms_frontend/frontend/src/pages/CourseDetails/CourseDetailsPage.jsx:67-95 | a failed course request leaves no course and shows the message; inline lessons are taken when present, otherwise the lesson list's items; a failed lesson request keeps the course and shows the message |
| CourseDetails.CanEnroll | course-management-system/lms_frontend/frontend/src/pages/CourseDetails/CourseDetailsPage.jsx:102-107 | a signed-out visitor may press "Enroll"; a signed-in user may unless the profile's role is truthy and not "student" |
| CourseDetails.LoadServerDetail | course-management-system/lms_frontend/frontend/src/pages/CourseDetails/CourseDetailsPage.jsx:72-79 | over the server's detail of an existing course, the page shows that course and its inline lessons, which are the course's lesson list in lesson order |
| CourseDetails.CanEnrollRefuses | course-management-system/lms_frontend/frontend/src/pages/CourseDetails/CourseDetailsPage.jsx:102-107 | the page refuses exactly a signed-in user whose profile names a role other than "student" |
| CourseDetails.ClientCheckMatchesServer | course-management-system/lms/courses/permissions.py:15-23 | with the `/me` profile loaded, the page lets press "Enroll" exactly the users the server's `IsStudent` admits |
| CourseDetails.CanEnrollWithoutProfile | course-management-system/lms_frontend/frontend/src/pages/CourseDetails/CourseDetailsPage.jsx:105-106 | before the profile loads, a signed-in user may press "Enroll" and the server decides |
| CourseDetails.HandleEnroll | course-management-system/lms_frontend/frontend/src/pages/CourseDetails/CourseDetailsPage.jsx:109-135 | a signed-out visitor is sent to log in and brought back to this course; a refused user is told "Only students can enroll." without a request; otherwise success or the server's message is shown |
| CourseDetails.EnrolledIsGreen | course-management-system/lms_frontend/frontend/src/pages/CourseDetails/CourseDetailsPage.jsx:209 | the success message is shown in green |
| CourseDetails.RepeatEnrollShowsRefusal | course-management-system/lms_frontend/frontend/src/pages/CourseDetails/CourseDetailsPage.jsx:126-131 | a student enrolling twice in a course is shown the server's "already enrolled" refusal verbatim |
| Search.Normalize | course-management-system/lms_frontend/frontend/src/pages/CourseList/CourseListPage.jsx:20 | a bare array is the list; otherwise `results`, or the empty list when it is nullish |
| Search.Items | course-management-system/lms_frontend/frontend/src/pages/CourseList/CourseListPage.jsx:20 | the items of a bare array or of an array under `results`; no items when `results` is nullish |
| Search.PaginatedSameAsBare | course-management-system/lms_frontend/frontend/src/pages/CourseList/CourseListPage.jsx:19-20 | a paginated body gives the same items as the bare array it pages over |
| Search.Query | course-management-system/lms_frontend/frontend/src/pages/CourseList/CourseListPage.jsx:38 | the query is as long as the trimmed search text |
| Search.Filtered | course-management-system/lms_frontend/frontend/src/pages/CourseList/CourseListPage.jsx:37-46 | a blank query shows the whole list; otherwise exactly the items whose title or description contains the query, in their order |
| Search.FilteredIdempotent | course-management-system/lms_frontend/frontend/src/pages/CourseList/CourseListPage.jsx:37-46 | searching the shown list again with the same text changes nothing |
| Search.FilteredIgnoresCase | course-management-system/lms_frontend/frontend/src/pages/CourseList/CourseListPage.jsx:38-44 | typing the search in any letter case shows the same list |
| Search.TrimLowerCommute | course-management-system/lms_frontend/frontend/src/pages/CourseList/CourseListPage.jsx:38 | trimming and lower-casing commute |
| Search.EmptyStateText | course-management-system/lms_frontend/frontend/src/pages/CourseList/CourseListPage.jsx:114 | the empty-state line starts "No courses found" and ends in " for your search." exactly when a search narrowed the list |
| Forms.CourseNeedsNewImage | course-management-system/lms_frontend/frontend/src/features/instructor/CourseForm.jsx:12-13 | a course form without a chosen file never passes, the blank form included, and so neither does an edit that keeps the old image |
| Forms.CourseValid | course-management-system/lms_frontend/frontend/src/features/instructor/CourseForm.jsx:9-19 | the course schema: a title of at least three characters, a description of at least ten, and a chosen image of at most 5 MiB that is JPEG, PNG or WebP |
| Forms.ThumbnailLimit | course-management-system/lms_frontend/frontend/src/features/instructor/CourseForm.jsx:14 | the 5 MiB limit is inclusive: exactly 5 MiB passes and one byte more does not |
| Forms.CoerceInt | course-management-system/lms_frontend/frontend/src/features/instructor/LessonForm.jsx:12-13 | an undefined input is absent and only it; an accepted number is what `Number` reads and is at least the minimum; NaN is rejected as not a number; the minimum's message is given only for numbers below it |
| Forms.VideoUrlValid | course-management-system/lms_frontend/frontend/src/features/instructor/LessonForm.jsx:11 | the video URL may be absent, empty, or a URL |
| Forms.ParseLesson | course-management-system/lms_frontend/frontend/src/features/instructor/LessonForm.jsx:9-14 | the lesson form passes exactly when the title has three characters, the URL is absent, empty or a URL, and both numbers are accepted; the title is handed on unchanged, orders are at least 1 and durations at least 0; "order" is reported exactly when the order fails |
| Forms.TypedNumberReadsBack | course-management-system/lms_frontend/frontend/src/features/instructor/LessonForm.jsx:47-48 | a whole number typed into a number input is read back as that number |
| Forms.EmptiedNumberInputs | course-management-system/lms_frontend/frontend/src/features/instructor/LessonForm.jsx:12-13 | an emptied order input is rejected with "Order must be >= 1" rather than left out, and an emptied duration is handed on as 0 |
| Forms.BlankLessonFailsOnTitle | course-management-system/lms_frontend/frontend/src/features/instructor/ManageLessonsPanel.jsx:44-50 | the new-lesson form as it opens, offering a whole order of at least 1, fails on its title and nothing else |
| Forms.ServerOrdersWhole | course-management-system/lms/courses/models.py:24 | every lesson order the server sends is a whole, non-negative number |
| Forms.WholeOffer | course-management-system/lms_frontend/frontend/src/features/instructor/ManageLessonsPanel.jsx:48 | with whole non-negative orders, the offered order is a whole number of at least 1 |
| Forms.DefaultOrderPassesForm | course-management-system/lms_frontend/frontend/src/features/instructor/ManageLessonsPanel.jsx:44-50 | the order the panel offers for a new lesson, from the server's list, passes the form's order check unchanged |
| Forms.WholeOrderAccepted | course-management-system/lms_frontend/frontend/src/features/instructor/LessonForm.jsx:12 | a whole number of at least 1 passes the order check as itself |
| ManageLessons.SortLessons | course-management-system/lms_frontend/frontend/src/features/instructor/ManageLessonsPanel.jsx:30 | the list is sorted by order (missing counts as 0) and is a permutation of its input |
| ManageLessons.LoadAsWrittenEmpty | course-management-system/lms_frontend/frontend/src/features/instructor/instructorLessonApi.js:7-10 | as written, the list request resolves with the whole response object, so the panel lists no lessons whatever the server answers |
| ManageLessons.Load | course-management-system/lms_frontend/frontend/src/features/instructor/ManageLessonsPanel.jsx:26-31 | corrected: the loaded list is sorted by order and is a permutation of the items of the response body |
| ManageLessons.DefaultOrder | course-management-system/lms_frontend/frontend/src/features/instructor/ManageLessonsPanel.jsx:48 | the offered order is above every listed order, at least 1 when no order is negative, and 1 for an empty list |
| ManageLessons.DefaultOrderPermutation | course-management-system/lms_frontend/frontend/src/features/instructor/ManageLessonsPanel.jsx:48 | the offer depends only on which lessons are listed, not on their order |
| ManageLessons.DefaultOrderIsFree | course-management-system/lms/courses/serializers.py:33-41 | with the corrected load, the offered order is above every order the course's lessons have, so the server's uniqueness check cannot refuse it |
| ManageLessons.DefaultOrderAsWrittenTaken | course-management-system/lms_frontend/frontend/src/features/instructor/ManageLessonsPanel.jsx:27-30 | as written, a course whose lesson has order 1 is offered order 1 again, an order already taken |
| ManageLessons.Create | course-management-system/lms_frontend/frontend/src/features/instructor/ManageLessonsPanel.jsx:57 | after a create the list is sorted and holds the old lessons plus the created one |
| ManageLessons.Update | course-management-system/lms_frontend/frontend/src/features/instructor/ManageLessonsPanel.jsx:67-75 | without an id being edited nothing changes; otherwise the list is sorted and is the old list with every lesson of that id replaced |
| ManageLessons.UpdateReplaces | course-management-system/lms_frontend/frontend/src/features/instructor/ManageLessonsPanel.jsx:73-75 | after updating a listed lesson the server's copy is on the list, and every other lesson on it was on the list before and has another id |
| ManageLessons.Delete | course-management-system/lms_frontend/frontend/src/features/instructor/ManageLessonsPanel.jsx:93 | exactly the lessons with the deleted id leave the list; the rest keep their relative order |
| ManageLessons.DeleteKeepsSorted | course-management-system/lms_frontend/frontend/src/features/instructor/ManageLessonsPanel.jsx:93 | a sorted list stays sorted after a delete |
| ManageLessons.EditingAfterDelete | course-management-system/lms_frontend/frontend/src/features/instructor/ManageLessonsPanel.jsx:95 | the lesson being edited is dropped from the form exactly when it is the one deleted |
| InstructorCourses.Create | course-management-system/lms_frontend/frontend/src/pages/InstructorCourses/InstructorCoursesPage.jsx:132 | a created course goes to the top and the rest of the list is unchanged |
| InstructorCourses.Update | course-management-system/lms_frontend/frontend/src/pages/InstructorCourses/InstructorCoursesPage.jsx:148-156 | without an edited id nothing changes; otherwise the list keeps its length and each course with that id is replaced by the server's copy in place |
| InstructorCourses.Delete | course-management-system/lms_frontend/frontend/src/pages/InstructorCourses/InstructorCoursesPage.jsx:170-179 | without an id or confirmation nothing changes; otherwise exactly the courses with that id leave, the rest keeping their order |
| InstructorCourses.CreateThenDelete | course-management-system/lms_frontend/frontend/src/pages/InstructorCourses/InstructorCoursesPage.jsx:127-191 | deleting a course just created, with its fresh numeric id, restores the list as it was |
| InstructorCourses.EditingAfterDelete | course-management-system/lms_frontend/frontend/src/pages/InstructorCourses/InstructorCoursesPage.jsx:181 | the edit form is closed exactly when the course it holds is deleted |
| Messages.GetMessageText | course-management-system/lms_frontend/frontend/src/pages/CourseDetails/CourseDetailsPage.jsx:29-51 | a string is itself; null and undefined give the fallback; numbers and booleans their text; an object defers to `detail`, else `message`, else its first value; an empty object gives the fallback; an array gives either the fallback or a non-empty text |
| Messages.ArrayOfTexts | course-management-system/lms_frontend/frontend/src/pages/CourseDetails/CourseDetailsPage.jsx:32-35 | an array of non-empty strings reads as those strings joined by spaces, in order |
| Messages.ErrorPayload | course-management-system/lms_frontend/frontend/src/pages/CourseDetails/CourseDetailsPage.jsx:87-88 | the value examined is `detail`, else `message`, else the whole body, skipping nullish entries |
| Messages.CourseErrorText | course-management-system/lms_frontend/frontend/src/pages/CourseDetails/CourseDetailsPage.jsx:86-91 | with no response body the course page shows the fallback, and a text body is shown as it is |
| Messages.ToMessageText | course-management-system/lms_frontend/frontend/src/pages/LessonViewer/LessonViewerPage.jsx:15-22 | a string is itself; an array is its elements' texts joined by spaces, with no fallback; an object is its values flattened one level and joined, or the fallback when that is empty; anything else is the fallback |
| Messages.EmptyArrayIgnoresFallback | course-management-system/lms_frontend/frontend/src/pages/LessonViewer/LessonViewerPage.jsx:17 | an empty array reads as the empty text, whatever the fallback |
| Messages.DetailOrMessage | course-management-system/lms_frontend/frontend/src/pages/Login/LoginPage.jsx:57-60 | the shown value is a truthy `detail`, else a truthy `message`, else the fallback |
| Messages.DetailOrMessageShows | course-management-system/lms_frontend/frontend/src/pages/Login/LoginPage.jsx:57-61 | with a non-empty fallback there is always something to show |
| Messages.FlatJoin | course-management-system/lms_frontend/frontend/src/pages/InstructorCourses/InstructorCoursesPage.jsx:139 | an object with no entries joins to the empty text |
| Messages.FieldErrorsText | course-management-system/lms_frontend/frontend/src/pages/InstructorCourses/InstructorCoursesPage.jsx:136-141 | with a non-empty fallback the text is never empty; a truthy `detail` wins; otherwise non-empty joined field messages are shown |
| Messages.RegisterErrorTextAsWritten | course-management-system/lms_frontend/frontend/src/pages/Register/RegisterPage.jsx:47-53 | as written: a truthy `detail`, else a truthy `message`, else for an object or array its joined values, and the fallback only for a body of another kind |
| Messages.RegisterEmptyBodyShowsNothing | course-management-system/lms_frontend/frontend/src/pages/Register/RegisterPage.jsx:47-54 | as written, an empty error object, or one whose fields hold empty lists, yields an empty text, so the failed registration is not reported |
| Messages.RegisterErrorText | course-management-system/lms_frontend/frontend/src/pages/Register/RegisterPage.jsx:47-53 | corrected: the error text is never empty; `detail`, then `message`, then non-empty joined field messages, then "Registration failed." |
| Messages.RegisterErrorTextAgrees | course-management-system/lms_frontend/frontend/src/pages/Register/RegisterPage.jsx:47-53 | wherever the written text shows something, the corrected one shows the same |
| Messages.Body | course-management-system/lms/courses/views.py:140 | only permission denials and validation errors carry a body described here: a `detail` text or a field's message, listed when raised from a serializer |
| Messages.RefusalShown | course-management-system/lms_frontend/frontend/src/pages/CourseDetails/CourseDetailsPage.jsx:126-131 | the course page shows a refusal's own message, whichever key carries it and whether it is listed or bare |
| Messages.RefusalShownInViewer | course-management-system/lms_frontend/frontend/src/pages/LessonViewer/LessonViewerPage.jsx:138-145 | the lesson viewer also shows a refusal's own message, whichever key carries it and however it is wrapped |
| Messages.AlreadyEnrolledShown | course-management-system/lms/courses/serializers.py:83-84 | a student enrolling twice is told on the course page, verbatim, that they are already enrolled |
| LessonViewer.IndexOf | course-management-system/lms_frontend/frontend/src/pages/LessonViewer/LessonViewerPage.jsx:116 | the position found holds a lesson whose id reads as the route's id and no earlier one does; none is found exactly when no lesson's id reads so |
| LessonViewer.Nav | course-management-system/lms_frontend/frontend/src/pages/LessonViewer/LessonViewerPage.jsx:113-123 | without the open lesson in the list there are no links; otherwise the links are the lessons just before and just after it, null at either end |
| LessonViewer.NavAt | course-management-system/lms_frontend/frontend/src/pages/LessonViewer/LessonViewerPage.jsx:113-123 | with distinct ids, the lesson at position i links to positions i-1 and i+1, the first having no previous link and the last no next one |
| LessonViewer.IndexAt | course-management-system/lms_frontend/frontend/src/pages/LessonViewer/LessonViewerPage.jsx:116 | with distinct ids, a lesson's own id is found at its own position |
| LessonViewer.NextThenPrev | course-management-system/lms_frontend/frontend/src/pages/LessonViewer/LessonViewerPage.jsx:213-222 | following "Next →" and then "← Prev" comes back to the lesson the user started from |
| LessonViewer.PrevThenNext | course-management-system/lms_frontend/frontend/src/pages/LessonViewer/LessonViewerPage.jsx:213-222 | following "← Prev" and then "Next →" comes back as well |
| LessonViewer.ServerList | course-management-system/lms_frontend/frontend/src/pages/LessonViewer/LessonViewerPage.jsx:81-82 | the page's list is the server's lesson list of the course, lesson by lesson in its JSON form |
| LessonViewer.ServedIdText | course-management-system/lms_frontend/frontend/src/pages/LessonViewer/LessonViewerPage.jsx:116 | a served lesson's id reads as its decimal digits |
| LessonViewer.ServerLessonIdsDistinct | course-management-system/lms/courses/views.py:75-81 | in a valid store, the lessons listed for one course carry distinct ids |
| LessonViewer.StrictRowsDistinctIds | course-management-system/lms/courses/models.py:26-33 | rows of the lesson table listed in strictly increasing order have distinct ids |
| LessonViewer.ServerListIdsDistinct | course-management-system/lms_frontend/frontend/src/pages/LessonViewer/LessonViewerPage.jsx:116 | the ids the page compares, as text, are distinct on the server's list |
| LessonViewer.ServerNav | course-management-system/lms_frontend/frontend/src/pages/LessonViewer/LessonViewerPage.jsx:113-123 | on the server's list, "Next →" leads to the lesson with the next higher order in the course and "← Prev" to the one with the next lower order; the ends have no link |
| LessonViewer.Content | course-management-system/lms_frontend/frontend/src/pages/LessonViewer/LessonViewerPage.jsx:193-194 | the shown text is `content` when not nullish, and "" when all four text fields are nullish |
| LessonViewer.ServedLessonHasNoContent | course-management-system/lms_frontend/frontend/src/pages/LessonViewer/LessonViewerPage.jsx:193-194 | no lesson as the server sends it has any of the four text fields, so the viewer always shows its "No content." placeholder |
| LessonViewer.Load | course-management-system/lms_frontend/frontend/src/pages/LessonViewer/LessonViewerPage.jsx:72-106 | a failed list request only costs the links; the lesson is the course-scoped answer, else the global one; when both fail there is no lesson and a non-empty error |
| LessonViewer.LoadServerNav | course-management-system/lms_frontend/frontend/src/pages/LessonViewer/LessonViewerPage.jsx:80-87 | over the server's lesson list the page keeps that list, so its links on each lesson are the neighbours by order within the course |
| LessonViewer.MarkComplete | course-management-system/lms_frontend/frontend/src/pages/LessonViewer/LessonViewerPage.jsx:125-149 | success is reported exactly for a successful request, with "Marked complete." and a move to the next lesson when there is one; a failure stays and shows the response's text with the endpoint fallback |
| LessonViewer.IsSuccessStatusAsWritten | course-management-system/lms_frontend/frontend/src/pages/LessonViewer/LessonViewerPage.jsx:196 | as written, a status is styled as success when its lower-cased text contains "complete" |
| LessonViewer.GreenIffSucceeded | course-management-system/lms_frontend/frontend/src/pages/LessonViewer/LessonViewerPage.jsx:196 | corrected: the status is green exactly after a successful request |
| LessonViewer.SuccessTextIsGreen | course-management-system/lms_frontend/frontend/src/pages/LessonViewer/LessonViewerPage.jsx:196 | the written test does colour the success text green |
| LessonViewer.DuplicateTextMentionsCompletion | course-management-system/lms/courses/views.py:169 | the duplicate-completion refusal contains "complete" once lower-cased |
| LessonViewer.DuplicateCompletionLooksSuccessful | course-management-system/lms_frontend/frontend/src/pages/LessonViewer/LessonViewerPage.jsx:196 | as written, when the serializer's checks pass for the lesson named by `pk` but saving the course route's lesson hits the unique pair, the bare refusal "Lesson Already Completed!" is shown in the success colour |
| LessonViewer.RepeatTextIsRed | course-management-system/lms_frontend/frontend/src/pages/LessonViewer/LessonViewerPage.jsx:196 | the serializer's refusal "Progress already exists for this lesson." does not pass the success test |
| LessonViewer.RepeatCompletionShownRed | course-management-system/lms_frontend/frontend/src/pages/LessonViewer/LessonViewerPage.jsx:125-145 | marking a completed lesson again through the same route shows the serializer's refusal, listed under `detail`, not in the success colour |
| MyEnrolled.CourseIdOf | course-management-system/lms_frontend/frontend/src/pages/MyEnrolledCourses/MyEnrolledCoursesPage.jsx:24-25 | the progress request is for the course's id when it is not nullish, else for the item's `course_id` |
| MyEnrolled.Unmerged | course-management-system/lms_frontend/frontend/src/pages/MyEnrolledCourses/MyEnrolledCoursesPage.jsx:27-32 | an item without a request gets `progress` from its own progress fields, and every other field is kept |
| MyEnrolled.Merged | course-management-system/lms_frontend/frontend/src/pages/MyEnrolledCourses/MyEnrolledCoursesPage.jsx:34-43 | after a successful request both progress fields hold the reported percentage (0 when absent), the response is attached, and every other field is kept |
| MyEnrolled.MergeItem | course-management-system/lms_frontend/frontend/src/pages/MyEnrolledCourses/MyEnrolledCoursesPage.jsx:23-50 | no request without a truthy course id; a failed request keeps the item's own progress; a successful one sets both fields to the reported percentage; every other field survives |
| MyEnrolled.Merge | course-management-system/lms_frontend/frontend/src/pages/MyEnrolledCourses/MyEnrolledCoursesPage.jsx:22-51 | one merged item per enrollment, in the same order |
| MyEnrolled.Load | course-management-system/lms_frontend/frontend/src/pages/MyEnrolledCourses/MyEnrolledCoursesPage.jsx:16-63 | the page's list is defined exactly when the enrollment response has items, and then is their merged versions, one for one |
| MyEnrolled.MergeKeepsField | course-management-system/lms_frontend/frontend/src/pages/MyEnrolledCourses/MyEnrolledCoursesPage.jsx:38-43 | any field other than the three progress fields is carried over by the merge |
| MyEnrolled.MergeKeepsCourseFields | course-management-system/lms_frontend/frontend/src/pages/MyEnrolledCourses/MyEnrolledCoursesPage.jsx:74-76 | the merge leaves the title and description the search reads untouched |
| MyEnrolled.MergeKeepsMatch | course-management-system/lms_frontend/frontend/src/pages/MyEnrolledCourses/MyEnrolledCoursesPage.jsx:69-79 | merging progress into an item does not change whether the search shows it |
| MyEnrolled.SearchIgnoresProgress | course-management-system/lms_frontend/frontend/src/pages/MyEnrolledCourses/MyEnrolledCoursesPage.jsx:69-79 | searching the merged list shows the merged versions of exactly the enrollments a search of the unmerged list shows, in order |
| MyEnrolled.InstructorSeesRefusal | course-management-system/lms_frontend/frontend/src/pages/MyEnrolledCourses/MyEnrolledCoursesPage.jsx:55-59 | an instructor opening the page is refused by the server and shown the refusal's own text, not the generic failure |
| MyEnrolled.EnrolledGetsStats | course-management-system/lms/courses/views.py:198-235 | an enrolled student asking about an existing course gets the counters, not a notice |
| MyEnrolled.ItemUsesOwnId | course-management-system/lms_frontend/frontend/src/pages/MyEnrolledCourses/MyEnrolledCoursesPage.jsx:24-43 | an item with a truthy top-level id and no nested course is merged with that course's progress response |
| MyEnrolled.ServerFetchAnswers | course-management-system/lms_frontend/frontend/src/features/enroll/enrollmentApi.js:14-17 | the progress request for a whole-number id returns the server's progress response for that course |
| MyEnrolled.ListedIsEnrolled | course-management-system/lms/courses/views.py:143-149 | every row of the enrolled-courses response is an existing course the student is enrolled in |
| MyEnrolled.EnrolledCardShowsServerPercent | course-management-system/lms_frontend/frontend/src/features/enroll/EnrolledCourseCard.jsx:8 | for each course on a student's enrolled list, the card's bar shows the percentage the server computed for that student and course |
| MyEnrolled.MergedWithStats | course-management-system/lms_frontend/frontend/src/pages/MyEnrolledCourses/MyEnrolledCoursesPage.jsx:34-43 | an item merged with a progress response carrying counters shows that response's percentage |
| MyEnrolled.ListedReport | course-management-system/lms/courses/views.py:218-228 | the server reports a percentage within [0, 100] for every course on the enrolled list |
| MyEnrolled.BarShowsProgress | course-management-system/lms_frontend/frontend/src/shared/ui/ProgressBar.jsx:2 | a merged item whose progress is a percentage within [0, 100] shows exactly that percentage |
| Toast.Notify | course-management-system/lms_frontend/frontend/src/shared/ui/toastStore.js:14 | every listener is told the state, once each, in subscription order |
| Toast.Subscribe | course-management-system/lms_frontend/frontend/src/shared/ui/toastStore.js:4-6 | the listener is appended and told the current state at once; the state and timer are unchanged |
| Toast.Unsubscribe | course-management-system/lms_frontend/frontend/src/shared/ui/toastStore.js:7-9 | the listener is no longer subscribed, every other listener's subscription is unchanged, and nobody is told anything |
| Toast.UnsubscribeRemovesAll | course-management-system/lms_frontend/frontend/src/shared/ui/toastStore.js:8 | a listener subscribed twice is removed entirely by one unsubscribe |
| Toast.Show | course-management-system/lms_frontend/frontend/src/shared/ui/toastStore.js:12-17 | the toast becomes visible with the message and kind, every listener is told, and a fresh hide timer replaces the pending one |
| Toast.Fire | course-management-system/lms_frontend/frontend/src/shared/ui/toastStore.js:17-20 | only the pending hide timer has an effect: it hides the toast, keeping its text, and tells every listener; any other timer changes nothing |
| Toast.ShowPreservesValid | course-management-system/lms_frontend/frontend/src/shared/ui/toastStore.js:16-17 | the pending timer is always one already handed out |
| Toast.InitialValid | course-management-system/lms_frontend/frontend/src/shared/ui/toastStore.js:1-2 | the store starts with no pending timer |
| Toast.FirePreservesValid | course-management-system/lms_frontend/frontend/src/shared/ui/toastStore.js:17-20 | a timer firing keeps the pending timer one already handed out |
| Toast.SubscribePreservesValid | course-management-system/lms_frontend/frontend/src/shared/ui/toastStore.js:4-10 | subscribing and unsubscribing keep the pending timer one already handed out |
| Toast.SecondShowCancelsFirstHide | course-management-system/lms_frontend/frontend/src/shared/ui/toastStore.js:16 | when two toasts follow each other, the first toast's timer firing leaves the second visible |
| Toast.LatestHideHides | course-management-system/lms_frontend/frontend/src/shared/ui/toastStore.js:17-20 | the latest toast's timer hides exactly that toast |
| Text.ToLower | course-management-system/lms_frontend/frontend/src/pages/CourseList/CourseListPage.jsx:38 | lower-casing keeps the length, maps every character and leaves no upper-case ASCII letter |
| Text.ToLowerIdempotent | course-management-system/lms_frontend/frontend/src/pages/CourseList/CourseListPage.jsx:42-43 | lower-casing twice is lower-casing once |
| Text.Trim | course-management-system/lms_frontend/frontend/src/pages/CourseList/CourseListPage.jsx:38 | the trimmed text is no longer than the input and neither starts nor ends with white space |
| Text.TrimInfix | course-management-system/lms_frontend/frontend/src/pages/CourseList/CourseListPage.jsx:38 | the trimmed text is an infix of the input, with only white space cut off on either side |
| Text.TrimEmptyIff | course-management-system/lms_frontend/frontend/src/pages/CourseList/CourseListPage.jsx:114 | a text trims to nothing exactly when it is all white space |
| Text.TrimIdempotent | course-management-system/lms_frontend/frontend/src/pages/CourseList/CourseListPage.jsx:38 | trimming twice is trimming once |
| Text.ContainsIff | course-management-system/lms_frontend/frontend/src/pages/CourseList/CourseListPage.jsx:44 | the scanning `includes` holds exactly when the needle occurs at some position |
| Text.ContainsLower | course-management-system/lms_frontend/frontend/src/pages/CourseList/CourseListPage.jsx:42-44 | a word occurring in a text up to letter case is found by the lower-cased test |
| Text.Truncate | course-management-system/lms_frontend/frontend/src/entities/course/CourseCard.jsx:22-24 | a text within the limit is kept; a longer one keeps exactly its first n characters followed by the suffix |
| Text.TruncateBound | course-management-system/lms_frontend/frontend/src/entities/course/CourseCard.jsx:22-24 | a cut text is never longer than the limit plus the suffix |
| Text.NatTextRoundTrip | course-management-system/lms_frontend/frontend/src/entities/course/CourseCard.jsx:56 | the decimal text of a natural number reads back as that number |
| Text.IntTextInjective | course-management-system/lms_frontend/frontend/src/pages/LessonViewer/LessonViewerPage.jsx:116 | distinct integers have distinct texts |
| JsNumber.ToNumber | course-management-system/lms_frontend/frontend/src/shared/ui/ProgressBar.jsx:2 | `Number`: a number is itself, null and false are 0, true is 1, undefined and objects are NaN, text is read as a decimal |
| JsNumber.StringToNumber | course-management-system/lms_frontend/frontend/src/features/instructor/LessonForm.jsx:12-13 | text that is all white space reads as 0 |
| JsNumber.NatTextNumber | course-management-system/lms_frontend/frontend/src/features/instructor/LessonForm.jsx:47-48 | the decimal text of a natural number reads as that number |
| Json.SetKey | course-management-system/lms_frontend/frontend/src/pages/MyEnrolledCourses/MyEnrolledCoursesPage.jsx:38-43 | after `{...obj, [key]: v}` the key reads as v and every other key as before |
| Json.FlatMembers | course-management-system/lms_frontend/frontend/src/pages/InstructorCourses/InstructorCoursesPage.jsx:139 | one level of `flat()` yields exactly the non-array values and the elements of the array values |
| Json.JoinEmptyIff | course-management-system/lms_frontend/frontend/src/pages/Register/RegisterPage.jsx:50 | with a non-empty separator a join is empty exactly when there is at most one part and it is empty |
| Json.ArrayTextJoins | course-management-system/lms_frontend/frontend/src/pages/LessonViewer/LessonViewerPage.jsx:17 | the text of an array is its elements' texts, nullish ones as "", joined by commas |
| Seqs.FilterIsSubseq | course-management-system/lms_frontend/frontend/src/pages/CourseList/CourseListPage.jsx:41-45 | a filtered list is a subsequence of its input |
| Seqs.FilterIdempotent | course-management-system/lms_frontend/frontend/src/pages/CourseList/CourseListPage.jsx:41-45 | filtering twice with one test is filtering once |
| Seqs.SortBy | course-management-system/lms_frontend/frontend/src/features/instructor/ManageLessonsPanel.jsx:30 | the sorted list is ordered by the key and is a permutation of its input |
| Seqs.PairwiseFilter | course-management-system/lms_frontend/frontend/src/features/instructor/ManageLessonsPanel.jsx:93 | a relation holding between all earlier and later elements still holds after filtering |
| Seqs.FilterMap | course-management-system/lms_frontend/frontend/src/pages/MyEnrolledCourses/MyEnrolledCoursesPage.jsx:69-79 | filtering after a map is mapping after a filter, when the map keeps the test's answer |
| Seqs.DistinctPermutation | course-management-system/lms_frontend/frontend/src/features/instructor/ManageLessonsPanel.jsx:30 | a permutation of a list without duplicates has none either |
| Wire.LessonJson | course-management-system/lms/courses/serializers.py:6-10 | a served lesson carries its id, order and course id as numbers and its title as text |
| Wire.CourseRowJson | course-management-system/lms/courses/serializers.py:46-57 | a served course row carries its id, title, description and lesson count; without an annotated count the key is absent; it has no `course` or `progress` entry |
| Wire.CourseDetailJson | course-management-system/lms/courses/serializers.py:59-68 | a served course detail carries the course's id and title and its lessons inline, each as the lesson serializer writes it |
| Wire.ReportJson | course-management-system/lms/courses/views.py:230-235 | the progress response carries `progress_percent` exactly when it reports counters, and otherwise its `detail` |
| Wire.Envelope | course-management-system/lms_frontend/frontend/src/services/api/http.js:4-7 | the HTTP client's response object holds the body under `data` and has no `results` |
| Wire.MeJson | course-management-system/lms/users/views.py:86 | the `/me` body carries the id as a number and the role as text |
| Users.RoleValue | course-management-system/lms/users/models.py:8-16 | a stored role value is non-empty, lower-case and fits the 20-character column |
| Users.ParseRole | course-management-system/lms/users/models.py:8-10 | a parsed value is exactly the stored value of its role; any text that is not a role's value is rejected |
| Users.RoleRoundTrip | course-management-system/lms/users/models.py:8-10 | reading back a role's stored value gives the role |
| Users.RoleValueInjective | course-management-system/lms/users/models.py:8-10 | two roles have the same stored value exactly when they are the same role |
| Permissions.StatusCode | course-management-system/lms/courses/views.py:7 | every refusal maps to a 4xx or 5xx status |
| Permissions.IsInstructor | course-management-system/lms/courses/permissions.py:6-12 | granted exactly to signed-in users whose role is instructor |
| Permissions.IsStudent | course-management-system/lms/courses/permissions.py:15-23 | granted exactly to signed-in users whose role is student |
| Permissions.RoleChecksPartition | course-management-system/lms/courses/permissions.py:6-23 | every signed-in user passes exactly one of the two role checks, and an anonymous user neither |
| Permissions.OwnerOrReadOnly | course-management-system/lms/courses/permissions.py:26-52 | reads always pass; a granted write implies a signed-in instructor owning the course, directly or through the lesson |
| Permissions.OwnerOrReadOnlyIff | course-management-system/lms/courses/permissions.py:34-52 | a write is granted exactly to the signed-in instructor who owns the course |
| Permissions.CourseOwner | course-management-system/lms/courses/permissions.py:55-75 | reads pass; "not found" only for a named course that does not exist; a granted write implies a signed-in instructor, a non-zero course id and a stored course of that id owned by the user |
| Permissions.CourseOwnerIff | course-management-system/lms/courses/permissions.py:60-75 | in a valid store a write is granted exactly to the instructor owning the course named in the URL |
| Permissions.Deny | course-management-system/lms/courses/permissions.py:64-65 | a refusal is "not authenticated" exactly for an anonymous request, otherwise "permission denied" with the class's message |
| Permissions.CheckPermissions | course-management-system/lms/courses/views.py:40 | a request passes exactly when every listed class grants it; a refusal is 404, 401 or the denial message of one listed class; a 403 goes only to signed-in users |
| Permissions.AuthenticatedFirst | course-management-system/lms/courses/views.py:40 | a view listing `IsAuthenticated` first turns every anonymous request away with 401 |
| Permissions.CheckObject | course-management-system/lms/courses/views.py:117-128 | the object check passes exactly when the ownership class, wherever listed, grants the request |
| Permissions.CheckPair | course-management-system/lms/courses/views.py:40 | with two classes, the first decides unless it grants, and then the second decides |
| Permissions.CheckObjectPair | course-management-system/lms/courses/views.py:117-128 | with `IsAuthenticated` and the ownership class, only ownership can refuse an object |
| Store.FindCourse | course-management-system/lms/courses/views.py:136 | a found course is a stored row with that key; nothing is found exactly when no course has the key |
| Store.FindLesson | course-management-system/lms/courses/serializers.py:102 | a found lesson is a stored row with that key; nothing is found exactly when no lesson has the key |
| Store.FindCourseUnique | course-management-system/lms/courses/models.py:7-13 | with distinct keys, looking up a stored course's key finds that course |
| Store.FindLessonUnique | course-management-system/lms/courses/models.py:19-33 | in a valid store, looking up a stored lesson's key finds that lesson |
| Store.CourseKeyUnique | course-management-system/lms/courses/models.py:7 | two different course rows have different keys |
| Store.AddCourse | course-management-system/lms/courses/models.py:7-13 | the new course takes the next key and the current time, is appended, and leaves the other tables alone |
| Store.AddCoursePreservesValid | course-management-system/lms/courses/models.py:7-13 | adding a course keeps every constraint of a valid store |
| Store.AddLesson | course-management-system/lms/courses/models.py:19-33 | the insert fails exactly when the course is missing or another lesson of the course holds the order; otherwise the lesson is appended with the next key |
| Store.AddLessonPreservesValid | course-management-system/lms/courses/models.py:26-33 | a successful lesson insert keeps every constraint, including the unique (course, order) pair |
| Store.AddEnrollment | course-management-system/lms/courses/models.py:39-50 | the insert fails exactly when the course is missing or the student is already enrolled in it; otherwise the row is appended with the next key and time |
| Store.AddEnrollmentPreservesValid | course-management-system/lms/courses/models.py:44-50 | a successful enrollment keeps every constraint and leaves the student enrolled |
| Store.AddProgress | course-management-system/lms/courses/models.py:56-67 | the insert fails exactly when the lesson is missing or the student already has a progress row for it; otherwise the row is appended |
| Store.AddProgressPreservesValid | course-management-system/lms/courses/models.py:61-67 | a successful progress insert keeps every constraint |
| Store.ApplyPatch | course-management-system/lms/courses/serializers.py:17 | a partial update keeps the key and course; the order is the submitted one, else the stored one; an empty patch changes nothing |
| Store.SaveLesson | course-management-system/lms/courses/models.py:26-33 | a lesson save fails exactly when another lesson of the same course holds the order; otherwise only the row with that key is replaced |
| Store.SaveLessonPreservesValid | course-management-system/lms/courses/models.py:26-33 | saving an existing lesson in its own course keeps every constraint |
| Store.SaveCourse | course-management-system/lms/courses/models.py:7-13 | editing a course changes only its title and description; keys, owners and creation times stay |
| Store.SaveCoursePreservesValid | course-management-system/lms/courses/models.py:7-13 | editing a course keeps every constraint |
| Store.DeleteCourse | course-management-system/lms/courses/models.py:20 | deleting a course removes it with its lessons, its enrollments and the progress of its lessons, and keeps every other row |
| Store.DeleteCoursePreservesValid | course-management-system/lms/courses/models.py:20 | the cascade leaves a valid store with no course of that key |
| Store.DeleteLesson | course-management-system/lms/courses/models.py:58 | deleting a lesson removes it and the progress rows pointing at it, and keeps every other row |
| Store.DeleteLessonPreservesValid | course-management-system/lms/courses/models.py:58 | the cascade leaves a valid store with no lesson of that key |
| CourseViews.LessonsOf | course-management-system/lms/courses/views.py:219 | a course's lessons are exactly the stored lessons whose course is that course |
| CourseViews.ListCourses | course-management-system/lms/courses/views.py:27-36 | the public list holds every course once, newest first, each with its lesson count |
| CourseViews.InstructorChecks | course-management-system/lms/courses/views.py:40 | the instructor endpoints admit exactly signed-in instructors; anonymous callers get 401 and others the instructor denial |
| CourseViews.StudentChecks | course-management-system/lms/courses/views.py:144 | the student endpoints admit exactly signed-in students; anonymous callers get 401 and others the student denial |
| CourseViews.ManageChecks | course-management-system/lms/courses/views.py:70 | the manage endpoints admit every signed-in user at view level; anonymous callers get 401 |
| CourseViews.OwnerCheck | course-management-system/lms/courses/views.py:117-128 | the object check passes exactly when the ownership rule allows, and otherwise refuses with the ownership message |
| CourseViews.ListInstructorCourses | course-management-system/lms/courses/views.py:39-52 | an instructor gets their own courses, newest first, with lesson counts; everyone else is refused |
| CourseViews.InstructorCoursesExact | course-management-system/lms/courses/views.py:48 | a course is in the instructor's list exactly when it is stored and owned by the caller |
| CourseViews.GetCourseDetail | course-management-system/lms/courses/views.py:55-58 | a known course comes back with all of its lessons in lesson order; an unknown one is 404 |
| CourseViews.CreateCourse | course-management-system/lms/courses/views.py:61-66 | only an instructor creates a course, which is then owned by the caller; a refusal changes nothing |
| CourseViews.CreateCoursePreservesValid | course-management-system/lms/courses/views.py:61-66 | creating a course keeps every constraint |
| CourseViews.UpdateCourse | course-management-system/lms/courses/views.py:69-72 | an edit succeeds only for the instructor owning an existing course, and saves only title and description; a refusal changes nothing |
| CourseViews.UpdateCoursePreservesValid | course-management-system/lms/courses/views.py:69-72 | editing a course keeps every constraint |
| CourseViews.UpdateCourseOnlyByOwner | course-management-system/lms/courses/views.py:69-72 | in a valid store the instructor owning an existing course can edit it, and nobody else can |
| CourseViews.DeleteCourseView | course-management-system/lms/courses/views.py:69-72 | a delete succeeds only for the instructor owning the course and then cascades; 401 for anonymous, 404 for an unknown course |
| CourseViews.DeleteCourseViewPreservesValid | course-management-system/lms/courses/views.py:69-72 | deleting a course keeps every constraint |
| CourseViews.DeleteCourseOnlyByOwner | course-management-system/lms/courses/views.py:69-72 | the owner of an existing course can delete it, and nobody else can |
| CourseViews.ListLessons | course-management-system/lms/courses/views.py:75-81 | the lesson list holds exactly the course's lessons, sorted by order; an unknown course has none |
| CourseViews.ListLessonsStrict | course-management-system/lms/courses/models.py:26-33 | in a valid store the lesson list is strictly increasing in order |
| CourseViews.CourseLessonDetail | course-management-system/lms/courses/views.py:84-93 | the list holds exactly the lesson of that key in that course, and is empty when the lesson is not in the course |
| CourseViews.LessonDetail | course-management-system/lms/courses/views.py:96-102 | the list holds exactly the lesson of that key |
| CourseViews.LessonDetailAtMostOne | course-management-system/lms/courses/views.py:96-102 | in a valid store a lesson key matches at most one lesson |
| CourseViews.CreateLesson | course-management-system/lms/courses/views.py:105-114 | a lesson is created only by the owner of the course in the URL, appended with the submitted fields; the only validation error is the taken order; a refusal changes nothing |
| CourseViews.CreateLessonByOwner | course-management-system/lms/courses/views.py:105-114 | the owner of an existing course adds a lesson exactly when its order is free |
| CourseViews.CreateLessonPreservesValid | course-management-system/lms/courses/views.py:105-114 | creating a lesson keeps every constraint |
| CourseViews.ManagedLesson | course-management-system/lms/courses/views.py:121-126 | the object found is a stored lesson of that key in that course, carrying its course's owner; in a valid store every lesson of the course is found |
| CourseViews.UpdateLesson | course-management-system/lms/courses/views.py:117-128 | an update succeeds only for the instructor owning the course, applies the patch to the lesson in that course and saves it under the constraints; a refusal changes nothing |
| CourseViews.UpdateLessonNoServerError | course-management-system/lms/courses/serializers.py:33-41 | validation anticipates the unique (course, order) pair, so an update never ends in a failed save |
| CourseViews.UpdateLessonPreservesValid | course-management-system/lms/courses/views.py:117-128 | updating a lesson keeps every constraint |
| CourseViews.UpdateLessonOnlyByOwner | course-management-system/lms/courses/views.py:117-128 | in a valid store a lesson can be edited exactly by the owner of its course, and only when its resulting order is free in the course |
| CourseViews.DeleteLessonView | course-management-system/lms/courses/views.py:117-128 | a delete succeeds only for the instructor owning the lesson's course and then cascades; 404 for a lesson outside the course |
| CourseViews.DeleteLessonViewPreservesValid | course-management-system/lms/courses/views.py:117-128 | deleting a lesson keeps every constraint |
| CourseViews.Enroll | course-management-system/lms/courses/views.py:131-140 | a student enrolls exactly in an existing course they are not enrolled in; a repeat is refused with the duplicate message, an unknown course with 404 |
| CourseViews.EnrollTwiceRefused | course-management-system/lms/courses/serializers.py:83-84 | a second identical enrollment is refused as a duplicate and changes nothing |
| CourseViews.EnrollPreservesValid | course-management-system/lms/courses/views.py:131-140 | enrolling keeps every constraint |
| CourseViews.MyEnrolledCourses | course-management-system/lms/courses/views.py:143-149 | a student gets the courses they are enrolled in, newest first, without lesson counts; everyone else is refused |
| CourseViews.MyEnrolledCoursesExact | course-management-system/lms/courses/views.py:149 | a course is in the list exactly when it is stored and the caller is enrolled in it |
| CourseViews.PerformMarkCompleted | course-management-system/lms/courses/views.py:156-169 | a lesson outside the course is 404; a student not enrolled in the course is refused with "You are not enrolled in this course."; a completed row is saved exactly when the student is enrolled and has no row for the lesson yet |
| CourseViews.MarkCompleted | course-management-system/lms/courses/views.py:152-169 | a member who is not a student is refused with the students-only message; a completion succeeds exactly when the caller is a student, `pk` names a lesson whose course the student is enrolled in and has no progress on, and the route's lesson is in the route's course, the student is enrolled there and has no progress on it; it appends a completed row for that student and lesson; a refusal changes nothing |
| CourseViews.MarkCompletedTwiceRefused | course-management-system/lms/courses/serializers.py:108-109 | completing the same lesson again is refused with the duplicate message and changes nothing |
| CourseViews.MarkCompletedSaveClash | course-management-system/lms/courses/views.py:156-169 | the save-time refusal "Lesson Already Completed!" comes exactly when a student passes the serializer's checks for `pk` while already having completed the lesson the course route names, a different lesson |
| CourseViews.MarkCompletedPreservesValid | course-management-system/lms/courses/views.py:152-169 | recording a completion keeps every constraint |
| CourseViews.CompletedRows | course-management-system/lms/courses/views.py:187-193 | the rows read are exactly the student's completed rows for lessons of the course |
| CourseViews.CompletedLessons | course-management-system/lms/courses/views.py:172-195 | an enrolled student gets the ids of exactly their completed lessons of the course; unknown course 404, not enrolled 403 |
| CourseViews.CompletedIdsDistinct | course-management-system/lms/courses/views.py:187-193 | in a valid store the ids listed are distinct and all belong to lessons of the course |
| CourseViews.CompletedAtMostTotal | course-management-system/lms/courses/views.py:219-226 | a student never has more completed lessons in a course than it has lessons |
| CourseViews.Round2 | course-management-system/lms/courses/views.py:228 | rounding to two decimals moves a value by at most half a hundredth, gives whole hundredths, keeps values of [0, 100] in that range and leaves whole hundredths alone |
| CourseViews.Percent | course-management-system/lms/courses/views.py:228 | 0 for a course without lessons, otherwise within half a hundredth of the exact share, in [0, 100], and exactly 100 when all are done |
| CourseViews.CourseProgress | course-management-system/lms/courses/views.py:198-235 | anonymous 401; non-students and students not enrolled get a notice; unknown course 404; otherwise the lesson total, the completed count and their percentage |
| CourseViews.CourseProgressBounds | course-management-system/lms/courses/views.py:219-228 | the reported completed count never exceeds the total and the percentage lies in [0, 100] |
| CourseViews.ProgressAgreesWithList | course-management-system/lms/courses/views.py:187-226 | whenever the completed-lessons list is served, the progress figures are served too and count the same lessons |
| CourseSerializers.IntendedOrder | course-management-system/lms/courses/serializers.py:17 | the submitted order wins; on update there is always an order, the stored one |
| CourseSerializers.ValidateLesson | course-management-system/lms/courses/serializers.py:12-43 | passes the attributes through or fails with 404 for a missing URL course or with the order message exactly when another lesson of the course holds the order |
| CourseSerializers.ValidateLessonMatchesUpdate | course-management-system/lms/courses/serializers.py:33-41 | on update, validation accepts exactly the changes the database can save |
| CourseSerializers.ValidateLessonMatchesCreate | course-management-system/lms/courses/serializers.py:33-41 | on create under an existing course, validation accepts exactly the lessons the database can insert |
| CourseSerializers.ValidateEnrollment | course-management-system/lms/courses/serializers.py:77-86 | refuses exactly a second enrollment of the student in the course, with the duplicate message |
| CourseSerializers.ValidateEnrollmentMatchesInsert | course-management-system/lms/courses/serializers.py:77-86 | for an existing course, the check accepts exactly the inserts the (student, course) constraint allows |
| CourseSerializers.ValidateProgress | course-management-system/lms/courses/serializers.py:95-111 | 404 exactly for a missing lesson; for an existing lesson the check passes exactly when the student is enrolled in its course and has no progress row for it; enrollment is checked first, so a student not enrolled gets "You're not enrolled in this course." whether or not a row exists; otherwise the duplicate message |
| CourseSerializers.ValidatedProgressInserts | course-management-system/lms/courses/serializers.py:95-111 | a lesson that passed the check can always be recorded |
| Permissions.OwnedCourseGranted | course-management-system/lms/courses/permissions.py:60-75 | a write to a stored course with a non-zero id is granted to the instructor who owns it |
| MyEnrolled.Shown | course-management-system/lms_frontend/frontend/src/pages/MyEnrolledCourses/MyEnrolledCoursesPage.jsx:69-79 | a blank query shows every enrollment; otherwise exactly the enrollments whose course title or description contains the trimmed query, ignoring case |
| ManageLessons.MaxOrder | course-management-system/lms_frontend/frontend/src/features/instructor/ManageLessonsPanel.jsx:48 | the largest listed order: no listed order exceeds it and some lesson has it |

## Left out

- Framework field validation is not modelled: URL fields, maximum lengths, image uploads and the optional thumbnail. The model's requests carry values that already passed these checks.
- Course edits change only the title and the description. `instructor_name`, `thumbnail` and `created_at` are not rendered by the model. `created_at` enters only as the store's logical clock.
- The `completed` column's default of false is kept as a parameter of `Store.AddProgress`. The only writer, the completion view, always passes true.
- URL routing (`courses/urls.py`, `users/urls.py`, the client router) is not modelled. `courses/urls.py` passes `pk` where the views read `course_id` and `lesson_id`, so each view takes its ids as explicit parameters. `courses/urls.py` also imports `LessonPogressApiView`, which `views.py` does not define.
- The completion URL the client posts to is not compared with `courses/urls.py:38`, because routing is not modelled.
- PUT is not modelled: the clients only send PATCH, and the model treats a full update as a patch of every field.
- Password hashing, Django's password validators, JWT signing and verification, and token blacklisting are parameters of the account operations. `validate_password` enters as the list of messages it would raise.
- The client's boot request to `/me` is one outcome parameter, success with a body or failure. Network timing and cancellation are not modelled.
- CourseViews.Round2: reals stand in for floating point. The contract bounds the rounding error and does not model binary representation.
- JsNumber.StringToNumber: reads decimal text only. Exponents, hexadecimal, `Infinity` and numeric separators are read as not-a-number.
- Text.ToLower: lower-cases ASCII letters only. Unicode case mapping is not modelled.
- Text.Trim: the function's own contract says only that the result is shorter and has no white space at either end. `Text.TrimInfix` states that it is the infix with only white space cut away.
- Email and URL recognition by the form library are parameters of `Forms`.
- The toast hide timer is an explicit step, and its delay length is not tracked. The lesson viewer's move to the next lesson after marking one complete runs in a 400 ms timer; `LessonViewer.MarkComplete` models it as an immediate `goTo`, with no timer step. `window.confirm` is a boolean input.
- Rendering is not modelled: layout, spinners, busy flags, button states and styling. Only the text and decisions those components compute are modelled.
- The texts of the framework's own 404 and 401 errors are not modelled. The client shows whatever `detail` the server sends.
- The lesson viewer's heading fallback `lesson.title ?? "Lesson"` is not modelled.
- CourseDetails.Load: a `results` member that is neither an array nor nullish is read as no lessons. JavaScript would fail later, when it maps over it.
- LessonViewer.Load: likewise, a `results` member of the lesson list that is neither an array nor nullish is read as no lessons. The page keeps the value itself. When that value has a non-zero `length`, as a non-empty string does, the page fails in `findIndex`; any other value gives no links, as in the model.
- Search.FieldText: a non-text title or description is read as the empty string, where JavaScript would throw on `toLowerCase`.
- Cards.Description: a truthy description that is not text is read as no line. The cards would render it instead: a number as its digits, `true` as an empty line, an array element by element. A plain object would make React throw. The server's description is a text field, so it never sends such a value.
- ManageLessons.OrderKey: an order that is present but not a number is read as 0. JavaScript's subtraction would coerce it instead, so text "3" would count as 3 and other text as `NaN`.
- Seqs.SortBy: stability of the client's sort is not stated. The contracts speak of order and permutation only.
- The client has no refresh coordinator and no 401 retry, as explained above, so neither is modelled.
- LessonViewer.Load: `LessonViewerPage.jsx:7-11` imports `getLessonApi` and `getLessonForCourseApi` from `entities/lesson/lessonApi.js`, which exports only `listLessonsForCourseApi`. An ES module import of a missing named export fails when the module is linked, so as written the page never loads. The model takes the two lesson requests as outcome parameters, which describes the page as if both functions existed.
- Text.Truncate: counts Dafny characters, which are Unicode scalar values. JavaScript's `length` and `slice` count UTF-16 code units. The two agree on text inside the Basic Multilingual Plane. A character outside it, such as an emoji, is one character here and two code units in the browser, so the browser cuts earlier, and its `slice` can split a surrogate pair, which the model cannot express.
- Cards.Description, Cards.CourseCardDescription, Cards.EnrolledCardDescription: they cut through `Text.Truncate`, so the same difference in counting applies.
- Forms.CourseValid, Forms.ParseLesson: the minimum title and description lengths count Unicode scalar values, where the form schema counts UTF-16 code units.
- AuthPages.LoginValid, AuthPages.RegisterValid: the minimum username and password lengths count Unicode scalar values, where the form schema counts UTF-16 code units.

## Findings

| source | as written | input that shows it | evidently intended | confidence | as-written member | corrected member |
|---|---|---|---|---|---|---|
| course-management-system/lms_frontend/frontend/src/pages/InstructorCourses/InstructorCoursesPage.jsx:36 | the truncation suffix is the three characters `â€¦`, a mis-decoded UTF-8 ellipsis | any description of 121 or more characters | the single character `…`, as the two course cards use | high, not executed | Cards.InstructorRowGarbled | Cards.InstructorRowDescription |
| course-management-system/lms_frontend/frontend/src/pages/Register/RegisterPage.jsx:47-54 | an error body that is an object without `detail` or `message` is flattened and joined, and an empty join is shown as it is | a 400 response with body `{}` | fall back to "Registration failed." when the join is empty, as the instructor pages do | medium, not executed | AuthPages.RegisterSubmitEmptyBodySilent | Messages.RegisterErrorText |
| course-management-system/lms_frontend/frontend/src/features/instructor/instructorLessonApi.js:7-10 | the list call returns the whole response object, so the panel finds neither an array nor `results` and lists no lessons | a course with one lesson of order 1 | return the response's `data`, as the other API wrappers do | high, not executed | ManageLessons.DefaultOrderAsWrittenTaken | ManageLessons.DefaultOrderIsFree |
| course-management-system/lms_frontend/frontend/src/pages/LessonViewer/LessonViewerPage.jsx:196 | the status is styled as success when its lower-cased text contains "complete" | under a route supplying `pk`, `course_id` and `lesson_id` (the route in `courses/urls.py:38` supplies only `pk`, see Left out): a student enrolled in a course has completed its lesson B but not its lesson A, and posts with `pk` naming A while the course route names B: the serializer's checks pass for A, saving B hits the unique pair, and the bare "Lesson Already Completed!" comes back | style by whether the request succeeded | low, not executed | LessonViewer.DuplicateCompletionLooksSuccessful | LessonViewer.GreenIffSucceeded |

=== FILE: accounts.dfy ===
/**
 * Accounts: registration through the register serializer, and the JWT
 * views that move the refresh token between the response body and an
 * HttpOnly cookie.
 *
 * Password validation, password hashing, token signing and blacklisting
 * are the framework's; they enter as function parameters.
 */
module Accounts {
  import opened Wrappers
  import opened Users

  /** Errors of the account endpoints: field messages (400) or an unusable token (401). */
  datatype AuthError =
    | FieldErrors(field: string, messages: seq<string>)
    | InvalidToken(detail: string)

  /** The validated fields of a registration; `username` and `password` are required fields. */
  datatype Registration = Registration(username: string, email: Option<string>, password: string, role: Option<Role>)

  /** The configured password validators: the messages of every check the password fails for that user. */
  type PasswordValidators = (string, User) -> seq<string>

  /** The unsaved user the validators judge the password against, with the model's defaults filled in. */
  function Candidate(r: Registration): (u: User)
    ensures u.username == r.username && u.email == r.email.GetOr("") && u.role == r.role.GetOr(DefaultRole)
  {
    User(0, r.username, r.email.GetOr(""), r.role.GetOr(DefaultRole), "")
  }

  /**
   * `RegisterSerializer.validate`: an empty password is left to the field
   * checks; otherwise every validator message is reported under "password".
   */
  function ValidateRegistration(r: Registration, validators: PasswordValidators): (res: Result<Registration, AuthError>)
    ensures res.Ok? ==> res.value == r
    ensures res.Ok? <==> r.password == "" || validators(r.password, Candidate(r)) == []
    ensures res.Err? ==> res.error == FieldErrors("password", validators(r.password, Candidate(r)))
  {
    if r.password == "" then Ok(r)
    else
      var messages := validators(r.password, Candidate(r));
      if messages != [] then Err(FieldErrors("password", messages)) else Ok(r)
  }

  /** The user table the registration writes to. */
  datatype UserTable = UserTable(users: seq<User>, nextId: nat)

  /** `RegisterSerializer.create`: e-mail defaults to empty, role to student, and only the password's hash is kept. */
  function CreateUser(t: UserTable, r: Registration, hash: string -> string): (res: (UserTable, User))
    ensures res.1 == User(t.nextId, r.username, r.email.GetOr(""), r.role.GetOr(Student), hash(r.password))
    ensures res.0.users == t.users + [res.1] && res.0.nextId > t.nextId
  {
    var u := User(t.nextId, r.username, r.email.GetOr(""), r.role.GetOr(DefaultRole), hash(r.password));
    (UserTable(t.users + [u], t.nextId + 1), u)
  }

  /** The registration response: the declared fields, without the write-only password. */
  datatype RegisteredUser = RegisteredUser(id: nat, username: string, email: string, role: Role)

  /** `RegisterView`: validate, create, answer with the new user. */
  function Register(t: UserTable, r: Registration, validators: PasswordValidators, hash: string -> string): (res: Result<(UserTable, RegisteredUser), AuthError>)
    ensures res.Err? <==> ValidateRegistration(r, validators).Err?
    ensures res.Ok? ==> |res.value.0.users| == |t.users| + 1
    ensures res.Ok? ==>
              var u := res.value.0.users[|res.value.0.users| - 1];
              && res.value.0.users == t.users + [u]
              && u.passwordHash == hash(r.password)
              && res.value.1 == RegisteredUser(u.id, u.username, u.email, u.role)
  {
    match ValidateRegistration(r, validators)
    case Err(e) => Err(e)
    case Ok(v) =>
      var (t', u) := CreateUser(t, v, hash);
      Ok((t', RegisteredUser(u.id, u.username, u.email, u.role)))
  }

  /** A registration that names no role creates a student. */
  lemma RegisterDefaultsToStudent(t: UserTable, r: Registration, validators: PasswordValidators, hash: string -> string)
    requires r.role.None? && Register(t, r, validators, hash).Ok?
    ensures Register(t, r, validators, hash).value.1.role == Student
  {
  }

  // Refresh-token cookie.

  /** What a response does to the refresh cookie. */
  datatype CookieOp = KeepCookie | SetRefresh(value: string, maxAge: int) | ClearRefresh

  /** Python's `int()` of a float: truncation toward zero. */
  function TruncToInt(x: real): (n: int)
    ensures 0.0 <= x ==> n == x.Floor
    ensures x < 0.0 ==> n == -((-x).Floor)
    ensures -1.0 < x - n as real < 1.0
  {
    if x >= 0.0 then x.Floor else -((-x).Floor)
  }

  /** `_set_refresh_cookie`: the cookie lives as many whole seconds as the refresh-token lifetime. */
  function RefreshCookie(token: string, lifetimeSeconds: real): (op: CookieOp)
    ensures op.SetRefresh? && op.value == token
    ensures 0.0 <= lifetimeSeconds ==> 0 <= op.maxAge && op.maxAge as real <= lifetimeSeconds < op.maxAge as real + 1.0
  {
    SetRefresh(token, TruncToInt(lifetimeSeconds))
  }

  /**
   * The post-processing of the obtain-pair and refresh views: the refresh
   * token is taken out of the body and, when non-empty, moved into the
   * cookie; the rest of the body is returned untouched.
   */
  function MoveRefreshToCookie(body: map<string, string>, lifetimeSeconds: real): (res: (map<string, string>, CookieOp))
    ensures "refresh" !in res.0
    ensures forall k :: k != "refresh" ==> (k in res.0 <==> k in body) && (k in body ==> res.0[k] == body[k])
    ensures res.1.SetRefresh? <==> "refresh" in body && body["refresh"] != ""
    ensures res.1.SetRefresh? ==> res.1 == RefreshCookie(body["refresh"], lifetimeSeconds)
    ensures !res.1.SetRefresh? ==> res.1 == KeepCookie
  {
    var rest := body - {"refresh"};
    if "refresh" in body && body["refresh"] != "" then (rest, RefreshCookie(body["refresh"], lifetimeSeconds))
    else (rest, KeepCookie)
  }

  /** The client never sees the refresh token in a body that passed through the view. */
  lemma RefreshNeverInBody(body: map<string, string>, lifetimeSeconds: real)
    ensures "refresh" !in MoveRefreshToCookie(body, lifetimeSeconds).0
  {
  }

  /** `value or fallback` on optional strings: an absent or empty value falls through. */
  function OrElse(value: Option<string>, fallback: Option<string>): (r: Option<string>)
    ensures value.Some? && value.value != "" ==> r == value
    ensures (value.None? || value.value == "") ==> r == fallback
  {
    if value.Some? && value.value != "" then value else fallback
  }

  /** The part of the request the refresh serializer reads: its cookie, when a request is in the context. */
  datatype RequestContext = NoRequest | WithRequest(refreshCookie: Option<string>)

  /**
   * `CookieTokenRefreshSerializer.validate`: the token from the body, else
   * from the cookie; with neither the request is refused; otherwise the
   * token is verified by the framework (`verify`).
   */
  function ValidateRefresh(bodyRefresh: Option<string>, ctx: RequestContext,
                           verify: string -> Result<map<string, string>, AuthError>): (r: Result<map<string, string>, AuthError>)
    ensures bodyRefresh.Some? && bodyRefresh.value != "" ==> r == verify(bodyRefresh.value)
    ensures (bodyRefresh.None? || bodyRefresh.value == "") && ctx.WithRequest? && ctx.refreshCookie.Some? && ctx.refreshCookie.value != "" ==>
              r == verify(ctx.refreshCookie.value)
    ensures (bodyRefresh.None? || bodyRefresh.value == "") && (ctx.NoRequest? || ctx.refreshCookie.None? || ctx.refreshCookie.value == "") ==>
              r == Err(InvalidToken("No valid refresh token found."))
  {
    var fromCookie := if ctx.WithRequest? then ctx.refreshCookie else None;
    var token := OrElse(bodyRefresh, fromCookie);
    if token.None? || token.value == "" then Err(InvalidToken("No valid refresh token found."))
    else verify(token.value)
  }

  /** The body of `/me`: exactly the id, the username and the stored role value. */
  datatype MeBody = MeBody(id: nat, username: string, role: string)

  /** `MeView` (signed-in users). */
  function Me(p: Principal): (r: Option<MeBody>)
    ensures r.Some? <==> p.Member?
    ensures r.Some? ==> r.value.id == p.user.id && ParseRole(r.value.role) == Some(p.user.role)
  {
    if p.Member? then Some(MeBody(p.user.id, p.user.username, RoleValue(p.user.role))) else None
  }

  /** The outcome of a logout: the response, the cookie operation, and the token revoked, if any. */
  datatype LogoutOutcome = LogoutOutcome(status: nat, detail: string, cookie: CookieOp, revoked: Option<string>)

  /**
   * `LogoutApiView`: the token from the body, else the cookie, is
   * blacklisted when present (`blacklist` says whether that succeeded,
   * and a failure is ignored); the answer is always 205 and the cookie is
   * always cleared.
   */
  function Logout(bodyRefresh: Option<string>, cookieRefresh: Option<string>, blacklist: string -> bool): (r: LogoutOutcome)
    ensures r.status == 205 && r.detail == "Logged Out." && r.cookie == ClearRefresh
    ensures r.revoked.Some? ==> r.revoked == OrElse(bodyRefresh, cookieRefresh) && blacklist(r.revoked.value)
    ensures var t := OrElse(bodyRefresh, cookieRefresh);
            t.Some? && t.value != "" && blacklist(t.value) ==> r.revoked == t
  {
    var token := OrElse(bodyRefresh, cookieRefresh);
    var revoked := if token.Some? && token.value != "" && blacklist(token.value) then token else None;
    LogoutOutcome(205, "Logged Out.", ClearRefresh, revoked)
  }

  /** Whether blacklisting works or fails changes nothing the client sees. */
  lemma LogoutIgnoresBlacklistFailure(body: Option<string>, cookie: Option<string>, ok: string -> bool, failing: string -> bool)
    ensures Logout(body, cookie, ok).status == Logout(body, cookie, failing).status
    ensures Logout(body, cookie, ok).cookie == Logout(body, cookie, failing).cookie
    ensures Logout(body, cookie, ok).detail == Logout(body, cookie, failing).detail
  {
  }
}

=== FILE: auth_pages.dfy ===
/**
 * The login and register pages: the form checks that run before any
 * request, and what each page does with the request's outcome.
 */
module AuthPages {
  import opened Json
  import opened Wrappers
  import Users
  import Accounts
  import Session
  import Messages
  import Routes
  import Wire

  // ---- Login ----

  datatype LoginForm = LoginForm(username: string, password: string)

  /** The login schema: a username of at least one character and a password of at least eight. */
  predicate LoginValid(f: LoginForm)
  {
    |f.username| >= 1 && |f.password| >= 8
  }

  const LoginFailed := "Login failed. Check credentials."

  /** `location.state?.from || "/courses"`: where a successful login leads. */
  function LoginTarget(state: Value): (r: Value)
    ensures Truthy(r)
    ensures Truthy(Prop(state, "from")) ==> r == Prop(state, "from")
    ensures !Truthy(Prop(state, "from")) ==> r == Str("/courses")
  {
    Or(Prop(state, "from"), Str("/courses"))
  }

  /** A visitor sent to the login page by the session guard comes back to the page they asked for. */
  lemma LoginReturnsToGuardedPage(pathname: string)
    requires pathname != ""
    ensures var v := Routes.ProtectedRoute(false, false, pathname);
            LoginTarget(Obj([Field("from", Str(v.from.value))])) == Str(pathname)
  {
    assert Prop(Obj([Field("from", Str(pathname))]), "from") == Str(pathname);
  }

  /** After submitting the login form: the session, where the page goes, and the error text ("" for none). */
  datatype LoginStep = LoginStep(auth: Session.Auth, goTo: Option<Value>, error: Value)

  /**
   * `onSubmit` of the login page. A token response signs the user in with
   * its `access` and `refresh` entries and no profile, then asks `/me`: its
   * answer becomes the user, and its failure is ignored; the page then
   * leaves for the target. A failed request, or a response with no body to
   * read the tokens from, leaves the session alone and shows
   * `detail || message || "Login failed. Check credentials."`.
   */
  function LoginSubmit(a: Session.Auth, result: Result<Value, Value>, me: Session.MeOutcome, state: Value): (r: LoginStep)
    ensures r.goTo.Some? <==> result.Ok? && !Nullish(result.value)
    ensures r.goTo.Some? ==>
              && r.goTo.value == LoginTarget(state)
              && r.auth.storage == Session.SetTokens(a.storage, Prop(result.value, "access"), Prop(result.value, "refresh"))
              && r.auth.accessToken == Prop(result.value, "access")
              && r.auth.user == (if me.MeOk? then me.data else Null)
              && r.error == Str("")
    ensures r.goTo.None? ==> r.auth == a && Truthy(r.error)
    ensures result.Err? ==> r.error == Messages.DetailOrMessage(result.error, LoginFailed)
  {
    match result
    case Err(data) =>
      Messages.DetailOrMessageShows(data, LoginFailed);
      LoginStep(a, None, Messages.DetailOrMessage(data, LoginFailed))
    case Ok(data) =>
      if Nullish(data) then LoginStep(a, None, Str(LoginFailed))
      else
        var signedIn := Session.Login(a, Prop(data, "access"), Prop(data, "refresh"), Undefined);
        var withUser := if me.MeOk? then signedIn.(user := me.data) else signedIn;
        LoginStep(withUser, Some(LoginTarget(state)), Str(""))
  }

  /** After a successful login the next requests carry the new access token. */
  lemma LoginAuthorizes(a: Session.Auth, access: string, me: Session.MeOutcome, state: Value)
    requires access != ""
    ensures var r := LoginSubmit(a, Ok(Obj([Field("access", Str(access))])), me, state);
            r.auth.IsAuthed() && Session.RequestHeaders(r.auth.storage).authorization == Some("Bearer " + access)
  {
    var data := Obj([Field("access", Str(access))]);
    assert Prop(data, "access") == Str(access);
    Session.LoginAuthorizesRequests(a, access, Prop(data, "refresh"), Undefined);
  }

  /**
   * After signing in, the instructor pages open exactly for instructors when
   * `/me` answered, and for nobody when it failed.
   */
  lemma LoginProfileDecidesInstructorPages(a: Session.Auth, tokens: Value, p: Users.Principal, state: Value)
    requires p.Member? && !Nullish(tokens)
    ensures var r := LoginSubmit(a, Ok(tokens), Session.MeOk(Wire.MeJson(Accounts.Me(p).value)), state);
            Routes.RoleGuard(false, r.auth.user, ["instructor"]).Outlet? <==> p.user.role == Users.Instructor
    ensures var r := LoginSubmit(a, Ok(tokens), Session.MeFailed, state);
            !Routes.RoleGuard(false, r.auth.user, ["instructor"]).Outlet?
  {
    Routes.InstructorGuardMatchesServer(p);
    Routes.RoleGuardNeedsProfile(["instructor"]);
  }

  // ---- Register ----

  datatype RegisterForm = RegisterForm(username: string, email: string, password: string, role: string)

  /**
   * The register schema: a username of at least one character, an e-mail
   * address (recognised by `isEmail`), a password of at least six
   * characters, and one of the two role values.
   */
  predicate RegisterValid(f: RegisterForm, isEmail: string -> bool)
  {
    |f.username| >= 1 && isEmail(f.email) && |f.password| >= 6 && (f.role == "student" || f.role == "instructor")
  }

  /** The form as it opens: empty fields and the student role. */
  const DefaultRegisterForm := RegisterForm("", "", "", "student")

  /** A role the form accepts is one the server stores. */
  lemma RegisterRoleIsServerRole(f: RegisterForm, isEmail: string -> bool)
    requires RegisterValid(f, isEmail)
    ensures Users.ParseRole(f.role).Some?
  {
  }

  /** The blank form never passes: the username is empty. */
  lemma DefaultRegisterFormInvalid(isEmail: string -> bool)
    ensures !RegisterValid(DefaultRegisterForm, isEmail)
  {
  }

  /**
   * The two schemas disagree on passwords: one of six or seven characters
   * passes the register form but not the login form.
   */
  lemma ShortPasswordRegistersButCannotLogIn(f: RegisterForm, isEmail: string -> bool)
    requires RegisterValid(f, isEmail) && |f.password| < 8
    ensures !LoginValid(LoginForm(f.username, f.password))
  {
  }

  const Registered := "Registration successful. You can now login."

  /** After submitting the register form: the success text, the error text, and where the page goes. */
  datatype RegisterStep = RegisterStep(ok: string, error: Value, goTo: Option<string>)

  /**
   * `onSubmit` of the register page as written: success leads to the login
   * page; a failure shows the response's `detail`, else its `message`, else
   * for an object body its field messages joined, else the fallback.
   */
  function RegisterSubmit(result: Result<Value, Value>): (r: RegisterStep)
    ensures result.Ok? <==> r.goTo == Some("/login")
    ensures result.Ok? ==> r.ok == Registered && r.error == Str("")
    ensures result.Err? ==> r.ok == "" && r.goTo.None?
    ensures result.Err? ==> r.error == Messages.RegisterErrorTextAsWritten(result.error)
  {
    match result
    case Ok(_) => RegisterStep(Registered, Str(""), Some("/login"))
    case Err(data) => RegisterStep("", Messages.RegisterErrorTextAsWritten(data), None)
  }

  /** A failed registration whose body is an empty object leaves the page without any error text. */
  lemma RegisterSubmitEmptyBodySilent()
    ensures RegisterSubmit(Err(Obj([]))).goTo.None?
    ensures !Truthy(RegisterSubmit(Err(Obj([]))).error)
  {
    Messages.RegisterEmptyBodyShowsNothing();
  }

  /** `onSubmit` with the corrected error text: every failure is reported. */
  function RegisterSubmitCorrected(result: Result<Value, Value>): (r: RegisterStep)
    ensures result.Ok? <==> r.goTo == Some("/login")
    ensures result.Ok? ==> r.ok == Registered && r.error == Str("")
    ensures result.Err? ==> r.ok == "" && r.goTo.None? && Truthy(r.error)
    ensures result.Err? ==> r.error == Messages.RegisterErrorText(result.error)
  {
    match result
    case Ok(_) => RegisterStep(Registered, Str(""), Some("/login"))
    case Err(data) => RegisterStep("", Messages.RegisterErrorText(data), None)
  }

  /** The corrected submit differs from the written one only where the written one shows nothing. */
  lemma RegisterSubmitCorrectedAgrees(result: Result<Value, Value>)
    ensures Truthy(RegisterSubmit(result).error) || result.Ok? ==> RegisterSubmitCorrected(result) == RegisterSubmit(result)
  {
    if result.Err? {
      Messages.RegisterErrorTextAgrees(result.error);
    }
  }

  /** The register serializer's rejection as it reaches the page: the field's messages as a list. */
  function FieldErrorsJson(field: string, messages: seq<string>): (v: Value)
    ensures v.Obj? && |ValuesOf(v)| == 1 && ValuesOf(v)[0] == Arr(seq(|messages|, i requires 0 <= i < |messages| => Str(messages[i])))
  {
    Obj([Field(field, Arr(seq(|messages|, i requires 0 <= i < |messages| => Str(messages[i]))))])
  }

  /**
   * A password the server's validators reject is reported on the register
   * page as the validators' messages, joined by spaces.
   */
  lemma PasswordRejectionShown(t: Accounts.UserTable, reg: Accounts.Registration, validators: Accounts.PasswordValidators, hash: string -> string)
    requires Accounts.Register(t, reg, validators, hash).Err?
    requires var e := Accounts.Register(t, reg, validators, hash).error;
             forall i :: 0 <= i < |e.messages| ==> e.messages[i] != ""
    ensures var e := Accounts.Register(t, reg, validators, hash).error;
            RegisterSubmit(Err(FieldErrorsJson(e.field, e.messages))).error == Str(Join(e.messages, " "))
  {
    var e := Accounts.Register(t, reg, validators, hash).error;
    var items := seq(|e.messages|, i requires 0 <= i < |e.messages| => Str(e.messages[i]));
    var body := FieldErrorsJson(e.field, e.messages);
    assert e.messages != [];
    assert Flat([Arr(items)]) == items;
    assert seq(|items|, i requires 0 <= i < |items| => items[i].s) == e.messages;
    JoinNonEmpty(e.messages, " ");
    assert Prop(body, "detail") == Undefined && Prop(body, "message") == Undefined;
  }
}

=== FILE: cards.dfy ===
/**
 * What a course card shows: the title with its fallback, the description
 * cut to a length with an ellipsis, the lesson-count pill, and the link to
 * the course page. Three places render a course this way: the course card
 * (140 characters), the enrolled-course card and the instructor's course
 * row (120 characters each).
 */
module Cards {
  import opened Json
  import opened Wrappers
  import Text
  import ProgressBar
  import CourseViews
  import Wire

  const Ellipsis := "\U{2026}"
  const UntitledCourse := "Untitled course"

  /** `course.title ?? "Untitled course"`. */
  function Title(course: Value): (r: Value)
    ensures Nullish(Prop(course, "title")) ==> r == Str(UntitledCourse)
    ensures !Nullish(Prop(course, "title")) ==> r == Prop(course, "title")
  {
    Coalesce(Prop(course, "title"), Str(UntitledCourse))
  }

  /**
   * The description line: absent for a missing or empty description;
   * otherwise the text, cut after `limit` characters with `suffix` added
   * when it is longer. The guard is `course.description && …`, so no falsy
   * description shows a line; a truthy one that is not text is read as no
   * line here.
   */
  function Description(course: Value, limit: nat, suffix: string): (r: Option<string>)
    ensures r.Some? <==> Prop(course, "description").Str? && Prop(course, "description").s != ""
    ensures !Truthy(Prop(course, "description")) ==> r.None?
    ensures Prop(course, "description").Str? ==> (r.Some? <==> Truthy(Prop(course, "description")))
    ensures r.Some? && |Prop(course, "description").s| <= limit ==> r.value == Prop(course, "description").s
    ensures r.Some? && |Prop(course, "description").s| > limit ==>
              r.value == Prop(course, "description").s[..limit] + suffix
  {
    var d := Prop(course, "description");
    if d.Str? && d.s != "" then Some(Text.Truncate(d.s, limit, suffix)) else None
  }

  /** The course card's description: at most 140 characters and an ellipsis. */
  function CourseCardDescription(course: Value): (r: Option<string>)
    ensures r.Some? ==> |r.value| <= 141
    ensures r.Some? && |r.value| == 141 ==> r.value[140..] == Ellipsis
  {
    Description(course, 140, Ellipsis)
  }

  /** The enrolled-course card's description: at most 120 characters and an ellipsis. */
  function EnrolledCardDescription(course: Value): (r: Option<string>)
    ensures r.Some? ==> |r.value| <= 121
    ensures r.Some? && |r.value| == 121 ==> r.value[120..] == Ellipsis
  {
    Description(course, 120, Ellipsis)
  }

  /**
   * The suffix the instructor's course row appends as written: the bytes
   * of an ellipsis in UTF-8 read back as Windows-1252, three characters.
   */
  const GarbledEllipsis := "\U{E2}\U{20AC}\U{A6}"

  /** The instructor's course row as written. */
  function InstructorRowDescriptionAsWritten(course: Value): (r: Option<string>)
  {
    Description(course, 120, GarbledEllipsis)
  }

  /** A long description in the instructor's list ends in three stray characters instead of an ellipsis. */
  lemma InstructorRowGarbled(course: Value)
    requires Prop(course, "description").Str? && |Prop(course, "description").s| > 120
    ensures var r := InstructorRowDescriptionAsWritten(course).value;
            |r| == 123 && r[120..] == GarbledEllipsis && r[120..] != Ellipsis
  {
  }

  /** The instructor's course row with the ellipsis the other cards use. */
  function InstructorRowDescription(course: Value): (r: Option<string>)
    ensures r.Some? ==> |r.value| <= 121
    ensures r.Some? && |r.value| == 121 ==> r.value[120..] == Ellipsis
    ensures r == EnrolledCardDescription(course)
  {
    Description(course, 120, Ellipsis)
  }

  /**
   * The three renderings agree on how a text description opens: a short
   * one is shown whole by all three, and a long one shows the same first
   * 120 characters on each, the course card running on to 140.
   */
  lemma {:induction false} CardsShareOpening(course: Value)
    requires Prop(course, "description").Str? && Prop(course, "description").s != ""
    ensures var d := Prop(course, "description").s;
            var a := CourseCardDescription(course).value;
            var b := EnrolledCardDescription(course).value;
            var c := InstructorRowDescriptionAsWritten(course).value;
            (|d| <= 120 ==> a == d && b == d && c == d)
            && (|d| > 120 ==> |a| >= 120 && a[..120] == d[..120] && b[..120] == d[..120] && c[..120] == d[..120])
  {
  }

  /** The lesson-count pill: shown only when `lessons_count` is a number. */
  function LessonsPill(course: Value): (r: Option<string>)
    ensures r.Some? <==> Prop(course, "lessons_count").Num?
    ensures r.Some? ==> r.value == JsString(Prop(course, "lessons_count")) + " lessons"
  {
    var n := Prop(course, "lessons_count");
    if n.Num? then Some(JsString(n) + " lessons") else None
  }

  /** The link to the course page. */
  function CourseLink(course: Value): string
  {
    "/courses/" + JsString(Prop(course, "id"))
  }

  /** A row of the public course list shows its title, its lesson count, and links to its own page. */
  lemma ListedCourseCard(row: CourseViews.CourseRow, n: nat)
    requires row.lessonsCount == Some(n)
    ensures Title(Wire.CourseRowJson(row)) == Str(row.course.title)
    ensures LessonsPill(Wire.CourseRowJson(row)) == Some(Text.NatText(n) + " lessons")
    ensures CourseLink(Wire.CourseRowJson(row)) == "/courses/" + Text.NatText(row.course.id)
  {
    assert (n as real).Floor == n;
    assert ((row.course.id) as real).Floor == row.course.id;
  }

  /** A row of the enrolled-courses list has no count, so its card shows no pill. */
  lemma UncountedCourseCard(row: CourseViews.CourseRow)
    requires row.lessonsCount.None?
    ensures LessonsPill(Wire.CourseRowJson(row)).None?
  {
  }

  // ---- The enrolled-course card ----

  /** `enrollment.course ?? enrollment`: a nested course, or the item itself when the fields are at the top. */
  function EnrolledCourse(enrollment: Value): (r: Value)
    ensures !Nullish(Prop(enrollment, "course")) ==> r == Prop(enrollment, "course")
    ensures Nullish(Prop(enrollment, "course")) ==> r == enrollment
  {
    Coalesce(Prop(enrollment, "course"), enrollment)
  }

  /** `enrollment.progress ?? enrollment.progress_percent ?? 0`. */
  function EnrolledProgress(enrollment: Value): (r: Value)
    ensures !Nullish(Prop(enrollment, "progress")) ==> r == Prop(enrollment, "progress")
    ensures Nullish(Prop(enrollment, "progress")) && !Nullish(Prop(enrollment, "progress_percent")) ==> r == Prop(enrollment, "progress_percent")
    ensures Nullish(Prop(enrollment, "progress")) && Nullish(Prop(enrollment, "progress_percent")) ==> r == Num(0.0)
  {
    Coalesce(Coalesce(Prop(enrollment, "progress"), Prop(enrollment, "progress_percent")), Num(0.0))
  }

  /** The bar on an enrolled-course card. */
  function EnrolledBar(enrollment: Value): (r: real)
    ensures 0.0 <= r <= 100.0
    ensures Nullish(Prop(enrollment, "progress")) && Nullish(Prop(enrollment, "progress_percent")) ==> r == 0.0
  {
    ProgressBar.Clamp(EnrolledProgress(enrollment))
  }
}

=== FILE: course_details.dfy ===
/**
 * The course details page: it loads a course with its lessons, decides
 * whether the visitor may press "Enroll", and reports the outcome of an
 * enrollment in a message coloured green when it mentions success.
 */
module CourseDetails {
  import opened Json
  import opened Wrappers
  import Text
  import Search
  import Messages
  import Users
  import Store
  import Permissions
  import Accounts
  import CourseSerializers
  import CourseViews
  import Wire

  // ---- Loading ----

  const LoadFailed := "Failed to load course details."

  /** The course, its lessons, and the error text ("" for none). */
  datatype Loaded = Loaded(course: Value, lessons: seq<Value>, error: string)

  /**
   * `load`: the course request, then its inline `lessons` array when it has
   * one, else the lesson-list request. Either failure ends the load with the
   * response's message; the course stays set when only the lesson request
   * failed.
   */
  function Load(course: Result<Value, Value>, lessons: Result<Value, Value>): (r: Loaded)
    ensures course.Err? ==> r == Loaded(Null, [], Messages.CourseErrorText(course.error, LoadFailed))
    ensures course.Ok? && Prop(course.value, "lessons").Arr? ==>
              r == Loaded(course.value, Prop(course.value, "lessons").items, "")
    ensures course.Ok? && !Prop(course.value, "lessons").Arr? && lessons.Ok? && Search.Items(lessons.value).Some? ==>
              r == Loaded(course.value, Search.Items(lessons.value).value, "")
    ensures course.Ok? && !Prop(course.value, "lessons").Arr? && lessons.Err? ==>
              r == Loaded(course.value, [], Messages.CourseErrorText(lessons.error, LoadFailed))
  {
    match course
    case Err(data) => Loaded(Null, [], Messages.CourseErrorText(data, LoadFailed))
    case Ok(c) =>
      var inline := Prop(c, "lessons");
      if inline.Arr? then Loaded(c, inline.items, "")
      else match lessons
        case Err(data) => Loaded(c, [], Messages.CourseErrorText(data, LoadFailed))
        case Ok(data) =>
          var items := Search.Items(data);
          Loaded(c, if items.Some? then items.value else [], "")
  }

  /**
   * Over the server's answer for an existing course, the page shows the
   * course and its lessons in lesson order, each as the lesson list
   * endpoint also sends it, without asking for the list separately.
   */
  lemma LoadServerDetail(db: Store.Db, id: nat, lessons: Result<Value, Value>)
    requires Store.HasCourse(db, id)
    ensures var body := Wire.CourseDetailJson(CourseViews.GetCourseDetail(db, id).value);
            var r := Load(Ok(body), lessons);
            && r.course == body && r.error == ""
            && r.lessons == Wire.LessonsJson(CourseViews.ListLessons(db, id))
  {
  }

  // ---- Enrolling ----

  /**
   * `canEnroll`: a signed-out visitor may press the button (and is sent to
   * log in); a signed-in user may unless the profile names a role other
   * than "student".
   */
  predicate CanEnroll(isAuthed: bool, user: Value)
  {
    var role := Prop(user, "role");
    !isAuthed || !Truthy(role) || StrictEq(role, Str("student"))
  }

  /** The page refuses exactly a signed-in user whose profile names another role. */
  lemma CanEnrollRefuses(isAuthed: bool, user: Value)
    ensures !CanEnroll(isAuthed, user) <==>
              isAuthed && Truthy(Prop(user, "role")) && Prop(user, "role") != Str("student")
  {
  }

  /**
   * For a signed-in user whose profile came from `/me`, the page lets
   * exactly the users press "Enroll" whom the server lets enroll.
   */
  lemma ClientCheckMatchesServer(p: Users.Principal)
    requires p.Member?
    ensures CanEnroll(true, Wire.MeJson(Accounts.Me(p).value)) <==> Permissions.IsStudent(p)
  {
    Users.RoleValueInjective(p.user.role, Users.Student);
  }

  /** Until the profile has loaded, a signed-in user is let through and the server decides. */
  lemma CanEnrollWithoutProfile(user: Value)
    requires Nullish(user)
    ensures CanEnroll(true, user)
  {
  }

  const OnlyStudents := "Only students can enroll."
  const Enrolled := "Enrolled successfully!"
  const EnrollFailed := "Enrollment failed."

  /** After pressing "Enroll": a redirect to the login page, or a message. */
  datatype EnrollStep =
    | ToLogin(from: string)
    | Message(text: string)

  /**
   * `handleEnroll`: a signed-out visitor goes to the login page, which
   * brings them back to this course; a user the page refuses is told so
   * without a request; otherwise the request's outcome is reported.
   */
  function HandleEnroll(isAuthed: bool, user: Value, courseId: string, result: Result<Value, Value>): (r: EnrollStep)
    ensures r.ToLogin? <==> !isAuthed
    ensures r.ToLogin? ==> r.from == "/courses/" + courseId
    ensures isAuthed && !CanEnroll(isAuthed, user) ==> r == Message(OnlyStudents)
    ensures isAuthed && CanEnroll(isAuthed, user) && result.Ok? ==> r == Message(Enrolled)
    ensures isAuthed && CanEnroll(isAuthed, user) && result.Err? ==>
              r == Message(Messages.CourseErrorText(result.error, EnrollFailed))
  {
    if !isAuthed then ToLogin("/courses/" + courseId)
    else if !CanEnroll(isAuthed, user) then Message(OnlyStudents)
    else match result
      case Ok(_) => Message(Enrolled)
      case Err(data) => Message(Messages.CourseErrorText(data, EnrollFailed))
  }

  /** `enrollMsg.toLowerCase().includes("success")`: the message is shown in green. */
  predicate Green(text: string)
  {
    Text.Contains(Text.ToLower(text), "success")
  }

  /** The success message is shown in green. */
  lemma EnrolledIsGreen()
    ensures Green(Enrolled)
  {
    Text.ContainsLower(Enrolled, "success", 9);
  }

  /**
   * A student who presses "Enroll" on a course they are already enrolled in
   * is shown the server's refusal verbatim.
   */
  lemma RepeatEnrollShowsRefusal(db: Store.Db, p: Users.Principal, pk: nat)
    requires Permissions.IsStudent(p) && Store.IsEnrolled(db, p.user.id, pk)
    ensures var e := CourseViews.Enroll(db, p, pk).result.error;
            var user := Wire.MeJson(Accounts.Me(p).value);
            HandleEnroll(true, user, Text.NatText(pk), Err(Messages.Body(e, true).value))
              == Message(CourseSerializers.AlreadyEnrolledMessage)
  {
    ClientCheckMatchesServer(p);
    Messages.AlreadyEnrolledShown(db, p, pk);
  }
}

=== FILE: forms.dfy ===
/**
 * The instructor's course and lesson forms: the schemas their inputs must
 * satisfy before the form hands its values on. Number inputs hold text,
 * which the lesson schema converts with JavaScript's `Number`.
 */
module Forms {
  import opened Json
  import opened Wrappers
  import Text
  import JsNumber
  import Store
  import ManageLessons
  import Seqs
  import CourseViews
  import Wire
  import Search

  // ---- The course form ----

  /** The chosen thumbnail file: its size in bytes and its MIME type. */
  datatype Upload = Upload(size: nat, mime: string)

  datatype CourseInput = CourseInput(title: string, description: string, thumbnail: Option<Upload>)

  const MaxThumbnailBytes: nat := 5 * 1024 * 1024
  const ImageTypes: seq<string> := ["image/jpeg", "image/png", "image/webp"]

  /**
   * The course schema: a title of at least three characters, a description
   * of at least ten, and a chosen image of at most 5 MiB in one of three
   * formats.
   */
  predicate CourseValid(f: CourseInput)
  {
    && |f.title| >= 3 && |f.description| >= 10
    && f.thumbnail.Some? && f.thumbnail.value.size <= MaxThumbnailBytes && f.thumbnail.value.mime in ImageTypes
  }

  /** The form as it opens for a new course. */
  const BlankCourse := CourseInput("", "", None)

  /**
   * No file is ever pre-selected, so the form only passes once an image is
   * chosen, when editing an existing course as well.
   */
  lemma CourseNeedsNewImage(title: string, description: string)
    ensures !CourseValid(CourseInput(title, description, None))
    ensures !CourseValid(BlankCourse)
  {
  }

  /** The size limit is inclusive: exactly 5 MiB passes, one byte more does not. */
  lemma ThumbnailLimit(title: string, description: string, mime: string)
    requires |title| >= 3 && |description| >= 10 && mime in ImageTypes
    ensures CourseValid(CourseInput(title, description, Some(Upload(MaxThumbnailBytes, mime))))
    ensures !CourseValid(CourseInput(title, description, Some(Upload(MaxThumbnailBytes + 1, mime))))
  {
  }

  // ---- The lesson form ----

  /**
   * What the lesson inputs hold: the title text, and for the other three
   * fields either the text typed or the initial value the form was opened
   * with.
   */
  datatype LessonInput = LessonInput(title: string, videoUrl: Value, order: Value, duration: Value)

  /** The values the form hands on; `None` where a field was left undefined. */
  datatype LessonValues = LessonValues(title: string, videoUrl: Option<string>, order: Option<int>, duration: Option<int>)

  datatype NumberIssue =
    | NotANumber
    | NotAnInteger
    | TooSmall(message: string)

  /**
   * `z.coerce.number().int().min(lo, message).optional()`: undefined passes
   * as absent; anything else goes through `Number`, and must give an
   * integer of at least `lo`.
   */
  function CoerceInt(v: Value, lo: int, message: string): (r: Result<Option<int>, NumberIssue>)
    ensures r == Ok(None) <==> v.Undefined?
    ensures r.Ok? && r.value.Some? ==> JsNumber.ToNumber(v) == Some(r.value.value as real) && r.value.value >= lo
    ensures r == Err(NotANumber) <==> !v.Undefined? && JsNumber.ToNumber(v).None?
    ensures r == Err(TooSmall(message)) ==> JsNumber.ToNumber(v).Some? && JsNumber.ToNumber(v).value < lo as real
  {
    if v.Undefined? then Ok(None)
    else match JsNumber.ToNumber(v)
      case None => Err(NotANumber)
      case Some(x) =>
        if x.Floor as real != x then Err(NotAnInteger)
        else if x.Floor < lo then Err(TooSmall(message))
        else Ok(Some(x.Floor))
  }

  const OrderMessage := "Order must be >= 1"
  const DurationMessage := "Duration must be >= 0"

  /** `z.string().url().optional().or(z.literal(""))`: absent, empty, or a URL as `isUrl` recognises it. */
  predicate VideoUrlValid(v: Value, isUrl: string -> bool)
  {
    v.Undefined? || (v.Str? && (v.s == "" || isUrl(v.s)))
  }

  /** The lesson schema: the values the form hands on, or the names of the fields that failed. */
  function ParseLesson(f: LessonInput, isUrl: string -> bool): (r: Result<LessonValues, seq<string>>)
    ensures r.Ok? <==>
              && |f.title| >= 3 && VideoUrlValid(f.videoUrl, isUrl)
              && CoerceInt(f.order, 1, OrderMessage).Ok? && CoerceInt(f.duration, 0, DurationMessage).Ok?
    ensures r.Ok? ==> r.value.title == f.title
    ensures r.Ok? && r.value.order.Some? ==> r.value.order.value >= 1
    ensures r.Ok? && r.value.duration.Some? ==> r.value.duration.value >= 0
    ensures r.Err? ==> ("order" in r.error <==> CoerceInt(f.order, 1, OrderMessage).Err?)
  {
    var order := CoerceInt(f.order, 1, OrderMessage);
    var duration := CoerceInt(f.duration, 0, DurationMessage);
    var failed :=
      (if |f.title| >= 3 then [] else ["title"])
      + (if VideoUrlValid(f.videoUrl, isUrl) then [] else ["video_url"])
      + (if order.Ok? then [] else ["order"])
      + (if duration.Ok? then [] else ["duration"]);
    if failed != [] then Err(failed)
    else Ok(LessonValues(f.title, if f.videoUrl.Str? then Some(f.videoUrl.s) else None, order.value, duration.value))
  }

  /** The form as it opens for a new lesson, offering `order` as the order. */
  function BlankLesson(order: Value): LessonInput
  {
    LessonInput("", Str(""), order, Num(0.0))
  }

  /** A number typed into a number input reads back as that number. */
  lemma TypedNumberReadsBack(n: nat, lo: int, message: string)
    requires n >= lo
    ensures CoerceInt(Str(Text.NatText(n)), lo, message) == Ok(Some(n))
  {
    JsNumber.NatTextNumber(n);
  }

  /**
   * An emptied "Order (optional)" input holds the empty text, which `Number`
   * reads as 0: the form rejects it instead of treating the order as left
   * out. An emptied duration is handed on as 0.
   */
  lemma EmptiedNumberInputs()
    ensures CoerceInt(Str(""), 1, OrderMessage) == Err(TooSmall(OrderMessage))
    ensures CoerceInt(Str(""), 0, DurationMessage) == Ok(Some(0))
  {
    JsNumber.BlankIsZero();
    assert 0.0.Floor == 0;
  }

  /** The blank form fails on its title only, whatever order it offers, once the offer is a whole number of at least 1. */
  lemma BlankLessonFailsOnTitle(order: nat, isUrl: string -> bool)
    requires order >= 1
    ensures ParseLesson(BlankLesson(Num(order as real)), isUrl) == Err(["title"])
  {
    var f := BlankLesson(Num(order as real));
    assert (order as real).Floor == order;
    assert CoerceInt(f.order, 1, OrderMessage).Ok?;
    assert CoerceInt(f.duration, 0, DurationMessage).Ok?;
    assert VideoUrlValid(f.videoUrl, isUrl);
    assert ["title"] + [] + [] + [] == ["title"];
  }

  /** Every listed lesson has a whole, non-negative order. */
  predicate WholeOrders(list: seq<Value>)
  {
    forall i :: 0 <= i < |list| ==> 0.0 <= ManageLessons.OrderKey(list[i]) && ManageLessons.OrderKey(list[i]).Floor as real == ManageLessons.OrderKey(list[i])
  }

  /** Every order the server stores for a course's lessons is a whole number. */
  lemma ServerOrdersWhole(db: Store.Db, courseId: nat)
    ensures WholeOrders(ManageLessons.Load(ManageLessons.ServerBody(db, courseId)))
  {
    var lessons := CourseViews.ListLessons(db, courseId);
    var server := Seqs.Map(lessons, Wire.LessonJson);
    assert Search.Items(Arr(server)) == Some(server);
    forall k | 0 <= k < |server|
      ensures 0.0 <= ManageLessons.OrderKey(server[k]) && ManageLessons.OrderKey(server[k]).Floor as real == ManageLessons.OrderKey(server[k])
    {
      OrderOfServed(lessons[k]);
    }
    var loaded := ManageLessons.Load(Arr(server));
    WholeReordered(loaded, server);
  }

  /** Reordering a list keeps its orders whole. */
  lemma WholeReordered(a: seq<Value>, b: seq<Value>)
    requires multiset(a) == multiset(b) && WholeOrders(b)
    ensures WholeOrders(a)
  {
    forall i | 0 <= i < |a|
      ensures 0.0 <= ManageLessons.OrderKey(a[i]) && ManageLessons.OrderKey(a[i]).Floor as real == ManageLessons.OrderKey(a[i])
    {
      assert a[i] in multiset(b);
      var k :| 0 <= k < |b| && b[k] == a[i];
    }
  }

  lemma OrderOfServed(l: Store.Lesson)
    ensures ManageLessons.OrderKey(Wire.LessonJson(l)) == l.order as real
    ensures (l.order as real).Floor == l.order
  {
  }

  /** With whole, non-negative orders, the panel's offer is a whole number of at least 1. */
  lemma WholeOffer(list: seq<Value>)
    requires WholeOrders(list)
    ensures var offer := ManageLessons.DefaultOrder(list);
            offer.Floor as real == offer && offer >= 1.0
  {
    if list != [] {
      var m := ManageLessons.MaxOrder(list);
      var i :| 0 <= i < |list| && ManageLessons.OrderKey(list[i]) == m;
      assert (m + 1.0).Floor == m.Floor + 1;
    }
  }

  /**
   * The order the lesson panel offers for a new lesson, computed from the
   * server's list, passes the form's order check.
   */
  lemma DefaultOrderPassesForm(db: Store.Db, courseId: nat)
    ensures var offer := ManageLessons.DefaultOrder(ManageLessons.Load(ManageLessons.ServerBody(db, courseId)));
            CoerceInt(Num(offer), 1, OrderMessage) == Ok(Some(offer.Floor))
  {
    var list := ManageLessons.Load(ManageLessons.ServerBody(db, courseId));
    ServerOrdersWhole(db, courseId);
    WholeOffer(list);
    WholeOrderAccepted(ManageLessons.DefaultOrder(list));
  }

  /** A whole number of at least 1 passes the order check unchanged. */
  lemma WholeOrderAccepted(x: real)
    requires x.Floor as real == x && x >= 1.0
    ensures CoerceInt(Num(x), 1, OrderMessage) == Ok(Some(x.Floor))
  {
  }
}

=== FILE: instructor_courses.dfy ===
/**
 * The instructor's course page: the list of their courses and how it
 * changes after a create, an update or a delete, plus which course the
 * edit form holds.
 */
module InstructorCourses {
  import opened Json
  import opened Wrappers
  import opened Seqs

  /** `[created, ...prev]`: a new course goes to the top. */
  function Create(items: seq<Value>, created: Value): (r: seq<Value>)
    ensures |r| == |items| + 1 && r[0] == created && r[1..] == items
  {
    [created] + items
  }

  /**
   * The update: without an edited course having an id nothing happens;
   * otherwise every course with that id is replaced by the server's copy
   * in place, and the others stay where they were.
   */
  function Update(items: seq<Value>, editing: Value, updated: Value): (r: seq<Value>)
    ensures !Truthy(Prop(editing, "id")) ==> r == items
    ensures |r| == |items|
    ensures Truthy(Prop(editing, "id")) ==>
              forall i :: 0 <= i < |r| ==>
                r[i] == (if StrictEq(Prop(items[i], "id"), Prop(editing, "id")) then updated else items[i])
  {
    if !Truthy(Prop(editing, "id")) then items else Map(items, ReplaceById(Prop(editing, "id"), updated))
  }

  /**
   * The delete, after the confirmation dialog: a course without an id or a
   * declined confirmation changes nothing; otherwise exactly the courses
   * with that id leave the list, the rest keeping their order.
   */
  function Delete(items: seq<Value>, course: Value, confirmed: bool): (r: seq<Value>)
    ensures !Truthy(Prop(course, "id")) || !confirmed ==> r == items
    ensures Truthy(Prop(course, "id")) && confirmed ==>
              forall x :: x in r <==> x in items && !StrictEq(Prop(x, "id"), Prop(course, "id"))
    ensures IsSubseq(r, items)
  {
    if !Truthy(Prop(course, "id")) || !confirmed then
      SubseqRefl(items);
      items
    else
      FilterIsSubseq(items, OtherId(Prop(course, "id")));
      Filter(items, OtherId(Prop(course, "id")))
  }

  /**
   * Deleting a course that was just created, with the numeric id the server
   * gives it, brings the list back to what it was.
   */
  lemma CreateThenDelete(items: seq<Value>, created: Value)
    requires Prop(created, "id").Num? && Prop(created, "id").x != 0.0
    requires forall i :: 0 <= i < |items| ==> !StrictEq(Prop(items[i], "id"), Prop(created, "id"))
    ensures Delete(Create(items, created), created, true) == items
  {
    var keep := OtherId(Prop(created, "id"));
    DeleteConfirmed(Create(items, created), created);
    CreatedFiltered(items, created);
    forall i | 0 <= i < |items| ensures keep(items[i]) {
    }
    FilterAllPass(items, keep);
  }

  /** Filtering out the id of the course just created removes it and filters the rest as usual. */
  lemma CreatedFiltered(items: seq<Value>, created: Value)
    requires Prop(created, "id").Num?
    ensures Filter(Create(items, created), OtherId(Prop(created, "id"))) == Filter(items, OtherId(Prop(created, "id")))
  {
    assert Create(items, created) == [created] + items;
    assert StrictEq(Prop(created, "id"), Prop(created, "id"));
    FilterDropsHead(created, items, OtherId(Prop(created, "id")));
  }

  lemma DeleteConfirmed(items: seq<Value>, course: Value)
    requires Truthy(Prop(course, "id"))
    ensures Delete(items, course, true) == Filter(items, OtherId(Prop(course, "id")))
  {
  }

  /** The edit form is closed when the course it holds is deleted. */
  function EditingAfterDelete(editing: Value, deleted: Value): (r: Value)
    ensures StrictEq(Prop(editing, "id"), Prop(deleted, "id")) ==> r == Null
    ensures !StrictEq(Prop(editing, "id"), Prop(deleted, "id")) ==> r == editing
  {
    if StrictEq(Prop(editing, "id"), Prop(deleted, "id")) then Null else editing
  }
}

=== FILE: js_number.dfy ===
/**
 * JavaScript's `Number(v)` on the values the client handles, with NaN as
 * `None`. Strings are read as optionally signed decimals after trimming;
 * exponents, hexadecimal and "Infinity" are not recognised here.
 */
module JsNumber {
  import opened Json
  import opened Wrappers
  import Text

  predicate AllDigits(s: string)
  {
    forall i :: 0 <= i < |s| ==> '0' <= s[i] <= '9'
  }

  /** The value of a run of decimal digits read as a fraction after the point. */
  function FractionValue(s: string): (r: real)
    requires AllDigits(s)
    ensures 0.0 <= r < 1.0
  {
    if s == [] then 0.0 else ((s[0] as int - '0' as int) as real + FractionValue(s[1..])) / 10.0
  }

  /** The position of the first '.', or the length when there is none. */
  function Dot(s: string): (k: nat)
    ensures k <= |s|
    ensures k < |s| ==> s[k] == '.'
    ensures forall i :: 0 <= i < k ==> s[i] != '.'
  {
    if s == [] then 0 else if s[0] == '.' then 0 else 1 + Dot(s[1..])
  }

  /** An unsigned decimal: digits, optionally a point and more digits, with at least one digit. */
  function UnsignedDecimal(s: string): (r: Option<real>)
    ensures r.Some? ==> 0.0 <= r.value
    ensures s != [] && AllDigits(s) ==> r == Some(Text.ParseNat(s) as real)
  {
    if s == [] then None
    else if AllDigits(s) then Some(Text.ParseNat(s) as real)
    else
      var k := Dot(s);
      if k < |s| && AllDigits(s[..k]) && AllDigits(s[k + 1..]) && (k > 0 || k + 1 < |s|) then
        Some(Text.ParseNat(s[..k]) as real + FractionValue(s[k + 1..]))
      else None
  }

  /** `Number(s)` for a string: blank is 0, a signed decimal is its value, anything else NaN. */
  function StringToNumber(s: string): (r: Option<real>)
    ensures Text.AllSpace(s) ==> r == Some(0.0)
  {
    var t := Text.Trim(s);
    Text.TrimEmptyIff(s);
    if t == "" then Some(0.0)
    else if t[0] == '-' then
      match UnsignedDecimal(t[1..]) case Some(x) => Some(-x) case None => None
    else if t[0] == '+' then UnsignedDecimal(t[1..])
    else UnsignedDecimal(t)
  }

  /** An emptied input reads as 0. */
  lemma BlankIsZero()
    ensures ToNumber(Str("")) == Some(0.0)
  {
    assert Text.AllSpace("");
  }

  /** `Number(v)`: an array is read through its string form, an object is NaN. */
  function ToNumber(v: Value): (r: Option<real>)
    ensures v.Num? ==> r == Some(v.x)
    ensures v.Null? ==> r == Some(0.0)
    ensures v.Undefined? || v.Obj? ==> r.None?
    ensures v.Bool? ==> r == Some(if v.b then 1.0 else 0.0)
    ensures v.Str? ==> r == StringToNumber(v.s)
  {
    match v
    case Undefined => None
    case Null => Some(0.0)
    case Bool(b) => Some(if b then 1.0 else 0.0)
    case Num(x) => Some(x)
    case Str(s) => StringToNumber(s)
    case Arr(_) => StringToNumber(JsString(v))
    case Obj(_) => None
  }

  /** Reading back the text of a natural number gives the number. */
  lemma {:induction false} NatTextNumber(n: nat)
    ensures ToNumber(Str(Text.NatText(n))) == Some(n as real)
  {
    var s := Text.NatText(n);
    Text.NatTextRoundTrip(n);
    TrimNoSpace(s);
    assert AllDigits(s);
    assert s[0] != '-' && s[0] != '+';
    assert UnsignedDecimal(s) == Some(n as real);
    assert StringToNumber(s) == Some(n as real);
  }

  /** A run of digits trims to itself. */
  lemma TrimNoSpace(s: string)
    requires s != [] && forall i :: 0 <= i < |s| ==> '0' <= s[i] <= '9'
    ensures Text.Trim(s) == s
  {
    var a, b := s[0], s[|s| - 1];
    assert !Text.IsSpace(a) && !Text.IsSpace(b);
    assert Text.TrimStart(s) == s;
    assert Text.TrimEnd(s) == s;
  }
}

=== FILE: json.dfy ===
/**
 * The JavaScript values the client pages handle: parsed JSON response
 * bodies plus `undefined`, with the handful of language operations the
 * pages apply to them (truthiness, `??`, `||`, optional property access,
 * `Object.values`, one-level `flat`, `String(v)` and `Array.join`).
 *
 * Objects keep their entries in insertion order; keys are assumed
 * distinct, as `JSON.parse` produces them.
 */
module Json {
  import Text

  datatype Value =
    | Undefined
    | Null
    | Bool(b: bool)
    | Num(x: real)
    | Str(s: string)
    | Arr(items: seq<Value>)
    | Obj(fields: seq<Field>)

  datatype Field = Field(key: string, val: Value)

  /** `v == null`: true for null and undefined only. */
  predicate Nullish(v: Value)
  {
    v.Undefined? || v.Null?
  }

  /** `!!v` in JavaScript. */
  predicate Truthy(v: Value)
  {
    match v
    case Undefined => false
    case Null => false
    case Bool(b) => b
    case Num(x) => x != 0.0
    case Str(s) => s != ""
    case Arr(_) => true
    case Obj(_) => true
  }

  /** `a ?? b`. */
  function Coalesce(a: Value, b: Value): (r: Value)
    ensures !Nullish(a) ==> r == a
    ensures Nullish(a) ==> r == b
  {
    if Nullish(a) then b else a
  }

  /** `a || b`. */
  function Or(a: Value, b: Value): (r: Value)
    ensures Truthy(a) ==> r == a
    ensures !Truthy(a) ==> r == b
  {
    if Truthy(a) then a else b
  }

  /** The value stored under `key`, if any. */
  function Lookup(fields: seq<Field>, key: string): (r: Value)
    ensures (forall i :: 0 <= i < |fields| ==> fields[i].key != key) ==> r == Undefined
  {
    if fields == [] then Undefined
    else if fields[0].key == key then fields[0].val
    else Lookup(fields[1..], key)
  }

  /** `Lookup` finds the first entry under the key. */
  lemma {:induction false} LookupFirst(fields: seq<Field>, i: nat, key: string)
    requires i < |fields| && fields[i].key == key
    requires forall j :: 0 <= j < i ==> fields[j].key != key
    ensures Lookup(fields, key) == fields[i].val
  {
    if i > 0 {
      LookupFirst(fields[1..], i - 1, key);
    }
  }

  predicate HasKey(fields: seq<Field>, key: string)
  {
    exists i :: 0 <= i < |fields| && fields[i].key == key
  }

  /**
   * `v?.[key]` on a value that came from JSON: an object yields its entry
   * (undefined when missing); null and undefined yield undefined, and so
   * does every other value, none of which has the data properties the
   * pages read.
   */
  function Prop(v: Value, key: string): (r: Value)
    ensures !v.Obj? ==> r == Undefined
  {
    if v.Obj? then Lookup(v.fields, key) else Undefined
  }

  /** `key in v` for an object. */
  predicate Has(v: Value, key: string)
  {
    v.Obj? && HasKey(v.fields, key)
  }

  /** `Object.values(v)`: an object's values in order; an array's elements. */
  function ValuesOf(v: Value): (r: seq<Value>)
    ensures v.Obj? ==> |r| == |v.fields| && forall i :: 0 <= i < |r| ==> r[i] == v.fields[i].val
    ensures v.Arr? ==> r == v.items
    ensures !v.Obj? && !v.Arr? ==> r == []
  {
    match v
    case Obj(fields) => seq(|fields|, i requires 0 <= i < |fields| => fields[i].val)
    case Arr(items) => items
    case _ => []
  }

  /** `vs.flat()`: arrays are spliced in one level deep; other values are kept. */
  function Flat(vs: seq<Value>): (r: seq<Value>)
    ensures |r| >= |vs| - CountArrays(vs)
  {
    if vs == [] then []
    else (if vs[0].Arr? then vs[0].items else [vs[0]]) + Flat(vs[1..])
  }

  function CountArrays(vs: seq<Value>): nat
  {
    if vs == [] then 0 else (if vs[0].Arr? then 1 else 0) + CountArrays(vs[1..])
  }

  /** Every value of `Flat(vs)` is an element of `vs` or of an array element of `vs`. */
  lemma {:induction false} FlatMembers(vs: seq<Value>, x: Value)
    ensures x in Flat(vs) <==> exists i :: 0 <= i < |vs| && (if vs[i].Arr? then x in vs[i].items else x == vs[i])
  {
    if vs != [] {
      FlatMembers(vs[1..], x);
      if exists i :: 0 <= i < |vs[1..]| && (if vs[1..][i].Arr? then x in vs[1..][i].items else x == vs[1..][i]) {
        var i :| 0 <= i < |vs[1..]| && (if vs[1..][i].Arr? then x in vs[1..][i].items else x == vs[1..][i]);
        assert vs[i + 1] == vs[1..][i];
      }
      if exists i :: 0 <= i < |vs| && (if vs[i].Arr? then x in vs[i].items else x == vs[i]) {
        var i :| 0 <= i < |vs| && (if vs[i].Arr? then x in vs[i].items else x == vs[i]);
        if i > 0 { assert vs[1..][i - 1] == vs[i]; }
      }
    }
  }

  /** `a.join(sep)` on strings. */
  function Join(parts: seq<string>, sep: string): (r: string)
    ensures parts == [] ==> r == ""
    ensures |parts| == 1 ==> r == parts[0]
  {
    if parts == [] then ""
    else if |parts| == 1 then parts[0]
    else parts[0] + sep + Join(parts[1..], sep)
  }

  /** With a non-empty separator, a join is empty exactly when it has at most one part and that part is empty. */
  lemma {:induction false} JoinEmptyIff(parts: seq<string>, sep: string)
    requires sep != ""
    ensures Join(parts, sep) == "" <==> |parts| <= 1 && forall i :: 0 <= i < |parts| ==> parts[i] == ""
  {
    if |parts| > 1 {
      assert |Join(parts, sep)| >= |sep|;
    }
  }

  /** A join of non-empty parts is empty only when there are no parts. */
  lemma {:induction false} JoinNonEmpty(parts: seq<string>, sep: string)
    requires forall i :: 0 <= i < |parts| ==> parts[i] != ""
    ensures Join(parts, sep) == "" <==> parts == []
  {
    if |parts| > 1 {
      assert |Join(parts, sep)| >= |parts[0]|;
    }
  }

  /** `String(v)` for the values JSON can hold. */
  function JsString(v: Value): (r: string)
    ensures v.Str? ==> r == v.s
    ensures v.Null? ==> r == "null"
    ensures v.Undefined? ==> r == "undefined"
    ensures v.Obj? ==> r == "[object Object]"
    decreases v, 2
  {
    match v
    case Undefined => "undefined"
    case Null => "null"
    case Bool(b) => if b then "true" else "false"
    case Num(x) => Text.NumText(x)
    case Str(s) => s
    case Arr(items) => JoinFrom(v, 0)
    case Obj(_) => "[object Object]"
  }

  /** `a.join(",")` on the elements of the array `a` from position `k` on. */
  function JoinFrom(a: Value, k: nat): (r: string)
    requires a.Arr? && k <= |a.items|
    ensures k == |a.items| ==> r == ""
    ensures k + 1 == |a.items| ==> r == JoinPart(a.items[k])
    decreases a, 1, |a.items| - k
  {
    if k == |a.items| then ""
    else if k + 1 == |a.items| then JoinPart(a.items[k])
    else JoinPart(a.items[k]) + "," + JoinFrom(a, k + 1)
  }

  /** The text of an array is its elements' texts joined with commas. */
  lemma ArrayTextJoins(items: seq<Value>)
    ensures JsString(Arr(items)) == Join(seq(|items|, i requires 0 <= i < |items| => JoinPart(items[i])), ",")
  {
    JoinFromJoins(Arr(items), 0);
    assert seq(|items|, i requires 0 <= i < |items| => JoinPart(items[i])) == PartsFrom(items, 0);
  }

  function PartsFrom(items: seq<Value>, k: nat): seq<string>
    requires k <= |items|
  {
    seq(|items| - k, i requires 0 <= i < |items| - k => JoinPart(items[k + i]))
  }

  lemma {:induction false} JoinFromJoins(a: Value, k: nat)
    requires a.Arr? && k <= |a.items|
    ensures JoinFrom(a, k) == Join(PartsFrom(a.items, k), ",")
    decreases |a.items| - k
  {
    if k + 1 < |a.items| {
      JoinFromJoins(a, k + 1);
      assert PartsFrom(a.items, k)[1..] == PartsFrom(a.items, k + 1);
    }
  }

  /** How `Array.join` writes one element: null and undefined become "". */
  function JoinPart(v: Value): (r: string)
    ensures Nullish(v) ==> r == ""
    ensures !Nullish(v) ==> r == JsString(v)
    decreases v, 3
  {
    if Nullish(v) then "" else JsString(v)
  }

  /** `vs.join(sep)` on arbitrary values. */
  function JoinValues(vs: seq<Value>, sep: string): (r: string)
    ensures (forall i :: 0 <= i < |vs| ==> vs[i].Str?) ==>
              r == Join(seq(|vs|, i requires 0 <= i < |vs| => vs[i].s), sep)
  {
    var parts := seq(|vs|, i requires 0 <= i < |vs| => JoinPart(vs[i]));
    assert (forall i :: 0 <= i < |vs| ==> vs[i].Str?) ==>
             parts == seq(|vs|, i requires 0 <= i < |vs| => vs[i].s);
    Join(parts, sep)
  }

  /** `vs.map(String)`. */
  function StringAll(vs: seq<Value>): (r: seq<Value>)
    ensures |r| == |vs|
    ensures forall i :: 0 <= i < |r| ==> r[i] == Str(JsString(vs[i]))
  {
    seq(|vs|, i requires 0 <= i < |vs| => Str(JsString(vs[i])))
  }

  /**
   * `a === b` for the primitive values ids are made of. Arrays and objects
   * are compared by reference in JavaScript; two values decoded from
   * different responses are never the same reference, so they never match.
   */
  predicate StrictEq(a: Value, b: Value)
  {
    match a
    case Undefined => b.Undefined?
    case Null => b.Null?
    case Bool(x) => b.Bool? && b.b == x
    case Num(x) => b.Num? && b.x == x
    case Str(x) => b.Str? && b.s == x
    case Arr(_) => false
    case Obj(_) => false
  }

  /** `x => x.id === id ? updated : x`: the map step of a list update by id. */
  function ReplaceById(id: Value, updated: Value): Value -> Value
  {
    (x: Value) => if StrictEq(Prop(x, "id"), id) then updated else x
  }

  /** `x => x.id !== id`: the filter step of a list delete by id. */
  function OtherId(id: Value): Value -> bool
  {
    (x: Value) => !StrictEq(Prop(x, "id"), id)
  }

  /** `{ ...obj, [key]: v }`: the entry under `key` becomes `v` and every other entry reads as before. */
  function SetKey(fields: seq<Field>, key: string, v: Value): (r: seq<Field>)
    ensures Lookup(r, key) == v
    ensures forall k :: k != key ==> Lookup(r, k) == Lookup(fields, k)
  {
    if fields == [] then [Field(key, v)]
    else if fields[0].key == key then
      var r := [Field(key, v)] + fields[1..];
      assert r[1..] == fields[1..];
      LookupSkip(r);
      LookupSkip(fields);
      r
    else
      var rest := SetKey(fields[1..], key, v);
      var r := [fields[0]] + rest;
      assert r[1..] == rest;
      LookupSkip(r);
      LookupSkip(fields);
      r
  }

  /** An existing entry is overwritten in place. */
  lemma {:induction false} SetKeyInPlace(fields: seq<Field>, key: string, v: Value)
    requires HasKey(fields, key)
    ensures |SetKey(fields, key, v)| == |fields|
  {
    if fields[0].key != key {
      HasKeyTail(fields, key);
      SetKeyInPlace(fields[1..], key, v);
    }
  }

  /** A new entry is appended at the end. */
  lemma {:induction false} SetKeyAppends(fields: seq<Field>, key: string, v: Value)
    requires !HasKey(fields, key)
    ensures SetKey(fields, key, v) == fields + [Field(key, v)]
  {
    if fields != [] {
      assert fields[0].key != key;
      HasKeyTail(fields, key);
      SetKeyAppends(fields[1..], key, v);
      assert fields + [Field(key, v)] == [fields[0]] + (fields[1..] + [Field(key, v)]);
    }
  }

  /** A lookup under any key but the first entry's skips that entry. */
  lemma LookupSkip(fields: seq<Field>)
    requires fields != []
    ensures forall k :: k != fields[0].key ==> Lookup(fields, k) == Lookup(fields[1..], k)
  {
  }

  lemma HasKeyTail(fields: seq<Field>, key: string)
    requires fields != [] && fields[0].key != key
    ensures HasKey(fields, key) <==> HasKey(fields[1..], key)
  {
    if HasKey(fields, key) {
      var i :| 0 <= i < |fields| && fields[i].key == key;
      assert fields[1..][i - 1] == fields[i];
    }
    if HasKey(fields[1..], key) {
      var i :| 0 <= i < |fields[1..]| && fields[1..][i].key == key;
      assert fields[i + 1] == fields[1..][i];
    }
  }

  /** The entries `{ ...v }` copies: an object's own entries, nothing for null or undefined. */
  function SpreadFields(v: Value): (r: seq<Field>)
    ensures v.Obj? ==> r == v.fields
    ensures !v.Obj? ==> r == []
  {
    if v.Obj? then v.fields else []
  }
}

=== FILE: lesson_viewer.dfy ===
/**
 * The lesson viewer page: it loads the course's lesson list for the
 * previous/next links and the lesson itself (the course-scoped endpoint
 * first, the global one as a fallback), shows the lesson's text, and
 * marks the lesson complete, colouring the status line green when its
 * text mentions completion.
 */
module LessonViewer {
  import opened Json
  import opened Wrappers
  import Text
  import Seqs
  import Search
  import Messages
  import Store
  import Users
  import CourseViews
  import CourseSerializers
  import Wire
  import Permissions

  // ---- Previous and next ----

  /** The neighbours of the open lesson in the list; `Null` where there is none. */
  datatype Neighbours = Neighbours(prev: Value, next: Value)

  /** `String(l.id)`, the form the route's lesson id is compared in. */
  function IdText(l: Value): string
  {
    JsString(Prop(l, "id"))
  }

  /** `findIndex`: the position of the first lesson whose id reads as `lessonId`. */
  function IndexOf(list: seq<Value>, lessonId: string): (r: Option<nat>)
    ensures r.Some? ==> r.value < |list| && IdText(list[r.value]) == lessonId
    ensures r.Some? ==> forall j :: 0 <= j < r.value ==> IdText(list[j]) != lessonId
    ensures r.None? <==> forall j :: 0 <= j < |list| ==> IdText(list[j]) != lessonId
  {
    if list == [] then None
    else if IdText(list[0]) == lessonId then Some(0)
    else
      var tail := list[1..];
      assert list == [list[0]] + tail;
      match IndexOf(tail, lessonId)
      case None => None
      case Some(i) => Some(i + 1)
  }

  /**
   * The `nav` memo: no links when the list is empty or does not hold the
   * open lesson; otherwise the lessons just before and just after it.
   */
  function Nav(list: seq<Value>, lessonId: string): (r: Neighbours)
    ensures IndexOf(list, lessonId).None? ==> r == Neighbours(Null, Null)
    ensures IndexOf(list, lessonId).Some? ==>
              var i := IndexOf(list, lessonId).value;
              && r.prev == (if i == 0 then Null else list[i - 1])
              && r.next == (if i == |list| - 1 then Null else list[i + 1])
  {
    if |list| == 0 then Neighbours(Null, Null)
    else match IndexOf(list, lessonId)
      case None => Neighbours(Null, Null)
      case Some(i) =>
        Neighbours(if i > 0 then list[i - 1] else Null, if i < |list| - 1 then list[i + 1] else Null)
  }

  /** No two lessons of the list have ids that read the same. */
  predicate DistinctIds(list: seq<Value>)
  {
    forall i, j :: 0 <= i < j < |list| ==> IdText(list[i]) != IdText(list[j])
  }

  /**
   * With distinct ids, the lesson at position `i` links back to position
   * `i - 1` and on to `i + 1`: the first lesson has no previous link and
   * the last no next one.
   */
  lemma NavAt(list: seq<Value>, i: nat)
    requires DistinctIds(list) && i < |list|
    ensures Nav(list, IdText(list[i])) ==
              Neighbours(if i == 0 then Null else list[i - 1], if i == |list| - 1 then Null else list[i + 1])
  {
    IndexAt(list, i);
    NavFound(list, IdText(list[i]), i);
  }

  lemma NavFound(list: seq<Value>, lessonId: string, i: nat)
    requires IndexOf(list, lessonId) == Some(i)
    ensures Nav(list, lessonId) ==
              Neighbours(if i == 0 then Null else list[i - 1], if i == |list| - 1 then Null else list[i + 1])
  {
  }

  /** With distinct ids, a lesson's own id is found at its own position. */
  lemma {:induction false} IndexAt(list: seq<Value>, i: nat)
    requires DistinctIds(list) && i < |list|
    ensures IndexOf(list, IdText(list[i])) == Some(i)
  {
    if i > 0 {
      var tail := list[1..];
      DistinctTail(list, i);
      assert tail[i - 1] == list[i];
      IndexAt(tail, i - 1);
    }
  }

  lemma DistinctTail(list: seq<Value>, i: nat)
    requires DistinctIds(list) && 0 < i < |list|
    ensures DistinctIds(list[1..])
    ensures IdText(list[0]) != IdText(list[i])
  {
    var tail := list[1..];
    forall a, b | 0 <= a < b < |tail| ensures IdText(tail[a]) != IdText(tail[b]) {
      assert tail[a] == list[a + 1] && tail[b] == list[b + 1];
    }
  }

  /**
   * Following "Next →" and then "← Prev" comes back to the open lesson:
   * the next lesson's previous link is the lesson the user started from.
   */
  lemma NextThenPrev(list: seq<Value>, lessonId: string)
    requires DistinctIds(list)
    requires Nav(list, lessonId).next != Null
    ensures IndexOf(list, lessonId).Some?
    ensures Nav(list, IdText(Nav(list, lessonId).next)).prev == list[IndexOf(list, lessonId).value]
  {
    var i := IndexOf(list, lessonId).value;
    assert i < |list| - 1;
    NavAt(list, i + 1);
  }

  /** And "← Prev" followed by "Next →" comes back too. */
  lemma PrevThenNext(list: seq<Value>, lessonId: string)
    requires DistinctIds(list)
    requires Nav(list, lessonId).prev != Null
    ensures IndexOf(list, lessonId).Some?
    ensures Nav(list, IdText(Nav(list, lessonId).prev)).next == list[IndexOf(list, lessonId).value]
  {
    var i := IndexOf(list, lessonId).value;
    assert i > 0;
    NavAt(list, i - 1);
  }

  // ---- Against the server's lesson list ----

  /** The lesson list the server sends for a course, as the page receives it. */
  function ServerList(db: Store.Db, courseId: nat): (r: seq<Value>)
    ensures |r| == |CourseViews.ListLessons(db, courseId)|
    ensures forall i :: 0 <= i < |r| ==> r[i] == Wire.LessonJson(CourseViews.ListLessons(db, courseId)[i])
  {
    Wire.LessonsJson(CourseViews.ListLessons(db, courseId))
  }

  /** A served lesson's id reads as its decimal digits. */
  lemma ServedIdText(l: Store.Lesson)
    ensures IdText(Wire.LessonJson(l)) == Text.NatText(l.id)
  {
    assert (l.id as real).Floor == l.id;
  }

  /** In a valid store the lessons of one course carry distinct ids. */
  lemma ServerLessonIdsDistinct(db: Store.Db, courseId: nat)
    requires Store.Valid(db)
    ensures var r := CourseViews.ListLessons(db, courseId);
            forall i, j :: 0 <= i < j < |r| ==> r[i].id != r[j].id
  {
    CourseViews.ListLessonsStrict(db, courseId);
    ListedRowsStored(db, courseId);
    StrictRowsDistinctIds(db.lessons, CourseViews.ListLessons(db, courseId));
  }

  lemma ListedRowsStored(db: Store.Db, courseId: nat)
    ensures var r := CourseViews.ListLessons(db, courseId);
            forall i :: 0 <= i < |r| ==> r[i] in db.lessons
  {
  }

  /** Rows of a keyed table listed in strictly increasing order have distinct keys. */
  lemma StrictRowsDistinctIds(lessons: seq<Store.Lesson>, r: seq<Store.Lesson>)
    requires Seqs.Pairwise(lessons, Store.DistinctLessons)
    requires forall i :: 0 <= i < |r| ==> r[i] in lessons
    requires forall i, j :: 0 <= i < j < |r| ==> r[i].order < r[j].order
    ensures forall i, j :: 0 <= i < j < |r| ==> r[i].id != r[j].id
  {
    forall i, j | 0 <= i < j < |r| ensures r[i].id != r[j].id {
      Store.LessonRowsDiffer(lessons, r[i], r[j]);
    }
  }

  /** So the ids the page compares read differently too. */
  lemma ServerListIdsDistinct(db: Store.Db, courseId: nat)
    requires Store.Valid(db)
    ensures DistinctIds(ServerList(db, courseId))
  {
    var r := CourseViews.ListLessons(db, courseId);
    var list := ServerList(db, courseId);
    ServerLessonIdsDistinct(db, courseId);
    forall i, j | 0 <= i < j < |list| ensures IdText(list[i]) != IdText(list[j]) {
      ServedIdText(r[i]);
      ServedIdText(r[j]);
      if Text.NatText(r[i].id) == Text.NatText(r[j].id) {
        Text.NatTextRoundTrip(r[i].id);
        Text.NatTextRoundTrip(r[j].id);
      }
    }
  }

  /**
   * On a lesson of the server's list, "Next →" leads to the lesson with the
   * next higher order in the course and "← Prev" to the one with the next
   * lower order.
   */
  lemma ServerNav(db: Store.Db, courseId: nat, i: nat)
    requires Store.Valid(db) && i < |CourseViews.ListLessons(db, courseId)|
    ensures var r := CourseViews.ListLessons(db, courseId);
            var nav := Nav(ServerList(db, courseId), Text.NatText(r[i].id));
            && (i + 1 < |r| ==> nav.next == Wire.LessonJson(r[i + 1]) && r[i].order < r[i + 1].order)
            && (i + 1 == |r| ==> nav.next == Null)
            && (i > 0 ==> nav.prev == Wire.LessonJson(r[i - 1]) && r[i - 1].order < r[i].order)
            && (i == 0 ==> nav.prev == Null)
  {
    var r := CourseViews.ListLessons(db, courseId);
    ServerListIdsDistinct(db, courseId);
    CourseViews.ListLessonsStrict(db, courseId);
    ServedIdText(r[i]);
    NavAt(ServerList(db, courseId), i);
  }

  // ---- The lesson ----

  /** `lesson.content ?? lesson.body ?? lesson.text ?? lesson.description ?? ""`. */
  function Content(lesson: Value): (r: Value)
    ensures !Nullish(Prop(lesson, "content")) ==> r == Prop(lesson, "content")
    ensures (&& Nullish(Prop(lesson, "content")) && Nullish(Prop(lesson, "body"))
             && Nullish(Prop(lesson, "text")) && Nullish(Prop(lesson, "description"))) ==> r == Str("")
  {
    Coalesce(Coalesce(Coalesce(Coalesce(Prop(lesson, "content"), Prop(lesson, "body")), Prop(lesson, "text")), Prop(lesson, "description")), Str(""))
  }

  lemma {:induction false} AbsentKey(fields: seq<Field>, key: string)
    requires forall i :: 0 <= i < |fields| ==> fields[i].key != key
    ensures Lookup(fields, key) == Undefined
  {
  }

  /**
   * A lesson as the server stores it has none of the text fields the page
   * looks for, so the viewer shows its "No content." placeholder for every
   * lesson.
   */
  lemma ServedLessonHasNoContent(l: Store.Lesson)
    ensures !Truthy(Content(Wire.LessonJson(l)))
  {
    ServedLessonLacks(l, "content");
    ServedLessonLacks(l, "body");
    ServedLessonLacks(l, "text");
    ServedLessonLacks(l, "description");
  }

  /** The served keys have 2, 5, 6, 8 or 9 characters, so a key of any other length is missing. */
  lemma ServedLessonLacks(l: Store.Lesson, key: string)
    requires |key| == 4 || |key| == 7 || |key| == 11
    ensures Prop(Wire.LessonJson(l), key) == Undefined
  {
    var fs := Wire.LessonFields(l);
    assert |fs[0].key| == 2 && |fs[1].key| == 5 && |fs[2].key| == 9;
    assert |fs[3].key| == 8 && |fs[4].key| == 5 && |fs[5].key| == 6;
    AbsentKey(fs, key);
  }

  // ---- Loading ----

  const LoadFailed := "Failed to load lesson."

  /** What `load` leaves behind: the list for the links, the lesson, and the error text ("" for none). */
  datatype Loaded = Loaded(list: seq<Value>, lesson: Value, error: Value)

  /**
   * `load`. A failed list request only costs the links; the lesson comes
   * from the course-scoped request, or from the global one when that
   * fails; when both fail, the page shows the second failure's
   * `detail || message || "Failed to load lesson."`.
   */
  function Load(list: Result<Value, Value>, scoped: Result<Value, Value>, global: Result<Value, Value>): (r: Loaded)
    ensures list.Err? ==> r.list == []
    ensures list.Ok? && Search.Items(list.value).Some? ==> r.list == Search.Items(list.value).value
    ensures scoped.Ok? ==> r.lesson == scoped.value && r.error == Str("")
    ensures scoped.Err? && global.Ok? ==> r.lesson == global.value && r.error == Str("")
    ensures scoped.Err? && global.Err? ==> r.lesson == Null && Truthy(r.error)
  {
    var items := if list.Ok? && Search.Items(list.value).Some? then Search.Items(list.value).value else [];
    if scoped.Ok? then Loaded(items, scoped.value, Str(""))
    else if global.Ok? then Loaded(items, global.value, Str(""))
    else
      Messages.DetailOrMessageShows(global.error, LoadFailed);
      Loaded(items, Null, Messages.DetailOrMessage(global.error, LoadFailed))
  }

  /**
   * Over the server's lesson list, the page keeps that list for its links,
   * so on the lesson at position `i` they are the ones `ServerNav`
   * describes: the neighbours by order within the course.
   */
  lemma LoadServerNav(db: Store.Db, courseId: nat, i: nat, scoped: Result<Value, Value>, global: Result<Value, Value>)
    requires Store.Valid(db) && i < |CourseViews.ListLessons(db, courseId)|
    ensures var r := CourseViews.ListLessons(db, courseId);
            var loaded := Load(Ok(Arr(ServerList(db, courseId))), scoped, global);
            var nav := Nav(loaded.list, Text.NatText(r[i].id));
            && loaded.list == ServerList(db, courseId)
            && (i + 1 < |r| ==> nav.next == Wire.LessonJson(r[i + 1]) && r[i].order < r[i + 1].order)
            && (i + 1 == |r| ==> nav.next == Null)
            && (i > 0 ==> nav.prev == Wire.LessonJson(r[i - 1]) && r[i - 1].order < r[i].order)
            && (i == 0 ==> nav.prev == Null)
  {
    ServerNav(db, courseId, i);
  }

  // ---- Marking complete ----

  const MarkedComplete := "Marked complete."
  const MarkFailed := "Could not update progress (check endpoint)."

  /** The status line after `markComplete`, and the lesson it moves on to, if any. */
  datatype Outcome = Outcome(status: string, succeeded: bool, goTo: Option<string>)

  function LessonPath(courseId: string, lesson: Value): string
  {
    "/courses/" + courseId + "/lessons/" + IdText(lesson)
  }

  /**
   * `markComplete`: on success the status says so and, when there is a next
   * lesson, the page moves on to it; on failure the status is the
   * response's `detail ?? message ?? data` as text, with the endpoint
   * fallback when that reads as nothing, and the page stays.
   */
  function MarkComplete(result: Result<Value, Value>, nav: Neighbours, courseId: string): (r: Outcome)
    ensures r.succeeded <==> result.Ok?
    ensures result.Ok? ==> r.status == MarkedComplete
    ensures result.Ok? && Truthy(nav.next) ==> r.goTo == Some(LessonPath(courseId, nav.next))
    ensures !result.Ok? || !Truthy(nav.next) ==> r.goTo.None?
    ensures result.Err? ==> r.status == Messages.ToMessageText(Messages.ErrorPayload(result.error), MarkFailed)
  {
    match result
    case Ok(_) => Outcome(MarkedComplete, true, if Truthy(nav.next) then Some(LessonPath(courseId, nav.next)) else None)
    case Err(data) => Outcome(Messages.ToMessageText(Messages.ErrorPayload(data), MarkFailed), false, None)
  }

  /**
   * `isSuccessStatus` as written: the status is coloured green when its
   * lower-cased text contains "complete", whatever the request's outcome.
   */
  predicate IsSuccessStatusAsWritten(status: string)
  {
    Text.Contains(Text.ToLower(status), "complete")
  }

  /** The green colour as intended: for a request that succeeded. */
  predicate IsSuccessStatus(o: Outcome)
  {
    o.succeeded
  }

  /** The intended colouring is green exactly after a successful request. */
  lemma GreenIffSucceeded(result: Result<Value, Value>, nav: Neighbours, courseId: string)
    ensures IsSuccessStatus(MarkComplete(result, nav, courseId)) <==> result.Ok?
  {
  }

  /** On success the written test agrees with the intended one. */
  lemma SuccessTextIsGreen()
    ensures IsSuccessStatusAsWritten(MarkedComplete)
  {
    Text.ContainsLower(MarkedComplete, "complete", 7);
  }

  /** The duplicate-completion refusal mentions completion. */
  lemma DuplicateTextMentionsCompletion()
    ensures IsSuccessStatusAsWritten(CourseViews.AlreadyCompletedMessage)
  {
    var m := CourseViews.AlreadyCompletedMessage;
    assert m[15] == 'C' && m[16..23] == "omplete";
    Text.ContainsLower(m, "complete", 15);
  }

  /**
   * The duplicate `perform_create` reports when the save of the progress
   * row hits the (student, lesson) constraint: the serializer's checks
   * pass for the lesson named by `pk`, while the lesson named by the course
   * route is already completed. Its bare `detail` text reaches the page,
   * and the written test colours that refusal green.
   */
  lemma DuplicateCompletionLooksSuccessful(db: Store.Db, p: Users.Principal, pk: nat, courseId: nat, lessonId: nat,
                                           nav: Neighbours, route: string)
    requires Permissions.IsStudent(p) && CourseSerializers.ValidateProgress(db, p.user, Some(pk)).Ok?
    requires Store.LessonInCourse(db.lessons, lessonId, courseId) && Store.IsEnrolled(db, p.user.id, courseId)
    requires Store.HasProgress(db, p.user.id, lessonId)
    ensures var reply := CourseViews.MarkCompleted(db, p, Some(pk), courseId, lessonId);
            && reply.result.Err? && Messages.Body(reply.result.error, false).Some?
            && var o := MarkComplete(Err(Messages.Body(reply.result.error, false).value), nav, route);
               && !o.succeeded && o.status == CourseViews.AlreadyCompletedMessage
               && IsSuccessStatusAsWritten(o.status)
  {
    CourseViews.MarkCompletedSaveClash(db, p, pk, courseId, lessonId);
    var e := Permissions.Error.ValidationError("detail", CourseViews.AlreadyCompletedMessage);
    Messages.RefusalShownInViewer(e, false, MarkFailed);
    DuplicateTextMentionsCompletion();
  }

  /** The serializer's refusal of a repeat does not mention completion. */
  lemma RepeatTextIsRed()
    ensures !IsSuccessStatusAsWritten(CourseSerializers.ProgressExistsMessage)
  {
    Text.FirstLetterAbsent(CourseSerializers.ProgressExistsMessage, "complete");
  }

  /**
   * Marking an already completed lesson again through the same route is
   * refused by the serializer; its message reaches the page as a
   * one-element list under `detail` and is shown in red.
   */
  lemma RepeatCompletionShownRed(db: Store.Db, p: Users.Principal, courseId: nat, lessonId: nat, nav: Neighbours, route: string)
    requires CourseViews.MarkCompleted(db, p, Some(lessonId), courseId, lessonId).result.Ok?
    ensures var d := CourseViews.MarkCompleted(db, p, Some(lessonId), courseId, lessonId).db;
            var reply := CourseViews.MarkCompleted(d, p, Some(lessonId), courseId, lessonId);
            && reply.result.Err? && Messages.Body(reply.result.error, true).Some?
            && var o := MarkComplete(Err(Messages.Body(reply.result.error, true).value), nav, route);
               && !o.succeeded && o.status == CourseSerializers.ProgressExistsMessage
               && !IsSuccessStatusAsWritten(o.status)
  {
    CourseViews.MarkCompletedTwiceRefused(db, p, courseId, lessonId);
    var e := Permissions.Error.ValidationError("detail", CourseSerializers.ProgressExistsMessage);
    Messages.RefusalShownInViewer(e, true, MarkFailed);
    RepeatTextIsRed();
  }
}

=== FILE: manage_lessons.dfy ===
/**
 * The instructor's lesson panel for one course: the loaded lessons kept
 * sorted by `order` (a missing order counts as 0), the order offered for
 * a new lesson, and the list updates after a create, update or delete.
 * Lessons and ids are JSON values as the server sends them; orders are
 * numbers or missing.
 */
module ManageLessons {
  import opened Json
  import opened Wrappers
  import opened Seqs
  import Search
  import Store
  import CourseViews
  import Wire

  /** `l.order ?? 0` as the comparator and `Math.max` read it. */
  function OrderKey(l: Value): real
  {
    var o := Prop(l, "order");
    if o.Num? then o.x else 0.0
  }

  /** `list.sort((a, b) => (a.order ?? 0) - (b.order ?? 0))`: a stable sort by that key. */
  function SortLessons(list: seq<Value>): (r: seq<Value>)
    ensures SortedBy(r, OrderKey)
    ensures multiset(r) == multiset(list)
  {
    SortBy(list, OrderKey)
  }

  /**
   * The panel's load as written. The list wrapper resolves with the HTTP
   * client's whole response object rather than its `data`, so the page
   * normalises the envelope: it is not an array and has no `results`.
   */
  function LoadAsWritten(envelope: Value): (r: seq<Value>)
  {
    match Search.Items(envelope)
    case Some(items) => SortLessons(items)
    case None => []
  }

  /** Whatever the server answers, the panel as written lists no lessons. */
  lemma LoadAsWrittenEmpty(body: Value, status: nat)
    ensures LoadAsWritten(Wire.Envelope(body, status)) == []
  {
  }

  /** The load reading the response body, as every other list wrapper does. */
  function Load(body: Value): (r: seq<Value>)
    ensures SortedBy(r, OrderKey)
    ensures Search.Items(body).Some? ==> multiset(r) == multiset(Search.Items(body).value)
  {
    match Search.Items(body)
    case Some(items) => SortLessons(items)
    case None => []
  }

  function MaxOrder(list: seq<Value>): (m: real)
    requires list != []
    ensures forall i :: 0 <= i < |list| ==> OrderKey(list[i]) <= m
    ensures exists i :: 0 <= i < |list| && OrderKey(list[i]) == m
  {
    if |list| == 1 then OrderKey(list[0])
    else
      var rest := MaxOrder(list[1..]);
      assert forall i :: 1 <= i < |list| ==> list[i] == list[1..][i - 1];
      if OrderKey(list[0]) >= rest then OrderKey(list[0]) else rest
  }

  /**
   * The order offered for a new lesson: one more than the largest order
   * on the list, or 1 for an empty list. It is above every listed order,
   * and at least 1 when the orders are not negative.
   */
  function DefaultOrder(list: seq<Value>): (r: real)
    ensures forall i :: 0 <= i < |list| ==> OrderKey(list[i]) < r
    ensures (forall i :: 0 <= i < |list| ==> 0.0 <= OrderKey(list[i])) ==> 1.0 <= r
    ensures list == [] ==> r == 1.0
  {
    if list == [] then 1.0 else MaxOrder(list) + 1.0
  }

  /** The offer depends only on which lessons are listed, not on their order. */
  lemma DefaultOrderPermutation(a: seq<Value>, b: seq<Value>)
    requires multiset(a) == multiset(b)
    ensures DefaultOrder(a) == DefaultOrder(b)
  {
    if a != [] {
      assert b != [] by { assert a[0] in multiset(b); }
      var i :| 0 <= i < |a| && OrderKey(a[i]) == MaxOrder(a);
      var j :| 0 <= j < |b| && OrderKey(b[j]) == MaxOrder(b);
      assert a[i] in multiset(b) && b[j] in multiset(a);
      assert OrderKey(a[i]) <= MaxOrder(b) && OrderKey(b[j]) <= MaxOrder(a);
    } else {
      assert |b| == |multiset(b)| == 0;
    }
  }

  /** The lesson list of a course as the panel receives it from the server. */
  function ServerBody(db: Store.Db, courseId: nat): Value
  {
    Arr(Map(CourseViews.ListLessons(db, courseId), Wire.LessonJson))
  }

  /**
   * Loading the course's lessons and offering the default order never
   * proposes an order one of its lessons already has, so the server's
   * uniqueness check accepts it.
   */
  lemma DefaultOrderIsFree(db: Store.Db, courseId: nat, l: Store.Lesson)
    requires l in db.lessons && l.courseId == courseId
    ensures l.order as real < DefaultOrder(Load(ServerBody(db, courseId)))
  {
    var server := CourseViews.ListLessons(db, courseId);
    var items := Map(server, Wire.LessonJson);
    var loaded := Load(Arr(items));
    var k :| 0 <= k < |server| && server[k] == l;
    assert items[k] == Wire.LessonJson(l);
    assert items[k] in multiset(loaded);
    var m :| 0 <= m < |loaded| && loaded[m] == items[k];
    assert OrderKey(loaded[m]) == l.order as real;
  }

  /**
   * As written, a course whose first lesson has order 1 is offered order 1
   * again: the default is computed from the always-empty list.
   */
  lemma DefaultOrderAsWrittenTaken(db: Store.Db, courseId: nat, l: Store.Lesson, status: nat)
    requires l in db.lessons && l.courseId == courseId && l.order == 1
    ensures DefaultOrder(LoadAsWritten(Wire.Envelope(ServerBody(db, courseId), status))) == 1.0
    ensures Store.OrderTaken(db.lessons, courseId, 1, None)
  {
    var i :| 0 <= i < |db.lessons| && db.lessons[i] == l;
  }

  /** `[...prev, created].sort(...)`: the created lesson joins the list, which stays sorted. */
  function Create(list: seq<Value>, created: Value): (r: seq<Value>)
    ensures SortedBy(r, OrderKey)
    ensures multiset(r) == multiset(list) + multiset{created}
  {
    SortLessons(list + [created])
  }

  function SameId(id: Value): Value -> bool
  {
    (l: Value) => StrictEq(Prop(l, "id"), id)
  }

  /**
   * The update: without an id being edited nothing changes; otherwise every
   * lesson with that id is replaced by the server's copy and the list is
   * sorted again.
   */
  function Update(list: seq<Value>, editingId: Value, updated: Value): (r: seq<Value>)
    ensures !Truthy(editingId) ==> r == list
    ensures Truthy(editingId) ==> SortedBy(r, OrderKey) && multiset(r) == multiset(Map(list, ReplaceById(editingId, updated)))
  {
    if !Truthy(editingId) then list else SortLessons(Map(list, ReplaceById(editingId, updated)))
  }

  /** After an update of a listed lesson, the server's copy is on the list and no stale copy is. */
  lemma UpdateReplaces(list: seq<Value>, editingId: Value, updated: Value, x: Value)
    requires Truthy(editingId) && exists i :: 0 <= i < |list| && SameId(editingId)(list[i])
    ensures updated in Update(list, editingId, updated)
    ensures x in Update(list, editingId, updated) && x != updated ==> x in list && !SameId(editingId)(x)
  {
    UpdateHasCopy(list, editingId, updated);
    if x in Update(list, editingId, updated) && x != updated {
      UpdateKeepsOthers(list, editingId, updated, x);
    }
  }

  lemma UpdateHasCopy(list: seq<Value>, editingId: Value, updated: Value)
    requires Truthy(editingId) && exists i :: 0 <= i < |list| && SameId(editingId)(list[i])
    ensures updated in Update(list, editingId, updated)
  {
    var mapped := Map(list, ReplaceById(editingId, updated));
    var i :| 0 <= i < |list| && SameId(editingId)(list[i]);
    assert mapped[i] == updated;
    assert updated in multiset(mapped);
    assert updated in multiset(Update(list, editingId, updated));
  }

  lemma UpdateKeepsOthers(list: seq<Value>, editingId: Value, updated: Value, x: Value)
    requires Truthy(editingId)
    requires x in Update(list, editingId, updated) && x != updated
    ensures x in list && !SameId(editingId)(x)
  {
    var mapped := Map(list, ReplaceById(editingId, updated));
    assert x in multiset(Update(list, editingId, updated));
    assert x in multiset(mapped);
    ReplacedMember(list, editingId, updated, x);
  }

  lemma ReplacedMember(list: seq<Value>, editingId: Value, updated: Value, x: Value)
    requires x in Map(list, ReplaceById(editingId, updated)) && x != updated
    ensures x in list && !SameId(editingId)(x)
  {
    var mapped := Map(list, ReplaceById(editingId, updated));
    var j :| 0 <= j < |mapped| && mapped[j] == x;
    assert mapped[j] == ReplaceById(editingId, updated)(list[j]);
  }

  /** The delete: exactly the lessons with that id leave the list; the rest keep their order. */
  function Delete(list: seq<Value>, id: Value): (r: seq<Value>)
    ensures forall x :: x in r <==> x in list && !StrictEq(Prop(x, "id"), id)
    ensures IsSubseq(r, list)
  {
    FilterIsSubseq(list, OtherId(id));
    Filter(list, OtherId(id))
  }

  /** A sorted list stays sorted when lessons are removed from it. */
  lemma DeleteKeepsSorted(list: seq<Value>, id: Value)
    requires SortedBy(list, OrderKey)
    ensures SortedBy(Delete(list, id), OrderKey)
  {
    PairwiseFilter(list, (a: Value, b: Value) => OrderKey(a) <= OrderKey(b), OtherId(id));
  }

  /** The lesson being edited is dropped from the form when it is the one deleted. */
  function EditingAfterDelete(editing: Value, deletedId: Value): (r: Value)
    ensures StrictEq(Prop(editing, "id"), deletedId) ==> r == Null
    ensures !StrictEq(Prop(editing, "id"), deletedId) ==> r == editing
  {
    if StrictEq(Prop(editing, "id"), deletedId) then Null else editing
  }
}

=== FILE: messages.dfy ===
/**
 * How the client pages turn an error response body into the text they
 * show: the recursive extraction of the course page, the flattening one of
 * the lesson viewer, and the `detail || message || fallback` chains of the
 * other pages. The last part connects these to the server's refusals.
 */
module Messages {
  import opened Json
  import opened Wrappers
  import Seqs
  import Permissions
  import Store
  import Users
  import CourseSerializers
  import CourseViews

  /** The position of the first entry under `key`, which `Lookup` reads. */
  function KeyIndex(fields: seq<Field>, key: string): (i: nat)
    requires HasKey(fields, key)
    ensures i < |fields| && fields[i].key == key && fields[i].val == Lookup(fields, key)
  {
    if fields[0].key == key then 0
    else
      var j :| 0 <= j < |fields| && fields[j].key == key;
      assert fields[1..][j - 1].key == key;
      1 + KeyIndex(fields[1..], key)
  }

  function NonEmpty(s: string): bool
  {
    s != ""
  }

  /**
   * `getMessageText(value, fallback)` of the course page. A string is
   * itself; an array gives the non-empty texts of its elements (each taken
   * with fallback "") joined by spaces, or the fallback when there are
   * none; an object defers to its `detail` entry, else its `message` entry,
   * else its first value; null and undefined give the fallback; any other
   * value its `String` form. Every recursive call is on a part of `v`.
   */
  function GetMessageText(v: Value, fallback: string): (r: string)
    ensures v.Str? ==> r == v.s
    ensures Nullish(v) ==> r == fallback
    ensures v.Bool? || v.Num? ==> r == JsString(v)
    ensures v.Obj? && v.fields == [] ==> r == fallback
    ensures v.Obj? && HasKey(v.fields, "detail") ==>
              r == GetMessageText(v.fields[KeyIndex(v.fields, "detail")].val, fallback)
    ensures v.Obj? && !HasKey(v.fields, "detail") && HasKey(v.fields, "message") ==>
              r == GetMessageText(v.fields[KeyIndex(v.fields, "message")].val, fallback)
    ensures v.Obj? && !HasKey(v.fields, "detail") && !HasKey(v.fields, "message") && v.fields != [] ==>
              r == GetMessageText(v.fields[0].val, fallback)
    ensures v.Arr? ==> r == fallback || r != ""
    decreases v
  {
    match v
    case Str(s) => s
    case Arr(items) =>
      var texts := seq(|items|, i requires 0 <= i < |items| => GetMessageText(items[i], ""));
      var text := Join(Seqs.Filter(texts, NonEmpty), " ");
      if text != "" then text else fallback
    case Obj(fields) =>
      if HasKey(fields, "detail") then GetMessageText(fields[KeyIndex(fields, "detail")].val, fallback)
      else if HasKey(fields, "message") then GetMessageText(fields[KeyIndex(fields, "message")].val, fallback)
      else if fields == [] then fallback
      else GetMessageText(fields[0].val, fallback)
    case Undefined => fallback
    case Null => fallback
    case Bool(_) => JsString(v)
    case Num(_) => JsString(v)
  }

  /** An array of non-empty strings reads as those strings joined by spaces, in order. */
  lemma ArrayOfTexts(parts: seq<string>, fallback: string)
    requires parts != [] && forall i :: 0 <= i < |parts| ==> parts[i] != ""
    ensures GetMessageText(Arr(seq(|parts|, i requires 0 <= i < |parts| => Str(parts[i]))), fallback) == Join(parts, " ")
  {
    var items := seq(|parts|, i requires 0 <= i < |parts| => Str(parts[i]));
    var texts := seq(|items|, i requires 0 <= i < |items| => GetMessageText(items[i], ""));
    assert texts == parts;
    Seqs.FilterAllPass(parts, NonEmpty);
    JoinNonEmpty(parts, " ");
  }

  /** The value a page hands to the extraction: `data?.detail ?? data?.message ?? data`. */
  function ErrorPayload(data: Value): (r: Value)
    ensures !Nullish(Prop(data, "detail")) ==> r == Prop(data, "detail")
    ensures Nullish(Prop(data, "detail")) && !Nullish(Prop(data, "message")) ==> r == Prop(data, "message")
    ensures Nullish(Prop(data, "detail")) && Nullish(Prop(data, "message")) ==> r == data
  {
    Coalesce(Coalesce(Prop(data, "detail"), Prop(data, "message")), data)
  }

  /** The course page's error text for a failed request whose response body is `data`. */
  function CourseErrorText(data: Value, fallback: string): (r: string)
    ensures data.Undefined? ==> r == fallback
    ensures data.Str? ==> r == data.s
  {
    GetMessageText(ErrorPayload(data), fallback)
  }

  /**
   * `toMessageText(value, fallback)` of the lesson viewer. A string is
   * itself; an array is its elements' `String` forms joined by spaces, with
   * no fallback; an object is its values, flattened one level, stringified
   * and joined, or the fallback when that is empty; anything else is the
   * fallback.
   */
  function ToMessageText(v: Value, fallback: string): (r: string)
    ensures v.Str? ==> r == v.s
    ensures v.Arr? ==> r == Join(seq(|v.items|, i requires 0 <= i < |v.items| => JsString(v.items[i])), " ")
    ensures v.Obj? ==> r == (var t := JoinValues(StringAll(Flat(ValuesOf(v))), " "); if t != "" then t else fallback)
    ensures !v.Str? && !v.Arr? && !v.Obj? ==> r == fallback
  {
    match v
    case Str(s) => s
    case Arr(items) =>
      var strs := StringAll(items);
      assert seq(|strs|, i requires 0 <= i < |strs| => strs[i].s) == seq(|items|, i requires 0 <= i < |items| => JsString(items[i]));
      JoinValues(strs, " ")
    case Obj(_) =>
      var t := JoinValues(StringAll(Flat(ValuesOf(v))), " ");
      if t != "" then t else fallback
    case _ => fallback
  }

  /** An empty array reads as the empty text, whatever the fallback. */
  lemma EmptyArrayIgnoresFallback(fallback: string)
    ensures ToMessageText(Arr([]), fallback) == ""
  {
  }

  /** `a || b || c` over the response's `detail` and `message`, as most pages write their error text. */
  function DetailOrMessage(data: Value, fallback: string): (r: Value)
    ensures Truthy(Prop(data, "detail")) ==> r == Prop(data, "detail")
    ensures !Truthy(Prop(data, "detail")) && Truthy(Prop(data, "message")) ==> r == Prop(data, "message")
    ensures !Truthy(Prop(data, "detail")) && !Truthy(Prop(data, "message")) ==> r == Str(fallback)
  {
    Or(Or(Prop(data, "detail"), Prop(data, "message")), Str(fallback))
  }

  /** With a non-empty fallback the chain always yields something to show. */
  lemma DetailOrMessageShows(data: Value, fallback: string)
    requires fallback != ""
    ensures Truthy(DetailOrMessage(data, fallback))
  {
  }

  /** `Object.values(data).flat().join(" ")` for an object or array body. */
  function FlatJoin(data: Value): (r: string)
    ensures data.Obj? && data.fields == [] ==> r == ""
  {
    JoinValues(Flat(ValuesOf(data)), " ")
  }

  /** `data && typeof data === "object"`. */
  predicate IsObjectLike(data: Value)
  {
    data.Obj? || data.Arr?
  }

  /**
   * The instructor page's create and update error text: `detail`, else the
   * flattened field messages, else (also when they join to nothing) the
   * fallback.
   */
  function FieldErrorsText(data: Value, fallback: string): (r: Value)
    ensures fallback != "" ==> Truthy(r)
    ensures Truthy(Prop(data, "detail")) ==> r == Prop(data, "detail")
    ensures !Truthy(Prop(data, "detail")) && IsObjectLike(data) && FlatJoin(data) != "" ==> r == Str(FlatJoin(data))
  {
    Or(Prop(data, "detail"), Or(if IsObjectLike(data) then Str(FlatJoin(data)) else Null, Str(fallback)))
  }

  const RegisterFallback := "Registration failed."

  /**
   * The register page's error text as written: `detail`, else `message`,
   * else for an object body its flattened values joined, else the fallback.
   * The fallback is only reached for a body that is not an object.
   */
  function RegisterErrorTextAsWritten(data: Value): (r: Value)
    ensures Truthy(Prop(data, "detail")) ==> r == Prop(data, "detail")
    ensures !Truthy(Prop(data, "detail")) && Truthy(Prop(data, "message")) ==> r == Prop(data, "message")
    ensures !Truthy(Prop(data, "detail")) && !Truthy(Prop(data, "message")) && IsObjectLike(data) ==> r == Str(FlatJoin(data))
    ensures !Truthy(Prop(data, "detail")) && !Truthy(Prop(data, "message")) && !IsObjectLike(data) ==> r == Str(RegisterFallback)
  {
    Or(Prop(data, "detail"), Or(Prop(data, "message"), if IsObjectLike(data) then Str(FlatJoin(data)) else Str(RegisterFallback)))
  }

  /**
   * An error body with no messages in it — an empty object, or fields with
   * empty lists — yields the empty text, which the page does not display:
   * the failed registration goes unreported.
   */
  lemma RegisterEmptyBodyShowsNothing()
    ensures RegisterErrorTextAsWritten(Obj([])) == Str("")
    ensures RegisterErrorTextAsWritten(Obj([Field("username", Arr([]))])) == Str("")
    ensures !Truthy(RegisterErrorTextAsWritten(Obj([])))
  {
    assert Flat([Arr([])]) == [];
  }

  /** The register page's error text with the fallback also covering an empty join, as on the instructor page. */
  function RegisterErrorText(data: Value): (r: Value)
    ensures Truthy(r)
    ensures Truthy(Prop(data, "detail")) ==> r == Prop(data, "detail")
    ensures !Truthy(Prop(data, "detail")) && Truthy(Prop(data, "message")) ==> r == Prop(data, "message")
    ensures !Truthy(Prop(data, "detail")) && !Truthy(Prop(data, "message")) ==>
              r == (if IsObjectLike(data) && FlatJoin(data) != "" then Str(FlatJoin(data)) else Str(RegisterFallback))
  {
    Or(Prop(data, "detail"), Or(Prop(data, "message"), Or(if IsObjectLike(data) then Str(FlatJoin(data)) else Null, Str(RegisterFallback))))
  }

  /** Wherever the body carries a message the two versions agree; they differ only where the written one shows nothing. */
  lemma RegisterErrorTextAgrees(data: Value)
    ensures Truthy(RegisterErrorTextAsWritten(data)) ==> RegisterErrorText(data) == RegisterErrorTextAsWritten(data)
  {
  }

  // ---- The server's refusals as the pages read them ----

  /**
   * The JSON body of a refusal: `{"detail": message}` for a permission
   * denial and `{field: message}` for a validation error. A message raised
   * from a serializer's `validate` reaches the client wrapped in a
   * one-element list, one raised from a view bare; `listed` says which.
   * Authentication failures, missing objects and server errors carry the
   * framework's own texts and are not described here.
   */
  function Body(e: Permissions.Error, listed: bool): (r: Option<Value>)
    ensures r.Some? <==> e.PermissionDenied? || e.ValidationError?
  {
    var wrap := (d: string) => if listed then Arr([Str(d)]) else Str(d);
    match e
    case PermissionDenied(d) => Some(Obj([Field("detail", Str(d))]))
    case ValidationError(f, d) => Some(Obj([Field(f, wrap(d))]))
    case _ => None
  }

  /** The course page shows a refusal's own message, whichever key carries it and however it is wrapped. */
  lemma RefusalShown(e: Permissions.Error, listed: bool, fallback: string)
    requires Body(e, listed).Some? && e.detail != ""
    ensures CourseErrorText(Body(e, listed).value, fallback) == e.detail
  {
    var d := e.detail;
    if listed {
      ArrayOfTexts([d], fallback);
      assert seq(1, i requires 0 <= i < 1 => Str([d][i])) == [Str(d)];
    }
  }

  /** The lesson viewer shows a refusal's own message too, whichever key carries it and however it is wrapped. */
  lemma RefusalShownInViewer(e: Permissions.Error, listed: bool, fallback: string)
    requires Body(e, listed).Some? && e.detail != ""
    ensures ToMessageText(ErrorPayload(Body(e, listed).value), fallback) == e.detail
  {
    var d := e.detail;
    assert JsString(Str(d)) == d;
    assert seq(1, i requires 0 <= i < 1 => JsString([Str(d)][i])) == [d];
    assert Flat([Str(d)]) == [Str(d)];
    assert Flat([Arr([Str(d)])]) == [Str(d)];
  }

  /**
   * A student who enrolls twice is told, on the course page, that they are
   * already enrolled: the refusal from validation reaches the page listed
   * and is shown verbatim.
   */
  lemma AlreadyEnrolledShown(db: Store.Db, p: Users.Principal, pk: nat)
    requires Permissions.IsStudent(p) && Store.IsEnrolled(db, p.user.id, pk)
    ensures var e := CourseViews.Enroll(db, p, pk).result.error;
            CourseErrorText(Body(e, true).value, "Enrollment failed.") == CourseSerializers.AlreadyEnrolledMessage
  {
    RefusalShown(CourseViews.Enroll(db, p, pk).result.error, true, "Enrollment failed.");
  }
}

=== FILE: my_enrolled.dfy ===
/**
 * The student's enrolled-courses page: each item of the enrollment list is
 * completed with the course's progress, fetched one request per course. A
 * failed request leaves that item with the progress it already carried,
 * and the others are unaffected.
 */
module MyEnrolled {
  import opened Json
  import opened Wrappers
  import opened Seqs
  import Cards
  import ProgressBar
  import Users
  import Store
  import Permissions
  import CourseViews
  import Wire
  import Search
  import Messages

  /** One progress request: the response body, or `None` when the request failed. */
  type Fetch = Value -> Option<Value>

  /** `course?.id ?? item?.course_id`: the id the progress request is made for. */
  function CourseIdOf(item: Value): (r: Value)
    ensures !Nullish(Prop(Cards.EnrolledCourse(item), "id")) ==> r == Prop(Cards.EnrolledCourse(item), "id")
    ensures Nullish(Prop(Cards.EnrolledCourse(item), "id")) ==> r == Prop(item, "course_id")
  {
    Coalesce(Prop(Cards.EnrolledCourse(item), "id"), Prop(item, "course_id"))
  }

  /** `{...item, progress: item?.progress ?? item?.progress_percent ?? 0}`. */
  function Unmerged(item: Value): (r: Value)
    ensures r.Obj? && Prop(r, "progress") == Cards.EnrolledProgress(item)
    ensures item.Obj? ==> forall k :: k != "progress" ==> Prop(r, k) == Prop(item, k)
  {
    Obj(SetKey(SpreadFields(item), "progress", Cards.EnrolledProgress(item)))
  }

  /** `{...item, progress: p, progress_percent: p, progressDetails: data}` with `p = data?.progress_percent ?? 0`. */
  function Merged(item: Value, data: Value): (r: Value)
    ensures r.Obj? && Prop(r, "progress") == Coalesce(Prop(data, "progress_percent"), Num(0.0))
    ensures Prop(r, "progress_percent") == Prop(r, "progress") && Prop(r, "progressDetails") == data
    ensures item.Obj? ==> forall k :: k != "progress" && k != "progress_percent" && k != "progressDetails" ==> Prop(r, k) == Prop(item, k)
  {
    var percent := Coalesce(Prop(data, "progress_percent"), Num(0.0));
    Obj(SetKey(SetKey(SetKey(SpreadFields(item), "progress", percent), "progress_percent", percent), "progressDetails", data))
  }

  /**
   * One item: without a truthy course id there is no request; after a
   * successful request both progress fields hold the reported percentage
   * and the response is attached; after a failure the item keeps its own
   * progress. Every other field of the item survives.
   */
  function MergeItem(item: Value, fetch: Fetch): (r: Value)
    ensures r.Obj?
    ensures !Truthy(CourseIdOf(item)) || fetch(CourseIdOf(item)).None? ==>
              Prop(r, "progress") == Cards.EnrolledProgress(item)
    ensures Truthy(CourseIdOf(item)) && fetch(CourseIdOf(item)).Some? ==>
              && Prop(r, "progress") == Coalesce(Prop(fetch(CourseIdOf(item)).value, "progress_percent"), Num(0.0))
              && Prop(r, "progress_percent") == Prop(r, "progress")
              && Prop(r, "progressDetails") == fetch(CourseIdOf(item)).value
    ensures item.Obj? ==> forall k :: k != "progress" && k != "progress_percent" && k != "progressDetails" ==> Prop(r, k) == Prop(item, k)
  {
    var id := CourseIdOf(item);
    if !Truthy(id) then Unmerged(item)
    else match fetch(id)
      case None => Unmerged(item)
      case Some(data) => Merged(item, data)
  }

  function MergeWith(fetch: Fetch): Value -> Value
  {
    (item: Value) => MergeItem(item, fetch)
  }

  /** The whole list: one merged item per enrollment, in the same order. */
  function Merge(list: seq<Value>, fetch: Fetch): (r: seq<Value>)
    ensures |r| == |list|
    ensures forall i :: 0 <= i < |r| ==> r[i] == MergeItem(list[i], fetch)
  {
    Map(list, MergeWith(fetch))
  }

  /**
   * `load`: the enrollment list, bare or paginated, merged item by item.
   * `None` when `results` is not an array, where the page fails to load.
   */
  function Load(data: Value, fetch: Fetch): (r: Option<seq<Value>>)
    ensures r.None? <==> Search.Items(data).None?
    ensures r.Some? ==> |r.value| == |Search.Items(data).value|
    ensures r.Some? ==> forall i :: 0 <= i < |r.value| ==> r.value[i] == MergeItem(Search.Items(data).value[i], fetch)
  {
    match Search.Items(data)
    case None => None
    case Some(list) => Some(Merge(list, fetch))
  }

  /** The `filtered` memo: the search of the list pages, looking into `course` when the item nests one. */
  function Shown(items: seq<Value>, q: string): (r: seq<Value>)
    ensures Search.Query(q) == "" ==> r == items
    ensures Search.Query(q) != "" ==> forall x :: x in r <==> x in items && Search.Matches(Cards.EnrolledCourse(x), Search.Query(q))
  {
    Search.Filtered(items, q, Cards.EnrolledCourse)
  }

  /** A field other than the three progress fields is carried over by the merge. */
  lemma MergeKeepsField(item: Value, fetch: Fetch, k: string)
    requires item.Obj? && k != "progress" && k != "progress_percent" && k != "progressDetails"
    ensures Prop(MergeItem(item, fetch), k) == Prop(item, k)
  {
  }

  /** Merging progress leaves the course record the search reads untouched. */
  lemma MergeKeepsCourseFields(item: Value, fetch: Fetch)
    requires item.Obj?
    ensures var v0 := Cards.EnrolledCourse(item);
            var v1 := Cards.EnrolledCourse(MergeItem(item, fetch));
            Prop(v1, "title") == Prop(v0, "title") && Prop(v1, "description") == Prop(v0, "description")
  {
    MergeKeepsField(item, fetch, "course");
    MergeKeepsField(item, fetch, "title");
    MergeKeepsField(item, fetch, "description");
  }

  /** Merging progress into an item does not change whether the search shows it. */
  lemma MergeKeepsMatch(item: Value, fetch: Fetch, query: string)
    requires item.Obj?
    ensures Search.MatchesQuery(query, Cards.EnrolledCourse)(MergeItem(item, fetch))
            == Search.MatchesQuery(query, Cards.EnrolledCourse)(item)
  {
    var m := MergeItem(item, fetch);
    MergeKeepsCourseFields(item, fetch);
    SameFieldsSameMatch(Cards.EnrolledCourse(m), Cards.EnrolledCourse(item), query);
  }

  lemma SameFieldsSameMatch(a: Value, b: Value, query: string)
    requires Prop(a, "title") == Prop(b, "title") && Prop(a, "description") == Prop(b, "description")
    ensures Search.Matches(a, query) == Search.Matches(b, query)
  {
  }

  /**
   * Searching the merged list shows the merged versions of exactly the
   * enrollments a search of the unmerged list would show, in the same order.
   */
  lemma {:induction false} SearchIgnoresProgress(items: seq<Value>, fetch: Fetch, q: string)
    requires forall i :: 0 <= i < |items| ==> items[i].Obj?
    ensures Shown(Merge(items, fetch), q) == Merge(Shown(items, q), fetch)
  {
    if Search.Query(q) != "" {
      var p := Search.MatchesQuery(Search.Query(q), Cards.EnrolledCourse);
      forall i | 0 <= i < |items| ensures p(MergeItem(items[i], fetch)) == p(items[i]) {
        MergeKeepsMatch(items[i], fetch, Search.Query(q));
      }
      FilterMap(items, MergeWith(fetch), p, p);
    }
  }

  const LoadFailed := "Failed to load your enrolled courses."

  /**
   * An instructor who opens the page is refused by the server, and the page
   * shows the refusal's own text rather than its generic failure message.
   */
  lemma InstructorSeesRefusal(db: Store.Db, p: Users.Principal)
    requires p.Member? && !Permissions.IsStudent(p)
    ensures var r := CourseViews.MyEnrolledCourses(db, p);
            && r.Err? && Messages.Body(r.error, false).Some?
            && Messages.DetailOrMessage(Messages.Body(r.error, false).value, LoadFailed) == Str(Permissions.StudentDenial)
  {
    var body := Obj([Field("detail", Str(Permissions.StudentDenial))]);
    assert Prop(body, "detail") == Str(Permissions.StudentDenial);
  }

  // ---- Against the server ----

  /** The progress request against the server: a whole-number id asks for that course's progress. */
  function ServerFetch(db: Store.Db, p: Users.Principal): Fetch
  {
    (id: Value) =>
      if id.Num? && 0.0 <= id.x && id.x.Floor as real == id.x then
        match CourseViews.CourseProgress(db, p, id.x.Floor)
        case Ok(report) => Some(Wire.ReportJson(report))
        case Err(_) => None
      else None
  }

  /** An enrolled student asking about an existing course gets the counters, not a notice. */
  lemma EnrolledGetsStats(db: Store.Db, p: Users.Principal, courseId: nat)
    requires Permissions.IsStudent(p) && Store.HasCourse(db, courseId) && Store.IsEnrolled(db, p.user.id, courseId)
    ensures CourseViews.CourseProgress(db, p, courseId).Ok?
    ensures CourseViews.CourseProgress(db, p, courseId).value.Stats?
  {
    var c := Store.FindCourse(db, courseId);
    assert c.Some? && c.value.id == courseId;
  }

  /** An item naming a truthy course id at the top level is merged with that course's progress response. */
  lemma ItemUsesOwnId(item: Value, id: nat, fetch: Fetch, data: Value)
    requires Nullish(Prop(item, "course")) && Prop(item, "id") == Wire.NatJson(id) && id != 0
    requires fetch(Wire.NatJson(id)) == Some(data)
    ensures Prop(MergeItem(item, fetch), "progress") == Coalesce(Prop(data, "progress_percent"), Num(0.0))
  {
    assert CourseIdOf(item) == Wire.NatJson(id);
  }

  /** The server's answer to a progress request for a whole-number id. */
  lemma ServerFetchAnswers(db: Store.Db, p: Users.Principal, id: nat)
    requires CourseViews.CourseProgress(db, p, id).Ok?
    ensures ServerFetch(db, p)(Wire.NatJson(id)) == Some(Wire.ReportJson(CourseViews.CourseProgress(db, p, id).value))
  {
    assert (id as real).Floor == id;
  }

  /** Every row of the enrolled-courses response is an existing course the student is enrolled in. */
  lemma ListedIsEnrolled(db: Store.Db, p: Users.Principal, row: CourseViews.CourseRow)
    requires Permissions.IsStudent(p)
    requires row in CourseViews.MyEnrolledCourses(db, p).value
    ensures Store.HasCourse(db, row.course.id) && Store.IsEnrolled(db, p.user.id, row.course.id)
  {
    var rows := CourseViews.MyEnrolledCourses(db, p).value;
    var k :| 0 <= k < |rows| && rows[k] == row;
    assert Map(rows, CourseViews.RowCourse)[k] == row.course;
    CourseViews.MyEnrolledCoursesExact(db, p, row.course);
    var j :| 0 <= j < |db.courses| && db.courses[j] == row.course;
  }

  /**
   * For a course on the student's enrolled list, the card's bar shows the
   * percentage the server computed for that student and course. Database
   * ids start at 1, so the id the page sends is truthy.
   */
  lemma EnrolledCardShowsServerPercent(db: Store.Db, p: Users.Principal, row: CourseViews.CourseRow)
    requires Store.Valid(db) && Permissions.IsStudent(p)
    requires row in CourseViews.MyEnrolledCourses(db, p).value
    requires row.course.id != 0
    ensures var report := CourseViews.CourseProgress(db, p, row.course.id);
            && report.Ok? && report.value.Stats?
            && Cards.EnrolledBar(MergeItem(Wire.CourseRowJson(row), ServerFetch(db, p))) == report.value.percent
  {
    var c := row.course;
    ListedReport(db, p, row);
    var report := CourseViews.CourseProgress(db, p, c.id).value;
    ServerFetchAnswers(db, p, c.id);
    MergedWithStats(Wire.CourseRowJson(row), ServerFetch(db, p), c.id, report);
  }

  /** An item merged with a progress response carrying counters shows that response's percentage. */
  lemma MergedWithStats(item: Value, fetch: Fetch, id: nat, report: CourseViews.ProgressReport)
    requires Nullish(Prop(item, "course")) && Prop(item, "id") == Wire.NatJson(id) && id != 0
    requires report.Stats? && 0.0 <= report.percent <= 100.0
    requires fetch(Wire.NatJson(id)) == Some(Wire.ReportJson(report))
    ensures Cards.EnrolledBar(MergeItem(item, fetch)) == report.percent
  {
    ItemUsesOwnId(item, id, fetch, Wire.ReportJson(report));
    BarShowsProgress(MergeItem(item, fetch), report.percent);
  }

  /** The server reports a percentage between 0 and 100 for every course on the enrolled list. */
  lemma ListedReport(db: Store.Db, p: Users.Principal, row: CourseViews.CourseRow)
    requires Store.Valid(db) && Permissions.IsStudent(p)
    requires row in CourseViews.MyEnrolledCourses(db, p).value
    ensures var report := CourseViews.CourseProgress(db, p, row.course.id);
            && report.Ok? && report.value.Stats? && 0.0 <= report.value.percent <= 100.0
  {
    ListedIsEnrolled(db, p, row);
    EnrolledGetsStats(db, p, row.course.id);
    CourseViews.CourseProgressBounds(db, p, row.course.id);
  }

  /** A merged item whose progress is a percentage shows exactly that percentage. */
  lemma BarShowsProgress(merged: Value, percent: real)
    requires Prop(merged, "progress") == Num(percent) && 0.0 <= percent <= 100.0
    ensures Cards.EnrolledBar(merged) == percent
  {
  }
}

=== FILE: permissions.dfy ===
/**
 * Request authorisation as the REST framework performs it: every
 * permission class listed on a view is asked in turn, the first refusal
 * ends the request, and object-level checks run once the view has loaded
 * the object. The four project-specific classes are modelled exactly;
 * `AllowAny` and `IsAuthenticated` are the framework's.
 */
module Permissions {
  import opened Wrappers
  import opened Users
  import opened Store
  import Seqs

  datatype Method = Get | Head | Options | Post | Put | Patch | Delete

  /** The methods that only read. */
  predicate IsSafe(m: Method)
  {
    m == Get || m == Head || m == Options
  }

  /** The ways a request ends before the view's own logic produces a result. */
  datatype Error =
    | NotAuthenticated                         // 401
    | PermissionDenied(detail: string)         // 403
    | NotFound                                 // 404
    | ValidationError(field: string, detail: string)   // 400
    | ServerError                              // 500, an uncaught database error

  function StatusCode(e: Error): (code: nat)
    ensures 400 <= code < 600
  {
    match e
    case NotAuthenticated => 401
    case PermissionDenied(_) => 403
    case NotFound => 404
    case ValidationError(_, _) => 400
    case ServerError => 500
  }

  const DefaultDenial := "You do not have permission to perform this action."
  const StudentDenial := " Only students can Enroll to a course/ See their Lesson Progress."
  const OwnerDenial := "You are not Owner of this Course/Lesson."

  /** `IsInstructor.has_permission`: the role string of an authenticated user is "instructor". */
  function IsInstructor(p: Principal): (granted: bool)
    ensures granted <==> p.Member? && p.user.role == Instructor
  {
    p.Member? && RoleValue(p.user.role) == "instructor"
  }

  /** `IsStudent.has_permission`: the role string of an authenticated user is "student". */
  function IsStudent(p: Principal): (granted: bool)
    ensures granted <==> p.Member? && p.user.role == Student
  {
    p.Member? && RoleValue(p.user.role) == "student"
  }

  /** Every signed-in user passes exactly one of the two role checks; an anonymous one passes neither. */
  lemma RoleChecksPartition(p: Principal)
    ensures p.Member? <==> IsInstructor(p) || IsStudent(p)
    ensures !(IsInstructor(p) && IsStudent(p))
  {
  }

  /** The objects `has_object_permission` is asked about: a course, or a lesson with its course's owner. */
  datatype Target =
    | CourseTarget(course: Course)
    | LessonTarget(lesson: Lesson, courseInstructorId: nat)

  /** The instructor the target ultimately belongs to. */
  function OwnerOf(t: Target): nat
  {
    match t
    case CourseTarget(c) => c.instructorId
    case LessonTarget(_, owner) => owner
  }

  /**
   * `IsOwnerInstructorOrReadOnly.has_object_permission`: reads pass; a
   * write needs a signed-in instructor who owns the course (directly, or
   * through the lesson's course).
   */
  function OwnerOrReadOnly(m: Method, p: Principal, t: Target): (granted: bool)
    ensures IsSafe(m) ==> granted
    ensures !IsSafe(m) && granted ==> IsInstructor(p) && OwnerOf(t) == p.user.id
  {
    if IsSafe(m) then true
    else if !p.IsAuthenticated() then false
    else if RoleValue(p.user.role) != "instructor" then false
    else match t
      case CourseTarget(c) => c.instructorId == p.user.id
      case LessonTarget(_, owner) => owner == p.user.id
  }

  /** A write is refused to every user except the owning instructor, and granted to that one. */
  lemma OwnerOrReadOnlyIff(m: Method, p: Principal, t: Target)
    requires !IsSafe(m)
    ensures OwnerOrReadOnly(m, p, t) <==> p.Member? && p.user.role == Instructor && OwnerOf(t) == p.user.id
  {
  }

  /** The outcome of a permission check that may itself look an object up. */
  datatype Access = Granted | Denied | Missing

  /**
   * `IsCourseOwnerInstructor.has_permission`: reads pass; a write needs a
   * signed-in instructor, a non-zero course id in the URL and that course
   * to exist (otherwise 404) and to be owned by the user.
   */
  function CourseOwner(m: Method, p: Principal, db: Db, courseId: Option<nat>): (r: Access)
    ensures IsSafe(m) ==> r == Granted
    ensures r == Missing ==> courseId.Some? && !HasCourse(db, courseId.value)
    ensures !IsSafe(m) && r == Granted ==>
              IsInstructor(p) && courseId.Some? && courseId.value != 0
              && exists i :: 0 <= i < |db.courses| && db.courses[i].id == courseId.value && db.courses[i].instructorId == p.user.id
  {
    if IsSafe(m) then Granted
    else if !p.IsAuthenticated() then Denied
    else if RoleValue(p.user.role) != "instructor" then Denied
    else if courseId.None? || courseId.value == 0 then Denied
    else match FindCourse(db, courseId.value)
      case None => Missing
      case Some(c) => if c.instructorId == p.user.id then Granted else Denied
  }

  /** In a valid store a write is granted exactly to the instructor who owns the course named in the URL. */
  lemma CourseOwnerIff(m: Method, p: Principal, db: Db, courseId: Option<nat>)
    requires Valid(db) && !IsSafe(m)
    ensures CourseOwner(m, p, db, courseId) == Granted <==>
              p.Member? && p.user.role == Instructor && courseId.Some? && courseId.value != 0
              && exists i :: 0 <= i < |db.courses| && db.courses[i].id == courseId.value && db.courses[i].instructorId == p.user.id
  {
    if p.Member? && p.user.role == Instructor && courseId.Some? && courseId.value != 0 {
      if exists i :: 0 <= i < |db.courses| && db.courses[i].id == courseId.value && db.courses[i].instructorId == p.user.id {
        var i :| 0 <= i < |db.courses| && db.courses[i].id == courseId.value && db.courses[i].instructorId == p.user.id;
        OwnedCourseGranted(m, p, db, db.courses[i]);
      }
    }
  }

  lemma OwnedCourseGranted(m: Method, p: Principal, db: Db, c: Course)
    requires Seqs.Pairwise(db.courses, DistinctCourses) && c in db.courses && c.id != 0 && !IsSafe(m)
    requires p.Member? && p.user.role == Instructor && c.instructorId == p.user.id
    ensures CourseOwner(m, p, db, Some(c.id)) == Granted
  {
    FindCourseUnique(db, c);
  }

  /** The permission classes the views list. */
  datatype Check = AllowAny | IsAuthenticated | InstructorOnly | StudentOnly | OwnerOrReadOnlyClass | CourseOwnerClass

  /** `has_permission` of one class; the object-level class passes at this stage. */
  function HasPermission(c: Check, m: Method, p: Principal, db: Db, courseId: Option<nat>): Access
  {
    match c
    case AllowAny => Granted
    case IsAuthenticated => if p.IsAuthenticated() then Granted else Denied
    case InstructorOnly => if IsInstructor(p) then Granted else Denied
    case StudentOnly => if IsStudent(p) then Granted else Denied
    case OwnerOrReadOnlyClass => Granted
    case CourseOwnerClass => CourseOwner(m, p, db, courseId)
  }

  /** The message a class attaches to its refusal, if it declares one. */
  function DenialMessage(c: Check): string
  {
    match c
    case StudentOnly => StudentDenial
    case OwnerOrReadOnlyClass => OwnerDenial
    case _ => DefaultDenial
  }

  /**
   * The framework's refusal: a request that carries no credentials is told
   * to authenticate; an authenticated one is told it lacks permission.
   */
  function Deny(p: Principal, message: string): (e: Error)
    ensures p.Anonymous? <==> e == NotAuthenticated
  {
    if p.Anonymous? then NotAuthenticated else PermissionDenied(message)
  }

  /** `check_permissions`: the classes are asked in order and the first refusal is reported. */
  function CheckPermissions(cs: seq<Check>, m: Method, p: Principal, db: Db, courseId: Option<nat>): (r: Result<(), Error>)
    ensures r.Ok? <==> forall i :: 0 <= i < |cs| ==> HasPermission(cs[i], m, p, db, courseId) == Granted
    ensures r.Err? ==> r.error == NotFound || r.error == NotAuthenticated
                       || exists i :: 0 <= i < |cs| && r.error == PermissionDenied(DenialMessage(cs[i]))
    ensures r.Err? && r.error.PermissionDenied? ==> p.Member?
    ensures r.Err? && p.Anonymous? ==> r.error == NotAuthenticated || r.error == NotFound
  {
    if cs == [] then Ok(())
    else match HasPermission(cs[0], m, p, db, courseId)
      case Granted =>
        var rest := CheckPermissions(cs[1..], m, p, db, courseId);
        assert forall i :: 1 <= i < |cs| ==> cs[i] == cs[1..][i - 1];
        assert forall i :: 0 <= i < |cs[1..]| ==> cs[1..][i] == cs[i + 1];
        rest
      case Denied => Err(Deny(p, DenialMessage(cs[0])))
      case Missing => Err(NotFound)
  }

  /** Any view that lists `IsAuthenticated` first turns every anonymous request away with 401. */
  lemma AuthenticatedFirst(cs: seq<Check>, m: Method, p: Principal, db: Db, courseId: Option<nat>)
    requires cs != [] && cs[0] == IsAuthenticated && p.Anonymous?
    ensures CheckPermissions(cs, m, p, db, courseId) == Err(NotAuthenticated)
  {
  }

  /** `check_object_permissions`: every class's object-level check must pass. */
  function CheckObject(cs: seq<Check>, m: Method, p: Principal, t: Target): (r: Result<(), Error>)
    ensures r.Ok? <==> forall i :: 0 <= i < |cs| ==> cs[i] != OwnerOrReadOnlyClass || OwnerOrReadOnly(m, p, t)
  {
    if cs == [] then Ok(())
    else if cs[0] == OwnerOrReadOnlyClass && !OwnerOrReadOnly(m, p, t) then Err(Deny(p, OwnerDenial))
    else
      var rest := CheckObject(cs[1..], m, p, t);
      assert forall i :: 1 <= i < |cs| ==> cs[i] == cs[1..][i - 1];
      rest
  }

  /** A view listing one class decides by that class alone. */
  lemma CheckOne(b: Check, m: Method, p: Principal, db: Db, courseId: Option<nat>)
    ensures CheckPermissions([b], m, p, db, courseId) ==
              match HasPermission(b, m, p, db, courseId)
              case Denied => Err(Deny(p, DenialMessage(b)))
              case Missing => Err(NotFound)
              case Granted => Ok(())
  {
    assert [b][0] == b && [b][1..] == [];
  }

  /** A view listing two classes asks the first, then the second. */
  lemma CheckPair(a: Check, b: Check, m: Method, p: Principal, db: Db, courseId: Option<nat>)
    ensures HasPermission(a, m, p, db, courseId) == Granted ==>
              CheckPermissions([a, b], m, p, db, courseId) == CheckPermissions([b], m, p, db, courseId)
    ensures HasPermission(a, m, p, db, courseId) == Denied ==>
              CheckPermissions([a, b], m, p, db, courseId) == Err(Deny(p, DenialMessage(a)))
    ensures HasPermission(a, m, p, db, courseId) == Missing ==>
              CheckPermissions([a, b], m, p, db, courseId) == Err(NotFound)
  {
    assert [a, b][0] == a && [a, b][1..] == [b];
  }

  /** With `IsAuthenticated` and the ownership class, only the ownership check can refuse an object. */
  lemma CheckObjectPair(m: Method, p: Principal, t: Target)
    ensures CheckObject([IsAuthenticated, OwnerOrReadOnlyClass], m, p, t) ==
              if OwnerOrReadOnly(m, p, t) then Ok(()) else Err(Deny(p, OwnerDenial))
  {
    var cs := [IsAuthenticated, OwnerOrReadOnlyClass];
    assert cs[0] == IsAuthenticated && cs[1..] == [OwnerOrReadOnlyClass];
    assert [OwnerOrReadOnlyClass][0] == OwnerOrReadOnlyClass && [OwnerOrReadOnlyClass][1..] == [];
    assert CheckObject([], m, p, t) == Ok(());
    assert CheckObject([OwnerOrReadOnlyClass], m, p, t) == if OwnerOrReadOnly(m, p, t) then Ok(()) else Err(Deny(p, OwnerDenial));
  }
}

=== FILE: progress_bar.dfy ===
/**
 * The progress bar shared by the course cards: whatever value it is given
 * is converted with `Number(value) || 0` and clamped into [0, 100].
 */
module ProgressBar {
  import opened Json
  import opened Wrappers
  import JsNumber
  import Text

  /** `Math.max(0, Math.min(100, Number(value) || 0))`, with `value = 0` when it is undefined. */
  function Clamp(value: Value): (v: real)
    ensures 0.0 <= v <= 100.0
    ensures value.Num? && 0.0 <= value.x <= 100.0 ==> v == value.x
    ensures value.Num? && value.x > 100.0 ==> v == 100.0
    ensures value.Num? && value.x < 0.0 ==> v == 0.0
    ensures value.Undefined? || value.Null? || value.Obj? ==> v == 0.0
  {
    var given := if value.Undefined? then Num(0.0) else value;
    var n := match JsNumber.ToNumber(given) case Some(x) => x case None => 0.0;
    var lo := if n < 100.0 then n else 100.0;
    if 0.0 < lo then lo else 0.0
  }

  /** The bar is a fixpoint of itself: clamping the shown number again shows the same number. */
  lemma ClampIdempotent(value: Value)
    ensures Clamp(Num(Clamp(value))) == Clamp(value)
  {
  }

  /** Clamping never turns a higher number into a lower bar. */
  lemma ClampMonotone(a: real, b: real)
    requires a <= b
    ensures Clamp(Num(a)) <= Clamp(Num(b))
  {
  }

  /** A percentage sent as decimal text is shown as the same number. */
  lemma ClampNumericText(n: nat)
    ensures Clamp(Str(Text.NatText(n))) == Clamp(Num(n as real))
  {
    JsNumber.NatTextNumber(n);
  }

  /** A value `Number` reads as NaN shows an empty bar. */
  lemma ClampNotANumber(value: Value)
    requires JsNumber.ToNumber(value).None?
    ensures Clamp(value) == 0.0
  {
  }

  /** Text such as "n/a" is one of them. */
  lemma ClampNotANumberText()
    ensures JsNumber.ToNumber(Str("n/a")).None?
    ensures Clamp(Str("n/a")) == 0.0
  {
    var t := "n/a";
    assert !Text.IsSpace(t[0]) && !Text.IsSpace(t[2]);
    assert Text.TrimStart(t) == t && Text.TrimEnd(t) == t;
    assert !JsNumber.AllDigits(t) && !JsNumber.AllDigits(t[..JsNumber.Dot(t)]);
  }
}

=== FILE: routes.dfy ===
/** The two route guards: one for signed-in users, one for roles. */
module Routes {
  import opened Json
  import opened Wrappers
  import Users
  import Permissions
  import Accounts
  import Wire

  /** What a guard renders. */
  datatype View =
    | Spinner(caption: string)
    | Redirect(to: string, replace: bool, from: Option<string>)
    | Outlet

  /**
   * `ProtectedRoute`: a spinner while the session boots; a signed-out
   * visitor is sent to the login page, remembering where they came from.
   */
  function ProtectedRoute(booting: bool, isAuthed: bool, pathname: string): (v: View)
    ensures v.Outlet? <==> !booting && isAuthed
    ensures booting ==> v == Spinner("Checking session...")
    ensures !booting && !isAuthed ==> v == Redirect("/login", true, Some(pathname))
  {
    if booting then Spinner("Checking session...")
    else if !isAuthed then Redirect("/login", true, Some(pathname))
    else Outlet
  }

  /** `allow.includes(role)`: strict equality against the allowed strings. */
  predicate Includes(allow: seq<string>, role: Value)
  {
    role.Str? && role.s in allow
  }

  /**
   * `RoleGuard`: a spinner while the session boots; otherwise the user's
   * role must be a non-empty allowed string, else the visitor is sent to
   * the course list.
   */
  function RoleGuard(booting: bool, user: Value, allow: seq<string>): (v: View)
    ensures v.Outlet? <==> !booting && Prop(user, "role").Str? && Prop(user, "role").s != "" && Prop(user, "role").s in allow
    ensures booting ==> v == Spinner("Checking permissions...")
    ensures !booting && !v.Outlet? ==> v == Redirect("/courses", true, None)
  {
    if booting then Spinner("Checking permissions...")
    else
      var role := Prop(user, "role");
      if Truthy(role) && Includes(allow, role) then Outlet
      else Redirect("/courses", true, None)
  }

  /** With the default empty allow-list nobody gets through. */
  lemma RoleGuardDefaultDenies(booting: bool, user: Value)
    ensures !RoleGuard(booting, user, []).Outlet?
  {
  }

  /** Without a profile (the state right after login or a failed boot) no role-guarded page opens. */
  lemma RoleGuardNeedsProfile(allow: seq<string>)
    ensures RoleGuard(false, Null, allow) == Redirect("/courses", true, None)
  {
  }

  /**
   * Once the session holds the `/me` profile of a signed-in user, the
   * instructor-only pages open exactly for the users the server treats as
   * instructors.
   */
  lemma InstructorGuardMatchesServer(p: Users.Principal)
    requires p.Member?
    ensures RoleGuard(false, Wire.MeJson(Accounts.Me(p).value), ["instructor"]).Outlet? <==> Permissions.IsInstructor(p)
  {
    Users.RoleValueInjective(p.user.role, Users.Instructor);
  }
}

=== FILE: search.dfy ===
/**
 * What the list pages do with a list response: accept a bare array or a
 * paginated `{results: [...]}` body, and narrow the list to the items whose
 * title or description contains the search text, ignoring case.
 */
module Search {
  import opened Json
  import opened Wrappers
  import Text
  import Seqs

  /** `Array.isArray(data) ? data : data?.results ?? []`. */
  function Normalize(data: Value): (r: Value)
    ensures data.Arr? ==> r == data
    ensures !data.Arr? && Nullish(Prop(data, "results")) ==> r == Arr([])
    ensures !data.Arr? && !Nullish(Prop(data, "results")) ==> r == Prop(data, "results")
  {
    if data.Arr? then data else Coalesce(Prop(data, "results"), Arr([]))
  }

  /**
   * The items of a normalised list response. `None` when `results` holds
   * something other than an array, which the pages would then fail to
   * iterate.
   */
  function Items(data: Value): (r: Option<seq<Value>>)
    ensures data.Arr? ==> r == Some(data.items)
    ensures !data.Arr? && Prop(data, "results").Arr? ==> r == Some(Prop(data, "results").items)
    ensures !data.Arr? && Nullish(Prop(data, "results")) ==> r == Some([])
  {
    var n := Normalize(data);
    if n.Arr? then Some(n.items) else None
  }

  /** A paginated body and the bare array it pages over give the same items. */
  lemma PaginatedSameAsBare(items: seq<Value>, count: nat)
    ensures Items(Obj([Field("count", Num(count as real)), Field("next", Null), Field("previous", Null), Field("results", Arr(items))]))
            == Items(Arr(items))
  {
    var fs := [Field("count", Num(count as real)), Field("next", Null), Field("previous", Null), Field("results", Arr(items))];
    assert Lookup(fs[3..], "results") == Arr(items);
    assert fs[2..][1..] == fs[3..] && fs[1..][1..] == fs[2..] && fs[1..] == fs[1..];
    assert Lookup(fs[2..], "results") == Arr(items);
    assert Lookup(fs[1..], "results") == Arr(items);
  }

  /** `(v ?? "").toLowerCase()` for a text field: a missing field reads as the empty text. */
  function FieldText(v: Value): string
  {
    if v.Str? then Text.ToLower(v.s) else ""
  }

  /** `q.trim().toLowerCase()`. */
  function Query(q: string): (r: string)
    ensures |r| == |Text.Trim(q)|
  {
    Text.ToLower(Text.Trim(q))
  }

  /** Whether the record's title or description contains the (already normalised) query. */
  predicate Matches(record: Value, query: string)
  {
    Text.Contains(FieldText(Prop(record, "title")), query) || Text.Contains(FieldText(Prop(record, "description")), query)
  }

  /** The test `filter` applies; `view` picks the course record out of a list item. */
  function MatchesQuery(query: string, view: Value -> Value): Value -> bool
  {
    (item: Value) => Matches(view(item), query)
  }

  /**
   * The `filtered` memo of the list pages: with a blank query the list
   * itself, otherwise the items whose course matches, in their order.
   */
  function Filtered(items: seq<Value>, q: string, view: Value -> Value): (r: seq<Value>)
    ensures Query(q) == "" ==> r == items
    ensures Query(q) != "" ==> forall x :: x in r <==> x in items && Matches(view(x), Query(q))
    ensures Seqs.IsSubseq(r, items)
  {
    if Query(q) == "" then
      Seqs.SubseqRefl(items);
      items
    else
      Seqs.FilterIsSubseq(items, MatchesQuery(Query(q), view));
      Seqs.Filter(items, MatchesQuery(Query(q), view))
  }

  /** Searching the search result again with the same text changes nothing. */
  lemma FilteredIdempotent(items: seq<Value>, q: string, view: Value -> Value)
    ensures Filtered(Filtered(items, q, view), q, view) == Filtered(items, q, view)
  {
    if Query(q) != "" {
      Seqs.FilterIdempotent(items, MatchesQuery(Query(q), view));
    }
  }

  /** The search ignores the case of what is typed. */
  lemma FilteredIgnoresCase(items: seq<Value>, q: string, view: Value -> Value)
    ensures Filtered(items, Text.ToLower(q), view) == Filtered(items, q, view)
  {
    TrimLowerCommute(q);
    Text.ToLowerIdempotent(Text.Trim(q));
  }

  /** Lower-casing does not touch white space, so it commutes with trimming. */
  lemma TrimLowerCommute(s: string)
    ensures Text.Trim(Text.ToLower(s)) == Text.ToLower(Text.Trim(s))
  {
    TrimStartLower(s);
    TrimEndLower(Text.TrimStart(s));
  }

  lemma {:induction false} TrimStartLower(s: string)
    ensures Text.TrimStart(Text.ToLower(s)) == Text.ToLower(Text.TrimStart(s))
  {
    if s != [] {
      var l := Text.ToLower(s);
      assert l[0] == Text.LowerChar(s[0]);
      SpaceLower(s[0]);
      assert l[1..] == Text.ToLower(s[1..]);
      TrimStartLower(s[1..]);
    }
  }

  lemma {:induction false} TrimEndLower(s: string)
    ensures Text.TrimEnd(Text.ToLower(s)) == Text.ToLower(Text.TrimEnd(s))
    decreases |s|
  {
    if s != [] {
      var l := Text.ToLower(s);
      var n := |s| - 1;
      assert l[n] == Text.LowerChar(s[n]);
      SpaceLower(s[n]);
      LowerPrefix(s, n);
      TrimEndLower(s[..n]);
    }
  }

  /** Lower-casing keeps white space white and everything else not. */
  lemma SpaceLower(c: char)
    ensures Text.IsSpace(Text.LowerChar(c)) <==> Text.IsSpace(c)
  {
  }

  lemma LowerPrefix(s: string, n: nat)
    requires n <= |s|
    ensures Text.ToLower(s)[..n] == Text.ToLower(s[..n])
  {
  }

  /**
   * The empty-state line of the course list. It ends in " for your search."
   * exactly when the list shown was narrowed by a search.
   */
  function EmptyStateText(q: string): (r: string)
    ensures |r| > |NoneFound| && r[..|NoneFound|] == NoneFound
    ensures Query(q) != "" <==> |r| >= |ForSearch| && r[|r| - |ForSearch|..] == ForSearch
  {
    if Text.Trim(q) != "" then
      var r := NoneFound + ForSearch;
      assert r[|r| - |ForSearch|..] == ForSearch;
      r
    else
      var r := NoneFound + ".";
      assert r[|r| - |ForSearch|..][0] == 'N';
      r
  }

  const NoneFound := "No courses found"
  const ForSearch := " for your search."
}

=== FILE: seqs.dfy ===
/**
 * Generic sequence operations the list transforms of both tiers are built
 * from: filtering (`Array.filter`, ORM `.filter`), order-preserving
 * subsequences, a stable sort by a numeric key (`Array.sort` with a
 * subtracting comparator, ORM `order_by`), and distinctness.
 */
module Seqs {
  import opened Wrappers

  /** Keeps, in order, the elements that satisfy `p`. */
  function Filter<T(==)>(s: seq<T>, p: T -> bool): (r: seq<T>)
    ensures |r| <= |s|
    ensures forall i :: 0 <= i < |r| ==> r[i] in s && p(r[i])
    ensures forall i :: 0 <= i < |s| && p(s[i]) ==> s[i] in r
  {
    if s == [] then []
    else (if p(s[0]) then [s[0]] else []) + Filter(s[1..], p)
  }

  /** `a` can be obtained from `b` by deleting elements, keeping the order of the rest. */
  predicate IsSubseq<T(==)>(a: seq<T>, b: seq<T>)
    decreases |b|
  {
    a == [] || (b != [] && ((a[0] == b[0] && IsSubseq(a[1..], b[1..])) || IsSubseq(a, b[1..])))
  }

  /** Every sequence is a subsequence of itself. */
  lemma {:induction false} SubseqRefl<T>(s: seq<T>)
    ensures IsSubseq(s, s)
  {
    if s != [] {
      SubseqRefl(s[1..]);
    }
  }

  lemma {:induction false} FilterIsSubseq<T>(s: seq<T>, p: T -> bool)
    ensures IsSubseq(Filter(s, p), s)
  {
    if s != [] {
      FilterIsSubseq(s[1..], p);
      var rest := Filter(s[1..], p);
      if p(s[0]) {
        assert Filter(s, p) == [s[0]] + rest;
        assert ([s[0]] + rest)[1..] == rest;
      } else {
        assert Filter(s, p) == rest;
      }
    }
  }

  /** Filtering twice with the same test changes nothing the second time. */
  lemma {:induction false} FilterIdempotent<T>(s: seq<T>, p: T -> bool)
    ensures Filter(Filter(s, p), p) == Filter(s, p)
  {
    if s != [] {
      FilterIdempotent(s[1..], p);
      var rest := Filter(s[1..], p);
      if p(s[0]) {
        var r := Filter(s, p);
        assert r == [s[0]] + rest;
        assert r[0] == s[0] && r[1..] == rest;
      } else {
        assert Filter(s, p) == rest;
      }
    }
  }

  /** An element that fails the test leaves no trace in front of the rest. */
  lemma FilterDropsHead<T>(x: T, s: seq<T>, p: T -> bool)
    requires !p(x)
    ensures Filter([x] + s, p) == Filter(s, p)
  {
    assert ([x] + s)[1..] == s;
  }

  /** When every element passes, the filter returns its input. */
  lemma {:induction false} FilterAllPass<T>(s: seq<T>, p: T -> bool)
    requires forall i :: 0 <= i < |s| ==> p(s[i])
    ensures Filter(s, p) == s
  {
    if s != [] {
      FilterAllPass(s[1..], p);
      assert [s[0]] + s[1..] == s;
    }
  }

  /** Filtering commutes with concatenation. */
  lemma {:induction false} FilterAppend<T>(a: seq<T>, b: seq<T>, p: T -> bool)
    ensures Filter(a + b, p) == Filter(a, p) + Filter(b, p)
  {
    if a != [] {
      assert (a + b)[1..] == a[1..] + b;
      FilterAppend(a[1..], b, p);
    } else {
      assert a + b == b;
    }
  }

  predicate SortedBy<T>(s: seq<T>, key: T -> real)
  {
    forall i, j :: 0 <= i < j < |s| ==> key(s[i]) <= key(s[j])
  }

  /** Places `x` after every leading element whose key does not exceed its own. */
  function InsertBy<T>(x: T, s: seq<T>, key: T -> real): (r: seq<T>)
    requires SortedBy(s, key)
    ensures SortedBy(r, key)
    ensures multiset(r) == multiset(s) + multiset{x}
    ensures |r| == |s| + 1
    ensures key(r[0]) == key(x) || (s != [] && key(r[0]) == key(s[0]))
    decreases |s|
  {
    if s == [] || key(x) < key(s[0]) then
      SortedCons(x, s, key);
      [x] + s
    else
      assert s == [s[0]] + s[1..];
      SortedTail(s, key);
      var r := InsertBy(x, s[1..], key);
      SortedCons(s[0], r, key);
      [s[0]] + r
  }

  lemma SortedTail<T>(s: seq<T>, key: T -> real)
    requires s != [] && SortedBy(s, key)
    ensures SortedBy(s[1..], key)
    ensures forall j :: 1 <= j < |s| ==> key(s[0]) <= key(s[j])
  {
    forall i, j | 0 <= i < j < |s| - 1 ensures key(s[1..][i]) <= key(s[1..][j]) {
      assert s[1..][i] == s[i + 1] && s[1..][j] == s[j + 1];
    }
  }

  /** An element no greater than the head of a sorted sequence can go in front of it. */
  lemma SortedCons<T>(y: T, r: seq<T>, key: T -> real)
    requires SortedBy(r, key) && (r != [] ==> key(y) <= key(r[0]))
    ensures SortedBy([y] + r, key)
  {
    var t := [y] + r;
    forall i, j | 0 <= i < j < |t| ensures key(t[i]) <= key(t[j]) {
      assert t[j] == r[j - 1];
      if i > 0 { assert t[i] == r[i - 1]; }
    }
  }

  /**
   * Sorting by a numeric key by insertion, taking elements left to right and
   * placing each after those with an equal key, as a stable sort does: the
   * result is sorted and holds the same elements.
   */
  function SortBy<T>(s: seq<T>, key: T -> real): (r: seq<T>)
    ensures SortedBy(r, key)
    ensures multiset(r) == multiset(s)
    ensures |r| == |s|
  {
    if s == [] then []
    else
      assert s == s[..|s| - 1] + [s[|s| - 1]];
      InsertBy(s[|s| - 1], SortBy(s[..|s| - 1], key), key)
  }

  predicate Distinct<T(==)>(s: seq<T>)
  {
    forall i, j :: 0 <= i < j < |s| ==> s[i] != s[j]
  }

  /** A sequence without repetitions has as many distinct elements as positions. */
  lemma {:induction false} DistinctCard<T>(s: seq<T>)
    requires Distinct(s)
    ensures |set x | x in s| == |s|
  {
    if s != [] {
      var t := s[1..];
      DistinctCard(t);
      assert (set x | x in s) == (set x | x in t) + {s[0]};
      assert s[0] !in (set x | x in t);
    }
  }

  /** A repetition-free sequence all of whose elements occur in another repetition-free one is no longer. */
  lemma DistinctIncluded<T>(a: seq<T>, b: seq<T>)
    requires Distinct(a) && Distinct(b)
    requires forall x :: x in a ==> x in b
    ensures |a| <= |b|
  {
    DistinctCard(a);
    DistinctCard(b);
    var sa := set x | x in a;
    var sb := set x | x in b;
    assert sa <= sb;
    SubsetCard(sa, sb);
  }

  lemma {:induction false} SubsetCard<T>(a: set<T>, b: set<T>)
    requires a <= b
    ensures |a| <= |b|
    decreases |a|
  {
    if a != {} {
      var x :| x in a;
      SubsetCard(a - {x}, b - {x});
    }
  }

  /** Every pair of elements, taken in sequence order, is related by `ok`. */
  predicate Pairwise<T>(s: seq<T>, ok: (T, T) -> bool)
  {
    forall i, j :: 0 <= i < j < |s| ==> ok(s[i], s[j])
  }

  lemma {:induction false} PairwiseFilter<T>(s: seq<T>, ok: (T, T) -> bool, p: T -> bool)
    requires Pairwise(s, ok)
    ensures Pairwise(Filter(s, p), ok)
  {
    if s != [] {
      var rest := Filter(s[1..], p);
      PairwiseFilter(s[1..], ok, p);
      if p(s[0]) {
        PairwiseHead(s, ok);
        PairwiseCons(s[0], rest, s[1..], ok);
        assert Filter(s, p) == [s[0]] + rest;
      } else {
        assert Filter(s, p) == rest;
      }
    }
  }

  /** The first element is related to every later one. */
  lemma PairwiseHead<T>(s: seq<T>, ok: (T, T) -> bool)
    requires s != [] && Pairwise(s, ok)
    ensures Pairwise(s[1..], ok)
    ensures forall x :: x in s[1..] ==> ok(s[0], x)
  {
    forall x | x in s[1..] ensures ok(s[0], x) {
      var k :| 0 <= k < |s[1..]| && s[1..][k] == x;
      assert s[k + 1] == x;
    }
  }

  /** Prefixing an element related to every member keeps a sequence pairwise related. */
  lemma PairwiseCons<T>(x: T, rest: seq<T>, pool: seq<T>, ok: (T, T) -> bool)
    requires Pairwise(rest, ok)
    requires forall i :: 0 <= i < |rest| ==> rest[i] in pool
    requires forall y :: y in pool ==> ok(x, y)
    ensures Pairwise([x] + rest, ok)
  {
    var r := [x] + rest;
    forall i, j | 0 <= i < j < |r| ensures ok(r[i], r[j]) {
      assert r[j] == rest[j - 1];
      if i > 0 { assert r[i] == rest[i - 1]; }
    }
  }

  lemma PairwiseAppend<T>(s: seq<T>, x: T, ok: (T, T) -> bool)
    requires Pairwise(s, ok)
    requires forall i :: 0 <= i < |s| ==> ok(s[i], x)
    ensures Pairwise(s + [x], ok)
  {
    var t := s + [x];
    forall i, j | 0 <= i < j < |t| ensures ok(t[i], t[j]) {
      if j < |s| { assert t[i] == s[i] && t[j] == s[j]; } else { assert t[i] == s[i]; }
    }
  }

  /** Applies `f` to every element. */
  function Map<T, U>(s: seq<T>, f: T -> U): (r: seq<U>)
    ensures |r| == |s|
    ensures forall i :: 0 <= i < |s| ==> r[i] == f(s[i])
  {
    seq(|s|, i requires 0 <= i < |s| => f(s[i]))
  }

  lemma MapAppend<T, U>(a: seq<T>, b: seq<T>, f: T -> U)
    ensures Map(a + b, f) == Map(a, f) + Map(b, f)
  {
  }

  /** Filtering the images by `p` is imaging the elements kept by `q` when `q` agrees with `p` after `f`. */
  lemma {:induction false} FilterMap<T, U>(s: seq<T>, f: T -> U, p: U -> bool, q: T -> bool)
    requires forall i :: 0 <= i < |s| ==> p(f(s[i])) == q(s[i])
    ensures Filter(Map(s, f), p) == Map(Filter(s, q), f)
  {
    if s != [] {
      var t := s[1..];
      AgreeTail(s, f, p, q);
      FilterMap(t, f, p, q);
      var m := Map(s, f);
      assert m == [f(s[0])] + Map(t, f);
      assert Filter(m, p) == (if q(s[0]) then [f(s[0])] else []) + Map(Filter(t, q), f);
      assert Filter(s, q) == (if q(s[0]) then [s[0]] else []) + Filter(t, q);
      MapAppend(if q(s[0]) then [s[0]] else [], Filter(t, q), f);
    }
  }

  lemma AgreeTail<T, U>(s: seq<T>, f: T -> U, p: U -> bool, q: T -> bool)
    requires s != [] && forall i :: 0 <= i < |s| ==> p(f(s[i])) == q(s[i])
    ensures forall i :: 0 <= i < |s| - 1 ==> p(f(s[1..][i])) == q(s[1..][i])
  {
    forall i | 0 <= i < |s| - 1 ensures p(f(s[1..][i])) == q(s[1..][i]) {
      assert s[1..][i] == s[i + 1];
    }
  }

  /** The first element satisfying `p`, as the ORM's `.filter(...).first()` or a primary-key lookup finds it. */
  function Find<T>(s: seq<T>, p: T -> bool): (r: Option<T>)
    ensures r.Some? ==> r.value in s && p(r.value)
    ensures r.None? ==> forall i :: 0 <= i < |s| ==> !p(s[i])
  {
    if s == [] then None
    else if p(s[0]) then Some(s[0])
    else Find(s[1..], p)
  }

  /** In a repetition-free sequence every value occurs at most once. */
  lemma {:induction false} DistinctMultiplicity<T>(s: seq<T>)
    requires Distinct(s)
    ensures forall x :: multiset(s)[x] <= 1
  {
    if s != [] {
      DistinctMultiplicity(s[1..]);
      assert s == [s[0]] + s[1..];
      assert s[0] !in s[1..];
    }
  }

  /** A permutation of a repetition-free sequence has no repetitions either. */
  lemma DistinctPermutation<T>(r: seq<T>, s: seq<T>)
    requires multiset(r) == multiset(s) && Distinct(s)
    ensures Distinct(r)
  {
    DistinctMultiplicity(s);
    forall i, j | 0 <= i < j < |r| ensures r[i] != r[j] {
      assert r == r[..j] + [r[j]] + r[j + 1..];
      assert r[i] in r[..j];
      assert multiset(r)[r[i]] >= multiset(r[..j])[r[i]] + multiset{r[j]}[r[i]];
    }
  }
}

=== FILE: serializers.dfy ===
/**
 * The custom `validate()` hooks of the lesson, enrollment and progress
 * serializers. Each runs after field validation and before the row is
 * saved, and anticipates one of the database's unique constraints so the
 * client receives a field error instead of a failed insert.
 */
module CourseSerializers {
  import opened Wrappers
  import opened Users
  import opened Store
  import opened Permissions

  const OrderTakenMessage := "This order is already used in this course."
  const AlreadyEnrolledMessage := "You're already enrolled in this course!"
  const NotEnrolledMessage := "You're not enrolled in this course."
  const ProgressExistsMessage := "Progress already exists for this lesson."

  /** A lesson serializer either creates under the course in the URL or updates a stored lesson. */
  datatype LessonContext = Creating(urlCourseId: Option<nat>) | Updating(instance: Lesson)

  /** The order to check: the submitted one, else the stored one on update. */
  function IntendedOrder(ctx: LessonContext, attrs: LessonPatch): (r: Option<nat>)
    ensures attrs.order.Some? ==> r == attrs.order
    ensures ctx.Updating? ==> r.Some?
  {
    if attrs.order.Some? then attrs.order
    else if ctx.Updating? then Some(ctx.instance.order)
    else None
  }

  /**
   * `LessonSerializers.validate`: rejects an order another lesson of the
   * same course already holds. The course is the instance's on update; on
   * create it is looked up from the URL (404 when absent), and without a
   * course id or an order there is nothing to check. The attributes come
   * back unchanged.
   */
  function ValidateLesson(db: Db, ctx: LessonContext, attrs: LessonPatch): (r: Result<LessonPatch, Error>)
    ensures r.Ok? ==> r.value == attrs
    ensures r.Err? ==> r.error == NotFound || r.error == ValidationError("order", OrderTakenMessage)
    ensures r == Err(NotFound) <==> ctx.Creating? && ctx.urlCourseId.Some? && !HasCourse(db, ctx.urlCourseId.value)
    ensures ctx.Updating? ==>
              (r.Ok? <==> !OrderTaken(db.lessons, ctx.instance.courseId, IntendedOrder(ctx, attrs).value, Some(ctx.instance.id)))
    ensures ctx.Creating? && ctx.urlCourseId.Some? && HasCourse(db, ctx.urlCourseId.value) && attrs.order.Some? ==>
              (r.Ok? <==> !OrderTaken(db.lessons, ctx.urlCourseId.value, attrs.order.value, None))
    ensures ctx.Creating? && (ctx.urlCourseId.None? || attrs.order.None?) ==> r.Ok? || r == Err(NotFound)
  {
    var order := IntendedOrder(ctx, attrs);
    var course: Result<Option<nat>, Error> :=
      match ctx
      case Updating(l) => Ok(Some(l.courseId))
      case Creating(None) => Ok(None)
      case Creating(Some(id)) =>
        match FindCourse(db, id)
        case None => Err(NotFound)
        case Some(c) => Ok(Some(c.id));
    if course.Err? then Err(course.error)
    else if course.value.None? || order.None? then Ok(attrs)
    else
      var exceptId := if ctx.Updating? then Some(ctx.instance.id) else None;
      if OrderTaken(db.lessons, course.value.value, order.value, exceptId) then
        Err(ValidationError("order", OrderTakenMessage))
      else Ok(attrs)
  }

  /** On update, validation accepts exactly the changes the (course, order) constraint lets the database save. */
  lemma ValidateLessonMatchesUpdate(db: Db, l: Lesson, attrs: LessonPatch)
    ensures ValidateLesson(db, Updating(l), attrs).Ok? <==> SaveLesson(db, ApplyPatch(l, attrs)).Ok?
  {
  }

  /** On create under an existing course, validation accepts exactly the lessons the database can insert. */
  lemma ValidateLessonMatchesCreate(db: Db, courseId: nat, title: string, videoUrl: string, duration: nat, order: nat)
    requires HasCourse(db, courseId)
    ensures ValidateLesson(db, Creating(Some(courseId)), LessonPatch(Some(title), Some(videoUrl), Some(duration), Some(order))).Ok?
            <==> AddLesson(db, courseId, title, videoUrl, duration, order).Ok?
  {
  }

  /**
   * `EnrollmentSerializer.validate`: rejects a second enrollment of the
   * student in the course named by the URL's `pk`; without a `pk` the query
   * matches nothing and validation passes.
   */
  function ValidateEnrollment(db: Db, student: User, pk: Option<nat>): (r: Result<(), Error>)
    ensures r.Err? <==> pk.Some? && IsEnrolled(db, student.id, pk.value)
    ensures r.Err? ==> r.error == ValidationError("detail", AlreadyEnrolledMessage)
  {
    if pk.Some? && IsEnrolled(db, student.id, pk.value) then
      Err(ValidationError("detail", AlreadyEnrolledMessage))
    else Ok(())
  }

  /** For an existing course, the enrollment check accepts exactly the inserts the (student, course) constraint allows. */
  lemma ValidateEnrollmentMatchesInsert(db: Db, student: User, courseId: nat)
    requires HasCourse(db, courseId)
    ensures ValidateEnrollment(db, student, Some(courseId)).Ok? <==> AddEnrollment(db, student.id, courseId).Ok?
  {
  }

  /**
   * `LessonProgressSerializer.validate`, in the source's order: the lesson
   * named by `pk` must exist (404), the student must be enrolled in its
   * course, and no progress row may exist yet for the pair.
   */
  function ValidateProgress(db: Db, student: User, pk: Option<nat>): (r: Result<(), Error>)
    ensures r.Ok? ==> pk.Some? && HasLesson(db, pk.value) && !HasProgress(db, student.id, pk.value)
    ensures r.Ok? ==> IsEnrolled(db, student.id, FindLesson(db, pk.value).value.courseId)
    ensures r == Err(NotFound) <==> pk.None? || !HasLesson(db, pk.value)
    ensures r.Err? && r.error != NotFound ==>
              r.error == ValidationError("detail", NotEnrolledMessage) || r.error == ValidationError("detail", ProgressExistsMessage)
    ensures r == Err(ValidationError("detail", ProgressExistsMessage)) ==> HasProgress(db, student.id, pk.value)
    ensures pk.Some? && HasLesson(db, pk.value) ==>
              (r.Ok? <==> IsEnrolled(db, student.id, FindLesson(db, pk.value).value.courseId) && !HasProgress(db, student.id, pk.value))
    ensures pk.Some? && HasLesson(db, pk.value) && !IsEnrolled(db, student.id, FindLesson(db, pk.value).value.courseId) ==>
              r == Err(ValidationError("detail", NotEnrolledMessage))
  {
    if pk.None? then Err(NotFound)
    else match FindLesson(db, pk.value)
      case None => Err(NotFound)
      case Some(lesson) =>
        if !IsEnrolled(db, student.id, lesson.courseId) then Err(ValidationError("detail", NotEnrolledMessage))
        else if HasProgress(db, student.id, lesson.id) then Err(ValidationError("detail", ProgressExistsMessage))
        else Ok(())
  }

  /** A lesson that passed the progress check can always be recorded as completed. */
  lemma ValidatedProgressInserts(db: Db, student: User, pk: Option<nat>)
    requires ValidateProgress(db, student, pk).Ok?
    ensures AddProgress(db, student.id, pk.value, true).Ok?
  {
  }
}

=== FILE: session.dfy ===
/**
 * The browser side of authentication: the two local-storage slots the
 * tokens live in, the request interceptor that turns the stored access
 * token into an `Authorization` header, and the auth provider's state —
 * the access token, the current user and whether the session is still
 * booting — with its boot, login and logout transitions.
 */
module Session {
  import opened Wrappers
  import opened Json

  /** `localStorage`: string keys to string values. */
  type Storage = map<string, string>

  const AccessKey := "access_token"
  const RefreshKey := "refresh_token"

  /** `localStorage.getItem`: the stored string, or null. */
  function GetItem(st: Storage, key: string): (r: Value)
    ensures key in st ==> r == Str(st[key])
    ensures key !in st ==> r == Null
  {
    if key in st then Str(st[key]) else Null
  }

  /** `tokenStorage.setTokens`: both slots are written, each with `String(v)` of the given value. */
  function SetTokens(st: Storage, access: Value, refresh: Value): (r: Storage)
    ensures GetItem(r, AccessKey) == Str(JsString(access)) && GetItem(r, RefreshKey) == Str(JsString(refresh))
    ensures forall k :: k != AccessKey && k != RefreshKey ==> GetItem(r, k) == GetItem(st, k)
  {
    st[AccessKey := JsString(access)][RefreshKey := JsString(refresh)]
  }

  /** `tokenStorage.clear`: both slots are removed, nothing else. */
  function ClearTokens(st: Storage): (r: Storage)
    ensures GetItem(r, AccessKey) == Null && GetItem(r, RefreshKey) == Null
    ensures forall k :: k != AccessKey && k != RefreshKey ==> GetItem(r, k) == GetItem(st, k)
  {
    st - {AccessKey, RefreshKey}
  }

  /** The headers of an outgoing request: JSON content, plus the bearer token when one is stored. */
  datatype Headers = Headers(contentType: string, authorization: Option<string>)

  /** The instance defaults and the request interceptor, applied to every request. */
  function RequestHeaders(st: Storage): (h: Headers)
    ensures h.contentType == "application/json"
    ensures h.authorization.Some? <==> AccessKey in st && st[AccessKey] != ""
    ensures h.authorization.Some? ==> h.authorization.value == "Bearer " + st[AccessKey]
  {
    var token := GetItem(st, AccessKey);
    Headers("application/json", if Truthy(token) then Some("Bearer " + token.s) else None)
  }

  /** The auth provider's state. */
  datatype Auth = Auth(storage: Storage, accessToken: Value, user: Value, booting: bool)
  {
    /** `isAuthed`: the access token in memory is truthy. */
    predicate IsAuthed()
    {
      Truthy(accessToken)
    }
  }

  /** The first render: the token is read from storage, no user yet, booting. */
  function Mount(st: Storage): (a: Auth)
    ensures a.booting && a.user == Null && a.storage == st
    ensures a.IsAuthed() <==> AccessKey in st && st[AccessKey] != ""
  {
    Auth(st, GetItem(st, AccessKey), Null, true)
  }

  /** The answer to the boot-time profile request. */
  datatype MeOutcome = MeOk(data: Value) | MeFailed

  /**
   * The boot effect run to completion. Without a stored token it only stops
   * booting. Otherwise it fetches the profile: success sets the user; a
   * failure clears storage and the in-memory session. Each state update
   * except those of the failure branch is skipped once the provider has
   * unmounted (`ignore`).
   */
  function Boot(a: Auth, me: MeOutcome, unmounted: bool): (r: Auth)
    ensures !unmounted ==> !r.booting
    ensures unmounted ==> r.booting == a.booting
    ensures !Truthy(GetItem(a.storage, AccessKey)) ==> r == a.(booting := if unmounted then a.booting else false)
    ensures Truthy(GetItem(a.storage, AccessKey)) && me.MeFailed? ==>
              !r.IsAuthed() && r.user == Null && r.storage == ClearTokens(a.storage)
    ensures Truthy(GetItem(a.storage, AccessKey)) && me.MeOk? ==>
              r.storage == a.storage && r.accessToken == a.accessToken && r.user == (if unmounted then a.user else me.data)
  {
    if !Truthy(GetItem(a.storage, AccessKey)) then
      if unmounted then a else a.(booting := false)
    else
      var after :=
        match me
        case MeOk(data) => if unmounted then a else a.(user := data)
        case MeFailed => a.(storage := ClearTokens(a.storage), accessToken := Null, user := Null);
      if unmounted then after else after.(booting := false)
  }

  /** After a failed profile request no token is left anywhere, so no later request carries one. */
  lemma BootFailureSignsOut(st: Storage, unmounted: bool)
    requires AccessKey in st && st[AccessKey] != ""
    ensures var r := Boot(Mount(st), MeFailed, unmounted);
            !r.IsAuthed() && RequestHeaders(r.storage).authorization.None?
  {
  }

  /** `login`: both tokens are stored, the access token is kept in memory, and the user is the payload or null. */
  function Login(a: Auth, access: Value, refresh: Value, userPayload: Value): (r: Auth)
    ensures r.storage == SetTokens(a.storage, access, refresh)
    ensures r.accessToken == access && r.user == Coalesce(userPayload, Null)
    ensures r.booting == a.booting
  {
    a.(storage := SetTokens(a.storage, access, refresh), accessToken := access, user := Coalesce(userPayload, Null))
  }

  /** `logout`: storage and memory forget the session. */
  function Logout(a: Auth): (r: Auth)
    ensures !r.IsAuthed() && r.user == Null && r.booting == a.booting
    ensures r.storage == ClearTokens(a.storage)
  {
    a.(storage := ClearTokens(a.storage), accessToken := Null, user := Null)
  }

  /** After a login with a non-empty access token, every request carries it as a bearer token. */
  lemma LoginAuthorizesRequests(a: Auth, access: string, refresh: Value, userPayload: Value)
    requires access != ""
    ensures var r := Login(a, Str(access), refresh, userPayload);
            r.IsAuthed() && RequestHeaders(r.storage).authorization == Some("Bearer " + access)
  {
  }

  /** Logging out undoes a login: no request carries a token afterwards. */
  lemma LogoutRevokesHeader(a: Auth, access: Value, refresh: Value, userPayload: Value)
    ensures var r := Logout(Login(a, access, refresh, userPayload));
            !r.IsAuthed() && RequestHeaders(r.storage).authorization.None?
  {
  }

  /**
   * The login page passes the body's `refresh`, which the server has moved
   * into a cookie; the refresh slot then holds the text "undefined".
   */
  lemma LoginWithoutRefreshStoresUndefined(a: Auth, access: Value, userPayload: Value)
    ensures GetItem(Login(a, access, Undefined, userPayload).storage, RefreshKey) == Str("undefined")
  {
  }
}

=== FILE: store.dfy ===
/**
 * The course tables: courses, their lessons, enrollments of students in
 * courses, and per-lesson progress rows, together with the database
 * constraints declared on them (primary keys, the three unique pairs and
 * the cascading foreign keys).
 *
 * The store is an immutable value; every write returns a new store. All
 * tables draw primary keys from one counter, and one logical clock stamps
 * `created_at` and `enrolled_at`.
 */
module Store {
  import opened Wrappers
  import opened Seqs

  datatype Course = Course(
    id: nat,
    title: string,
    description: string,
    thumbnail: Option<string>,
    instructorId: nat,
    createdAt: nat)

  /** `duration` (minutes) and `order` are positive-integer columns, which admit zero. */
  datatype Lesson = Lesson(
    id: nat,
    courseId: nat,
    title: string,
    videoUrl: string,
    duration: nat,
    order: nat)

  datatype Enrollment = Enrollment(id: nat, studentId: nat, courseId: nat, enrolledAt: nat)

  datatype Progress = Progress(id: nat, studentId: nat, lessonId: nat, completed: bool)

  datatype Db = Db(
    courses: seq<Course>,
    lessons: seq<Lesson>,
    enrollments: seq<Enrollment>,
    progress: seq<Progress>,
    nextId: nat,
    clock: nat)

  /** A write the database refuses because it would break a constraint. */
  datatype DbError = IntegrityError

  /** A written row together with the store that now holds it. */
  datatype Saved<T> = Saved(db: Db, row: T)

  const Empty: Db := Db([], [], [], [], 1, 0)

  // Pairwise relations that the constraints demand of any two rows of a table.

  predicate DistinctCourses(a: Course, b: Course)
  {
    a.id != b.id
  }

  /** Primary key, and the unique pair (course, order). */
  predicate DistinctLessons(a: Lesson, b: Lesson)
  {
    a.id != b.id && (a.courseId != b.courseId || a.order != b.order)
  }

  /** Two different rows of a table with these constraints differ in key and in (course, order). */
  lemma LessonRowsDiffer(lessons: seq<Lesson>, x: Lesson, y: Lesson)
    requires Pairwise(lessons, DistinctLessons)
    requires x in lessons && y in lessons && x != y
    ensures DistinctLessons(x, y)
  {
    var a :| 0 <= a < |lessons| && lessons[a] == x;
    var b :| 0 <= b < |lessons| && lessons[b] == y;
    if a < b { assert DistinctLessons(lessons[a], lessons[b]); }
    else { assert DistinctLessons(lessons[b], lessons[a]); }
  }

  /** Primary key, and the unique pair (student, course). */
  predicate DistinctEnrollments(a: Enrollment, b: Enrollment)
  {
    a.id != b.id && (a.studentId != b.studentId || a.courseId != b.courseId)
  }

  /** Primary key, and the unique pair (student, lesson). */
  predicate DistinctProgress(a: Progress, b: Progress)
  {
    a.id != b.id && (a.studentId != b.studentId || a.lessonId != b.lessonId)
  }

  predicate HasCourse(db: Db, id: nat)
  {
    exists i :: 0 <= i < |db.courses| && db.courses[i].id == id
  }

  predicate HasLesson(db: Db, id: nat)
  {
    exists i :: 0 <= i < |db.lessons| && db.lessons[i].id == id
  }

  /** The lesson `lessonId` exists and belongs to course `courseId` (the join `lesson__course`). */
  predicate LessonInCourse(lessons: seq<Lesson>, lessonId: nat, courseId: nat)
  {
    exists i :: 0 <= i < |lessons| && lessons[i].id == lessonId && lessons[i].courseId == courseId
  }

  predicate IsEnrolled(db: Db, studentId: nat, courseId: nat)
  {
    exists i :: 0 <= i < |db.enrollments| && db.enrollments[i].studentId == studentId && db.enrollments[i].courseId == courseId
  }

  predicate HasProgress(db: Db, studentId: nat, lessonId: nat)
  {
    exists i :: 0 <= i < |db.progress| && db.progress[i].studentId == studentId && db.progress[i].lessonId == lessonId
  }

  predicate OrderTaken(lessons: seq<Lesson>, courseId: nat, order: nat, exceptId: Option<nat>)
  {
    exists i :: 0 <= i < |lessons| && lessons[i].courseId == courseId && lessons[i].order == order
                && (exceptId.Some? ==> lessons[i].id != exceptId.value)
  }

  /** Every constraint the schema declares holds, keys are below the counter and stamps are in the past. */
  predicate Valid(db: Db)
  {
    && Pairwise(db.courses, DistinctCourses)
    && Pairwise(db.lessons, DistinctLessons)
    && Pairwise(db.enrollments, DistinctEnrollments)
    && Pairwise(db.progress, DistinctProgress)
    && (forall i :: 0 <= i < |db.courses| ==> db.courses[i].id < db.nextId && db.courses[i].createdAt < db.clock)
    && (forall i :: 0 <= i < |db.lessons| ==> db.lessons[i].id < db.nextId && HasCourse(db, db.lessons[i].courseId))
    && (forall i :: 0 <= i < |db.enrollments| ==>
          db.enrollments[i].id < db.nextId && db.enrollments[i].enrolledAt < db.clock
          && HasCourse(db, db.enrollments[i].courseId))
    && (forall i :: 0 <= i < |db.progress| ==> db.progress[i].id < db.nextId && HasLesson(db, db.progress[i].lessonId))
  }

  lemma EmptyValid()
    ensures Valid(Empty)
  {
  }

  // Primary-key lookups.

  function CourseWithId(id: nat): Course -> bool
  {
    (c: Course) => c.id == id
  }

  function LessonWithId(id: nat): Lesson -> bool
  {
    (l: Lesson) => l.id == id
  }

  function FindCourse(db: Db, id: nat): (r: Option<Course>)
    ensures r.Some? ==> r.value in db.courses && r.value.id == id
    ensures r.None? <==> !HasCourse(db, id)
  {
    Find(db.courses, CourseWithId(id))
  }

  function FindLesson(db: Db, id: nat): (r: Option<Lesson>)
    ensures r.Some? ==> r.value in db.lessons && r.value.id == id
    ensures r.None? <==> !HasLesson(db, id)
  {
    Find(db.lessons, LessonWithId(id))
  }

  /** In a valid store two different course rows have different keys. */
  lemma CourseKeyUnique(db: Db, i: nat, j: nat)
    requires Pairwise(db.courses, DistinctCourses)
    requires i < |db.courses| && j < |db.courses| && i != j
    ensures db.courses[i].id != db.courses[j].id
  {
    if i < j { assert DistinctCourses(db.courses[i], db.courses[j]); }
    else { assert DistinctCourses(db.courses[j], db.courses[i]); }
  }

  /** In a valid store a course is found by its own key. */
  lemma FindCourseUnique(db: Db, c: Course)
    requires Pairwise(db.courses, DistinctCourses) && c in db.courses
    ensures FindCourse(db, c.id) == Some(c)
  {
    var r := FindCourse(db, c.id);
    var i :| 0 <= i < |db.courses| && db.courses[i] == r.value;
    var j :| 0 <= j < |db.courses| && db.courses[j] == c;
    if i != j { CourseKeyUnique(db, i, j); }
  }

  lemma FindLessonUnique(db: Db, l: Lesson)
    requires Valid(db) && l in db.lessons
    ensures FindLesson(db, l.id) == Some(l)
  {
    var r := FindLesson(db, l.id);
    var i :| 0 <= i < |db.lessons| && db.lessons[i] == r.value;
    var j :| 0 <= j < |db.lessons| && db.lessons[j] == l;
    assert i == j;
  }

  // Inserts. `save()` of a new row takes the next key; a constraint it would break rejects it.

  function AddCourse(db: Db, title: string, description: string, thumbnail: Option<string>, instructorId: nat): (r: Saved<Course>)
    ensures r.row == Course(db.nextId, title, description, thumbnail, instructorId, db.clock)
    ensures r.db.courses == db.courses + [r.row]
    ensures r.db.lessons == db.lessons && r.db.enrollments == db.enrollments && r.db.progress == db.progress
    ensures r.db.nextId > db.nextId && r.db.clock > db.clock
  {
    var c := Course(db.nextId, title, description, thumbnail, instructorId, db.clock);
    Saved(db.(courses := db.courses + [c], nextId := db.nextId + 1, clock := db.clock + 1), c)
  }

  lemma AddCoursePreservesValid(db: Db, title: string, description: string, thumbnail: Option<string>, instructorId: nat)
    requires Valid(db)
    ensures Valid(AddCourse(db, title, description, thumbnail, instructorId).db)
  {
    var r := AddCourse(db, title, description, thumbnail, instructorId);
    PairwiseAppend(db.courses, r.row, DistinctCourses);
    forall i | 0 <= i < |db.lessons| ensures HasCourse(r.db, db.lessons[i].courseId) {
      var k :| 0 <= k < |db.courses| && db.courses[k].id == db.lessons[i].courseId;
      assert r.db.courses[k] == db.courses[k];
    }
    forall i | 0 <= i < |db.enrollments| ensures HasCourse(r.db, db.enrollments[i].courseId) {
      var k :| 0 <= k < |db.courses| && db.courses[k].id == db.enrollments[i].courseId;
      assert r.db.courses[k] == db.courses[k];
    }
  }

  /** Inserts a lesson into an existing course; the order must be free in that course. */
  function AddLesson(db: Db, courseId: nat, title: string, videoUrl: string, duration: nat, order: nat): (r: Result<Saved<Lesson>, DbError>)
    ensures r.Err? <==> !HasCourse(db, courseId) || OrderTaken(db.lessons, courseId, order, None)
    ensures r.Ok? ==> r.value.row == Lesson(db.nextId, courseId, title, videoUrl, duration, order)
    ensures r.Ok? ==> r.value.db == db.(lessons := db.lessons + [r.value.row], nextId := db.nextId + 1)
  {
    if !HasCourse(db, courseId) || OrderTaken(db.lessons, courseId, order, None) then Err(IntegrityError)
    else
      var l := Lesson(db.nextId, courseId, title, videoUrl, duration, order);
      Ok(Saved(db.(lessons := db.lessons + [l], nextId := db.nextId + 1), l))
  }

  lemma AddLessonPreservesValid(db: Db, courseId: nat, title: string, videoUrl: string, duration: nat, order: nat)
    requires Valid(db)
    ensures AddLesson(db, courseId, title, videoUrl, duration, order).Ok? ==>
              Valid(AddLesson(db, courseId, title, videoUrl, duration, order).value.db)
  {
    var r := AddLesson(db, courseId, title, videoUrl, duration, order);
    if r.Ok? {
      PairwiseAppend(db.lessons, r.value.row, DistinctLessons);
      var d := r.value.db;
      forall i | 0 <= i < |d.progress| ensures HasLesson(d, d.progress[i].lessonId) {
        var k :| 0 <= k < |db.lessons| && db.lessons[k].id == db.progress[i].lessonId;
        assert d.lessons[k] == db.lessons[k];
      }
    }
  }

  function AddEnrollment(db: Db, studentId: nat, courseId: nat): (r: Result<Saved<Enrollment>, DbError>)
    ensures r.Err? <==> !HasCourse(db, courseId) || IsEnrolled(db, studentId, courseId)
    ensures r.Ok? ==> r.value.row == Enrollment(db.nextId, studentId, courseId, db.clock)
    ensures r.Ok? ==> r.value.db == db.(enrollments := db.enrollments + [r.value.row], nextId := db.nextId + 1, clock := db.clock + 1)
  {
    if !HasCourse(db, courseId) || IsEnrolled(db, studentId, courseId) then Err(IntegrityError)
    else
      var e := Enrollment(db.nextId, studentId, courseId, db.clock);
      Ok(Saved(db.(enrollments := db.enrollments + [e], nextId := db.nextId + 1, clock := db.clock + 1), e))
  }

  lemma AddEnrollmentPreservesValid(db: Db, studentId: nat, courseId: nat)
    requires Valid(db)
    ensures AddEnrollment(db, studentId, courseId).Ok? ==> Valid(AddEnrollment(db, studentId, courseId).value.db)
    ensures AddEnrollment(db, studentId, courseId).Ok? ==> IsEnrolled(AddEnrollment(db, studentId, courseId).value.db, studentId, courseId)
  {
    var r := AddEnrollment(db, studentId, courseId);
    if r.Ok? {
      PairwiseAppend(db.enrollments, r.value.row, DistinctEnrollments);
      assert r.value.db.enrollments[|db.enrollments|] == r.value.row;
    }
  }

  function AddProgress(db: Db, studentId: nat, lessonId: nat, completed: bool): (r: Result<Saved<Progress>, DbError>)
    ensures r.Err? <==> !HasLesson(db, lessonId) || HasProgress(db, studentId, lessonId)
    ensures r.Ok? ==> r.value.row == Progress(db.nextId, studentId, lessonId, completed)
    ensures r.Ok? ==> r.value.db == db.(progress := db.progress + [r.value.row], nextId := db.nextId + 1)
  {
    if !HasLesson(db, lessonId) || HasProgress(db, studentId, lessonId) then Err(IntegrityError)
    else
      var p := Progress(db.nextId, studentId, lessonId, completed);
      Ok(Saved(db.(progress := db.progress + [p], nextId := db.nextId + 1), p))
  }

  lemma AddProgressPreservesValid(db: Db, studentId: nat, lessonId: nat, completed: bool)
    requires Valid(db)
    ensures AddProgress(db, studentId, lessonId, completed).Ok? ==> Valid(AddProgress(db, studentId, lessonId, completed).value.db)
  {
    var r := AddProgress(db, studentId, lessonId, completed);
    if r.Ok? {
      PairwiseAppend(db.progress, r.value.row, DistinctProgress);
    }
  }

  // Updates of existing rows.

  /** The submitted fields of a partial update; an absent field keeps its stored value. */
  datatype LessonPatch = LessonPatch(
    title: Option<string>,
    videoUrl: Option<string>,
    duration: Option<nat>,
    order: Option<nat>)

  function ApplyPatch(l: Lesson, p: LessonPatch): (r: Lesson)
    ensures r.id == l.id && r.courseId == l.courseId
    ensures r.order == p.order.GetOr(l.order)
    ensures p == LessonPatch(None, None, None, None) ==> r == l
  {
    l.(title := p.title.GetOr(l.title),
       videoUrl := p.videoUrl.GetOr(l.videoUrl),
       duration := p.duration.GetOr(l.duration),
       order := p.order.GetOr(l.order))
  }

  function ReplaceRow(u: Lesson): Lesson -> Lesson
  {
    (l: Lesson) => if l.id == u.id then u else l
  }

  /**
   * Writes `u` over the stored lesson with the same key. The course cannot
   * change; the new order must not be held by another lesson of the course.
   */
  function SaveLesson(db: Db, u: Lesson): (r: Result<Db, DbError>)
    ensures r.Err? <==> OrderTaken(db.lessons, u.courseId, u.order, Some(u.id))
    ensures r.Ok? ==> |r.value.lessons| == |db.lessons|
    ensures r.Ok? ==> forall i :: 0 <= i < |db.lessons| ==>
              r.value.lessons[i] == (if db.lessons[i].id == u.id then u else db.lessons[i])
    ensures r.Ok? ==> r.value == db.(lessons := r.value.lessons)
  {
    if OrderTaken(db.lessons, u.courseId, u.order, Some(u.id)) then Err(IntegrityError)
    else Ok(db.(lessons := Map(db.lessons, ReplaceRow(u))))
  }

  lemma SaveLessonPreservesValid(db: Db, u: Lesson)
    requires Valid(db)
    requires exists i :: 0 <= i < |db.lessons| && db.lessons[i].id == u.id && db.lessons[i].courseId == u.courseId
    ensures SaveLesson(db, u).Ok? ==> Valid(SaveLesson(db, u).value)
  {
    var r := SaveLesson(db, u);
    if r.Ok? {
      SaveLessonKeepsDistinct(db, u);
      SaveLessonKeepsRefs(db, u);
    }
  }

  lemma SaveLessonKeepsDistinct(db: Db, u: Lesson)
    requires Valid(db)
    requires exists i :: 0 <= i < |db.lessons| && db.lessons[i].id == u.id && db.lessons[i].courseId == u.courseId
    ensures SaveLesson(db, u).Ok? ==> Pairwise(SaveLesson(db, u).value.lessons, DistinctLessons)
  {
    var r := SaveLesson(db, u);
    if r.Ok? {
      var d := r.value;
      forall i, j | 0 <= i < j < |d.lessons| ensures DistinctLessons(d.lessons[i], d.lessons[j]) {
        assert DistinctLessons(db.lessons[i], db.lessons[j]);
      }
    }
  }

  lemma SaveLessonKeepsRefs(db: Db, u: Lesson)
    requires Valid(db)
    requires exists i :: 0 <= i < |db.lessons| && db.lessons[i].id == u.id && db.lessons[i].courseId == u.courseId
    ensures SaveLesson(db, u).Ok? ==>
              (forall i :: 0 <= i < |db.lessons| ==> HasCourse(db, SaveLesson(db, u).value.lessons[i].courseId))
              && (forall i :: 0 <= i < |db.progress| ==> HasLesson(SaveLesson(db, u).value, db.progress[i].lessonId))
  {
    var r := SaveLesson(db, u);
    if r.Ok? {
      var d := r.value;
      forall i | 0 <= i < |d.lessons| ensures HasCourse(db, d.lessons[i].courseId) {
        if db.lessons[i].id == u.id {
          var k :| 0 <= k < |db.lessons| && db.lessons[k].id == u.id && db.lessons[k].courseId == u.courseId;
          assert HasCourse(db, db.lessons[k].courseId);
        }
      }
      forall i | 0 <= i < |d.progress| ensures HasLesson(d, d.progress[i].lessonId) {
        var k :| 0 <= k < |db.lessons| && db.lessons[k].id == db.progress[i].lessonId;
        assert d.lessons[k].id == db.lessons[k].id;
      }
    }
  }

  /** Replaces the editable fields of a course; key, owner and creation time are kept. */
  function SaveCourse(db: Db, id: nat, title: string, description: string): (r: Db)
    ensures |r.courses| == |db.courses|
    ensures forall i :: 0 <= i < |db.courses| ==>
              r.courses[i].id == db.courses[i].id && r.courses[i].instructorId == db.courses[i].instructorId
              && r.courses[i].createdAt == db.courses[i].createdAt
              && (db.courses[i].id == id ==> r.courses[i].title == title && r.courses[i].description == description)
              && (db.courses[i].id != id ==> r.courses[i] == db.courses[i])
    ensures r == db.(courses := r.courses)
  {
    db.(courses := Map(db.courses, (c: Course) => if c.id == id then c.(title := title, description := description) else c))
  }

  lemma SaveCoursePreservesValid(db: Db, id: nat, title: string, description: string)
    requires Valid(db)
    ensures Valid(SaveCourse(db, id, title, description))
  {
    var d := SaveCourse(db, id, title, description);
    SaveCourseKeepsDistinct(db, id, title, description);
    forall i | 0 <= i < |d.lessons| ensures HasCourse(d, d.lessons[i].courseId) {
      SaveCourseKeepsKey(db, id, title, description, db.lessons[i].courseId);
    }
    forall i | 0 <= i < |d.enrollments| ensures HasCourse(d, d.enrollments[i].courseId) {
      SaveCourseKeepsKey(db, id, title, description, db.enrollments[i].courseId);
    }
  }

  lemma SaveCourseKeepsDistinct(db: Db, id: nat, title: string, description: string)
    requires Pairwise(db.courses, DistinctCourses)
    ensures Pairwise(SaveCourse(db, id, title, description).courses, DistinctCourses)
  {
    var d := SaveCourse(db, id, title, description);
    forall i, j | 0 <= i < j < |d.courses| ensures DistinctCourses(d.courses[i], d.courses[j]) {
      assert DistinctCourses(db.courses[i], db.courses[j]);
    }
  }

  /** Editing a course keeps every course key. */
  lemma SaveCourseKeepsKey(db: Db, id: nat, title: string, description: string, courseId: nat)
    requires HasCourse(db, courseId)
    ensures HasCourse(SaveCourse(db, id, title, description), courseId)
  {
    var d := SaveCourse(db, id, title, description);
    var k :| 0 <= k < |db.courses| && db.courses[k].id == courseId;
    assert d.courses[k].id == db.courses[k].id;
  }

  // Deletes, cascading along the foreign keys.

  function CourseKept(id: nat): Course -> bool
  {
    (c: Course) => c.id != id
  }

  function LessonKept(courseId: nat): Lesson -> bool
  {
    (l: Lesson) => l.courseId != courseId
  }

  function EnrollmentKept(courseId: nat): Enrollment -> bool
  {
    (e: Enrollment) => e.courseId != courseId
  }

  /** Progress survives a course deletion unless its lesson belongs to that course. */
  function ProgressKept(lessons: seq<Lesson>, courseId: nat): Progress -> bool
  {
    (p: Progress) => !LessonInCourse(lessons, p.lessonId, courseId)
  }

  /**
   * Deleting a course removes it, its lessons, its enrollments and the
   * progress rows of its lessons; every other row stays, in order.
   */
  function DeleteCourse(db: Db, id: nat): (r: Db)
    ensures forall c :: c in r.courses <==> c in db.courses && c.id != id
    ensures forall l :: l in r.lessons <==> l in db.lessons && l.courseId != id
    ensures forall e :: e in r.enrollments <==> e in db.enrollments && e.courseId != id
    ensures forall p :: p in r.progress <==> p in db.progress && !LessonInCourse(db.lessons, p.lessonId, id)
    ensures IsSubseq(r.lessons, db.lessons)
    ensures r.nextId == db.nextId && r.clock == db.clock
  {
    FilterIsSubseq(db.lessons, LessonKept(id));
    Db(Filter(db.courses, CourseKept(id)),
       Filter(db.lessons, LessonKept(id)),
       Filter(db.enrollments, EnrollmentKept(id)),
       Filter(db.progress, ProgressKept(db.lessons, id)),
       db.nextId, db.clock)
  }

  lemma DeleteCoursePreservesValid(db: Db, id: nat)
    requires Valid(db)
    ensures Valid(DeleteCourse(db, id))
    ensures !HasCourse(DeleteCourse(db, id), id)
  {
    var d := DeleteCourse(db, id);
    PairwiseFilter(db.courses, DistinctCourses, CourseKept(id));
    PairwiseFilter(db.lessons, DistinctLessons, LessonKept(id));
    PairwiseFilter(db.enrollments, DistinctEnrollments, EnrollmentKept(id));
    PairwiseFilter(db.progress, DistinctProgress, ProgressKept(db.lessons, id));
    DeleteCourseKeepsCourseRefs(db, id);
    DeleteCourseKeepsEnrollmentRefs(db, id);
    DeleteCourseKeepsStamps(db, id);
    DeleteCourseKeepsLessonRefs(db, id);
  }

  /** The lessons that survive a course deletion belong to surviving courses. */
  lemma DeleteCourseKeepsCourseRefs(db: Db, id: nat)
    requires Valid(db)
    ensures forall i :: 0 <= i < |DeleteCourse(db, id).lessons| ==>
              DeleteCourse(db, id).lessons[i].id < db.nextId && HasCourse(DeleteCourse(db, id), DeleteCourse(db, id).lessons[i].courseId)
  {
    var d := DeleteCourse(db, id);
    forall i | 0 <= i < |d.lessons| ensures d.lessons[i].id < db.nextId && HasCourse(d, d.lessons[i].courseId) {
      var l := d.lessons[i];
      assert l in db.lessons;
      var k :| 0 <= k < |db.lessons| && db.lessons[k] == l;
      SurvivingCourse(db, id, l.courseId);
    }
  }

  /** The enrollments that survive a course deletion belong to surviving courses. */
  lemma DeleteCourseKeepsEnrollmentRefs(db: Db, id: nat)
    requires Valid(db)
    ensures forall i :: 0 <= i < |DeleteCourse(db, id).enrollments| ==>
              var e := DeleteCourse(db, id).enrollments[i];
              e.id < db.nextId && e.enrolledAt < db.clock && HasCourse(DeleteCourse(db, id), e.courseId)
  {
    var d := DeleteCourse(db, id);
    forall i | 0 <= i < |d.enrollments| ensures d.enrollments[i].id < db.nextId && d.enrollments[i].enrolledAt < db.clock && HasCourse(d, d.enrollments[i].courseId) {
      var e := d.enrollments[i];
      assert e in db.enrollments;
      var k :| 0 <= k < |db.enrollments| && db.enrollments[k] == e;
      SurvivingCourse(db, id, e.courseId);
    }
  }

  lemma DeleteCourseKeepsStamps(db: Db, id: nat)
    requires Valid(db)
    ensures forall i :: 0 <= i < |DeleteCourse(db, id).courses| ==>
              DeleteCourse(db, id).courses[i].id < db.nextId && DeleteCourse(db, id).courses[i].createdAt < db.clock
              && DeleteCourse(db, id).courses[i].id != id
  {
    var d := DeleteCourse(db, id);
    forall i | 0 <= i < |d.courses| ensures d.courses[i].id < db.nextId && d.courses[i].createdAt < db.clock && d.courses[i].id != id {
      assert d.courses[i] in db.courses;
      assert d.courses[i] in d.courses;
    }
  }

  /** A course other than the deleted one survives the deletion. */
  lemma SurvivingCourse(db: Db, id: nat, courseId: nat)
    requires HasCourse(db, courseId) && courseId != id
    ensures HasCourse(DeleteCourse(db, id), courseId)
  {
    var k :| 0 <= k < |db.courses| && db.courses[k].id == courseId;
    var d := DeleteCourse(db, id);
    assert db.courses[k] in d.courses;
    var m :| 0 <= m < |d.courses| && d.courses[m] == db.courses[k];
  }

  /** A lesson of another course survives the deletion. */
  lemma SurvivingLesson(db: Db, id: nat, k: nat)
    requires k < |db.lessons| && db.lessons[k].courseId != id
    ensures HasLesson(DeleteCourse(db, id), db.lessons[k].id)
  {
    var d := DeleteCourse(db, id);
    assert db.lessons[k] in d.lessons;
    var m :| 0 <= m < |d.lessons| && d.lessons[m] == db.lessons[k];
  }

  /** The progress rows that survive a course deletion point at surviving lessons. */
  lemma DeleteCourseKeepsLessonRefs(db: Db, id: nat)
    requires Valid(db)
    ensures forall i :: 0 <= i < |DeleteCourse(db, id).progress| ==>
              DeleteCourse(db, id).progress[i].id < db.nextId && HasLesson(DeleteCourse(db, id), DeleteCourse(db, id).progress[i].lessonId)
  {
    var d := DeleteCourse(db, id);
    forall i | 0 <= i < |d.progress| ensures d.progress[i].id < db.nextId && HasLesson(d, d.progress[i].lessonId) {
      var p := d.progress[i];
      assert p in db.progress;
      var j :| 0 <= j < |db.progress| && db.progress[j] == p;
      var k :| 0 <= k < |db.lessons| && db.lessons[k].id == p.lessonId;
      assert db.lessons[k].courseId != id;
      SurvivingLesson(db, id, k);
    }
  }

  function LessonRowKept(id: nat): Lesson -> bool
  {
    (l: Lesson) => l.id != id
  }

  function LessonProgressKept(lessonId: nat): Progress -> bool
  {
    (p: Progress) => p.lessonId != lessonId
  }

  /** Deleting a lesson removes it and the progress rows that point at it. */
  function DeleteLesson(db: Db, id: nat): (r: Db)
    ensures forall l :: l in r.lessons <==> l in db.lessons && l.id != id
    ensures forall p :: p in r.progress <==> p in db.progress && p.lessonId != id
    ensures r == db.(lessons := r.lessons, progress := r.progress)
  {
    db.(lessons := Filter(db.lessons, LessonRowKept(id)), progress := Filter(db.progress, LessonProgressKept(id)))
  }

  lemma DeleteLessonPreservesValid(db: Db, id: nat)
    requires Valid(db)
    ensures Valid(DeleteLesson(db, id))
    ensures !HasLesson(DeleteLesson(db, id), id)
  {
    PairwiseFilter(db.lessons, DistinctLessons, LessonRowKept(id));
    PairwiseFilter(db.progress, DistinctProgress, LessonProgressKept(id));
    DeleteLessonKeepsLessonRefs(db, id);
    DeleteLessonKeepsProgressRefs(db, id);
  }

  lemma DeleteLessonKeepsLessonRefs(db: Db, id: nat)
    requires Valid(db)
    ensures forall i :: 0 <= i < |DeleteLesson(db, id).lessons| ==>
              DeleteLesson(db, id).lessons[i].id < db.nextId && HasCourse(db, DeleteLesson(db, id).lessons[i].courseId)
    ensures !HasLesson(DeleteLesson(db, id), id)
  {
    var d := DeleteLesson(db, id);
    forall i | 0 <= i < |d.lessons| ensures d.lessons[i].id < db.nextId && HasCourse(db, d.lessons[i].courseId) {
      assert d.lessons[i] in db.lessons;
    }
    forall i | 0 <= i < |d.lessons| ensures d.lessons[i].id != id {
      assert d.lessons[i] in d.lessons;
    }
  }

  lemma DeleteLessonKeepsProgressRefs(db: Db, id: nat)
    requires Valid(db)
    ensures forall i :: 0 <= i < |DeleteLesson(db, id).progress| ==>
              DeleteLesson(db, id).progress[i].id < db.nextId
              && HasLesson(DeleteLesson(db, id), DeleteLesson(db, id).progress[i].lessonId)
  {
    var d := DeleteLesson(db, id);
    forall i | 0 <= i < |d.progress| ensures d.progress[i].id < db.nextId && HasLesson(d, d.progress[i].lessonId) {
      var p := d.progress[i];
      assert p in db.progress;
      var k :| 0 <= k < |db.lessons| && db.lessons[k].id == p.lessonId;
      assert db.lessons[k] in d.lessons;
    }
  }
}

=== FILE: text.dfy ===
/**
 * String helpers shared by the client-side model: ASCII lower-casing,
 * JavaScript's `String.prototype.trim`, substring search (`includes`),
 * truncation with a suffix, and the decimal text of a number as
 * JavaScript's `String(n)` writes it.
 *
 * A Dafny `char` is a Unicode scalar value, whereas JavaScript's `length`
 * and `slice` count UTF-16 code units; the two agree on text inside the
 * Basic Multilingual Plane.
 */
module Text {

  /** Lower-cases one ASCII letter; every other character is unchanged. */
  function LowerChar(c: char): (r: char)
    ensures 'A' <= c <= 'Z' ==> 'a' <= r <= 'z' && r as int == c as int + 32
    ensures !('A' <= c <= 'Z') ==> r == c
  {
    if 'A' <= c <= 'Z' then (c as int + 32) as char else c
  }

  /** `toLowerCase()`, restricted to the ASCII letters. */
  function ToLower(s: string): (r: string)
    ensures |r| == |s|
    ensures forall i :: 0 <= i < |s| ==> r[i] == LowerChar(s[i])
    ensures forall i :: 0 <= i < |r| ==> !('A' <= r[i] <= 'Z')
  {
    if s == [] then [] else [LowerChar(s[0])] + ToLower(s[1..])
  }

  lemma ToLowerIdempotent(s: string)
    ensures ToLower(ToLower(s)) == ToLower(s)
  {
    var t := ToLower(s);
    assert forall i :: 0 <= i < |t| ==> LowerChar(t[i]) == t[i];
  }

  /** The characters `trim()` removes: ECMAScript WhiteSpace and LineTerminator. */
  predicate IsSpace(c: char)
  {
    || c == ' ' || c == '\t' || c == '\n' || c == '\r'
    || c == '\U{B}' || c == '\U{C}' || c == '\U{A0}' || c == '\U{FEFF}'
    || c == '\U{1680}' || ('\U{2000}' <= c <= '\U{200A}')
    || c == '\U{2028}' || c == '\U{2029}' || c == '\U{202F}' || c == '\U{205F}' || c == '\U{3000}'
  }

  /** Every character of `s` at a position in [lo, hi) is white space. */
  predicate SpaceIn(s: string, lo: int, hi: int)
  {
    forall k :: lo <= k < hi && 0 <= k < |s| ==> IsSpace(s[k])
  }

  predicate AllSpace(s: string)
  {
    SpaceIn(s, 0, |s|)
  }

  function TrimStart(s: string): (r: string)
    ensures |r| <= |s| && r == s[|s| - |r|..]
    ensures SpaceIn(s, 0, |s| - |r|)
    ensures r != [] ==> !IsSpace(r[0])
  {
    if s != [] && IsSpace(s[0]) then
      var r := TrimStart(s[1..]);
      assert forall k :: 1 <= k < |s| ==> s[k] == s[1..][k - 1];
      r
    else s
  }

  function TrimEnd(s: string): (r: string)
    ensures |r| <= |s| && r == s[..|r|]
    ensures SpaceIn(s, |r|, |s|)
    ensures r != [] ==> !IsSpace(r[|r| - 1])
  {
    if s != [] && IsSpace(s[|s| - 1]) then TrimEnd(s[..|s| - 1]) else s
  }

  /** `trim()`: white space is cut from both ends (see `TrimInfix`). */
  function Trim(s: string): (r: string)
    ensures |r| <= |s|
    ensures r != [] ==> !IsSpace(r[0]) && !IsSpace(r[|r| - 1])
  {
    var a := TrimStart(s);
    var r := TrimEnd(a);
    assert r != [] ==> r[0] == a[0];
    r
  }

  /**
   * The trimmed text is the infix of `s` that neither starts nor ends with
   * white space; everything cut off on either side is white space.
   */
  lemma TrimInfix(s: string)
    ensures var r := Trim(s);
            exists i :: 0 <= i <= |s| - |r| && r == s[i..i + |r|] && SpaceIn(s, 0, i) && SpaceIn(s, i + |r|, |s|)
  {
    var a := TrimStart(s);
    var r := TrimEnd(a);
    assert r == Trim(s);
    var i := |s| - |a|;
    assert a == s[i..] && r == a[..|r|];
    assert r == s[i..i + |r|];
    SpaceShift(s, i, |r|);
    assert SpaceIn(s, 0, i) && SpaceIn(s, i + |r|, |s|);
  }

  /** White space at the end of a suffix is white space at the end of the whole string. */
  lemma SpaceShift(s: string, i: nat, lo: nat)
    requires i <= |s| && SpaceIn(s[i..], lo, |s| - i)
    ensures SpaceIn(s, i + lo, |s|)
  {
    assert forall k :: i <= k < |s| ==> s[k] == s[i..][k - i];
  }

  /** A string that is all white space trims to the empty string, and only such a string does. */
  lemma TrimEmptyIff(s: string)
    ensures Trim(s) == [] <==> AllSpace(s)
  {
    var a := TrimStart(s);
    if a != [] {
      assert s[|s| - |a|] == a[0];
    }
  }

  lemma TrimIdempotent(s: string)
    ensures Trim(Trim(s)) == Trim(s)
  {
    var r := Trim(s);
    if r != [] {
      assert TrimStart(r) == r;
      assert TrimEnd(r) == r;
    }
  }

  /** `hay.includes(needle)`, computed by scanning `hay` left to right. */
  predicate Contains(hay: string, needle: string)
    decreases |hay|
  {
    |needle| <= |hay| && (hay[..|needle|] == needle || Contains(hay[1..], needle))
  }

  /** The declarative reading of `includes`: the needle occurs at some position. */
  ghost predicate OccursAt(hay: string, needle: string, i: int)
  {
    0 <= i && i + |needle| <= |hay| && hay[i..i + |needle|] == needle
  }

  lemma {:induction false} ContainsIff(hay: string, needle: string)
    ensures Contains(hay, needle) <==> exists i :: OccursAt(hay, needle, i)
    decreases |hay|
  {
    if |needle| > |hay| {
      assert forall i :: !OccursAt(hay, needle, i);
    } else if hay[..|needle|] == needle {
      assert OccursAt(hay, needle, 0);
    } else {
      ContainsIff(hay[1..], needle);
      if Contains(hay[1..], needle) {
        var i :| OccursAt(hay[1..], needle, i);
        assert hay[1..][i..i + |needle|] == hay[i + 1..i + 1 + |needle|];
        assert OccursAt(hay, needle, i + 1);
      } else {
        forall i | OccursAt(hay, needle, i) && i > 0 ensures false {
          assert hay[1..][i - 1..i - 1 + |needle|] == hay[i..i + |needle|];
          assert OccursAt(hay[1..], needle, i - 1);
        }
      }
    }
  }

  lemma {:induction false} EmptyContained(hay: string)
    ensures Contains(hay, "")
  {
    assert hay[..0] == "";
  }

  lemma {:induction false} ContainsSelf(s: string)
    ensures Contains(s, s)
  {
    assert s[..|s|] == s;
  }

  /** A word occurring in a text up to case is found by the case-insensitive test. */
  lemma {:induction false} ContainsLower(s: string, word: string, at: nat)
    requires at + |word| <= |s|
    requires forall k :: 0 <= k < |word| ==> LowerChar(s[at + k]) == word[k]
    ensures Contains(ToLower(s), word)
  {
    var lower := ToLower(s);
    forall k | 0 <= k < |word| ensures lower[at + k] == word[k] {
    }
    assert lower[at..at + |word|] == word;
    assert OccursAt(lower, word, at);
    ContainsIff(lower, word);
  }

  /** A text none of whose letters lowers to the word's first letter does not contain the word, whatever its case. */
  lemma {:induction false} FirstLetterAbsent(s: string, word: string)
    requires word != []
    requires forall k :: 0 <= k < |s| ==> LowerChar(s[k]) != word[0]
    ensures !Contains(ToLower(s), word)
  {
    var lower := ToLower(s);
    ContainsIff(lower, word);
  }

  /**
   * `s.length > n ? s.slice(0, n) + suffix : s`: a string longer than `n`
   * keeps its first `n` characters and gains the suffix; a shorter one is
   * shown whole.
   */
  function Truncate(s: string, n: nat, suffix: string): (r: string)
    ensures |s| <= n ==> r == s
    ensures |s| > n ==> |r| == n + |suffix| && r[..n] == s[..n] && r[n..] == suffix
  {
    if |s| > n then s[..n] + suffix else s
  }

  /** A truncated text is never longer than the limit plus the suffix. */
  lemma TruncateBound(s: string, n: nat, suffix: string)
    ensures |Truncate(s, n, suffix)| <= n + |suffix|
    ensures Truncate(s, n, suffix) == s <== |s| <= n
  {
  }

  function DigitChar(d: nat): (c: char)
    requires d < 10
    ensures '0' <= c <= '9' && c as int - '0' as int == d
  {
    ('0' as int + d) as char
  }

  /** Decimal digits of a natural number, most significant first, without leading zeros. */
  function NatText(n: nat): (r: string)
    ensures r != []
    ensures forall i :: 0 <= i < |r| ==> '0' <= r[i] <= '9'
    ensures |r| > 1 ==> r[0] != '0'
    decreases n
  {
    if n < 10 then [DigitChar(n)] else NatText(n / 10) + [DigitChar(n % 10)]
  }

  /** Reads back a string of decimal digits. */
  function ParseNat(s: string): nat
    requires forall i :: 0 <= i < |s| ==> '0' <= s[i] <= '9'
  {
    if s == [] then 0 else ParseNat(s[..|s| - 1]) * 10 + (s[|s| - 1] as int - '0' as int)
  }

  lemma {:induction false} NatTextRoundTrip(n: nat)
    ensures ParseNat(NatText(n)) == n
    decreases n
  {
    if n >= 10 {
      var r := NatText(n);
      NatTextRoundTrip(n / 10);
      assert r[..|r| - 1] == NatText(n / 10);
    }
  }

  /** `String(n)` for an integer: digits with a leading '-' when negative. */
  function IntText(n: int): (r: string)
    ensures n >= 0 ==> r == NatText(n)
    ensures n < 0 ==> r == "-" + NatText(-n)
  {
    if n >= 0 then NatText(n) else "-" + NatText(-n)
  }

  /** Integer texts are distinct for distinct integers. */
  lemma IntTextInjective(a: int, b: int)
    requires IntText(a) == IntText(b)
    ensures a == b
  {
    if a >= 0 && b >= 0 {
      NatTextRoundTrip(a); NatTextRoundTrip(b);
    } else if a < 0 && b < 0 {
      assert NatText(-a) == IntText(a)[1..];
      NatTextRoundTrip(-a); NatTextRoundTrip(-b);
    } else {
      assert false;
    }
  }

  /** Up to `fuel` decimal digits of a fraction in [0, 1), stopping when it is exhausted. */
  function FractionDigits(f: real, fuel: nat): string
    requires 0.0 <= f < 1.0
    decreases fuel
  {
    if fuel == 0 || f == 0.0 then ""
    else
      var t := f * 10.0;
      var d := t.Floor;
      assert 0 <= d < 10;
      [DigitChar(d)] + FractionDigits(t - d as real, fuel - 1)
  }

  /**
   * `String(x)` for a number: exact for integers and for fractions whose
   * decimal expansion ends within 17 digits (which covers the two-decimal
   * percentages the server rounds to).
   */
  function NumText(x: real): (r: string)
    ensures x == x.Floor as real ==> r == IntText(x.Floor)
  {
    if x == x.Floor as real then IntText(x.Floor)
    else if x > 0.0 then NatText(x.Floor) + "." + FractionDigits(x - x.Floor as real, 17)
    else
      var y := -x;
      "-" + NatText(y.Floor) + "." + FractionDigits(y - y.Floor as real, 17)
  }
}

=== FILE: toast.dfy ===
/**
 * The module-level toast store: one current toast, a list of subscribed
 * listeners, and one pending hide timer. Listeners are identified by
 * reference; the model gives each an identity number. Timers are numbered
 * as `setTimeout` numbers them, and what each listener has been told is
 * recorded in a delivery log.
 */
module Toast {
  import opened Seqs

  datatype ToastState = ToastState(message: string, kind: string, visible: bool)

  datatype Delivery = Delivery(listener: nat, state: ToastState)

  datatype Store = Store(
    listeners: seq<nat>,
    state: ToastState,
    pendingHide: nat,      // the id of the timer that will hide the toast; 0 when none was set
    nextTimer: nat,
    log: seq<Delivery>)

  const Initial: Store := Store([], ToastState("", "info", false), 0, 1, [])

  const DefaultKind := "info"
  const DefaultMs := 2400

  /** Tells every listener, in subscription order, about `s`. */
  function Notify(listeners: seq<nat>, s: ToastState): (r: seq<Delivery>)
    ensures |r| == |listeners|
    ensures forall i :: 0 <= i < |r| ==> r[i] == Delivery(listeners[i], s)
  {
    seq(|listeners|, i requires 0 <= i < |listeners| => Delivery(listeners[i], s))
  }

  /** `toastSubscribe`: the listener is added and immediately told the current state. */
  function Subscribe(st: Store, fn: nat): (r: Store)
    ensures r.listeners == st.listeners + [fn]
    ensures r.log == st.log + [Delivery(fn, st.state)]
    ensures r.state == st.state && r.pendingHide == st.pendingHide
  {
    st.(listeners := st.listeners + [fn], log := st.log + [Delivery(fn, st.state)])
  }

  function Other(fn: nat): nat -> bool
  {
    x => x != fn
  }

  /** The returned unsubscribe function: every subscription of that listener is dropped. */
  function Unsubscribe(st: Store, fn: nat): (r: Store)
    ensures fn !in r.listeners
    ensures forall x :: x != fn ==> (x in r.listeners <==> x in st.listeners)
    ensures r.state == st.state && r.log == st.log
  {
    st.(listeners := Filter(st.listeners, Other(fn)))
  }

  /** A listener subscribed twice is removed entirely by one unsubscribe call. */
  lemma UnsubscribeRemovesAll(st: Store, fn: nat)
    ensures fn !in Unsubscribe(Subscribe(Subscribe(st, fn), fn), fn).listeners
  {
  }

  /**
   * `toastShow`: the toast becomes visible with the message and kind,
   * every listener is told, the previous hide timer is cancelled and a new
   * one is set (after `ms` milliseconds, which the model does not track).
   */
  function Show(st: Store, message: string, kind: string): (r: Store)
    ensures r.state == ToastState(message, kind, true)
    ensures r.log == st.log + Notify(st.listeners, r.state)
    ensures r.listeners == st.listeners
    ensures r.pendingHide == st.nextTimer && r.nextTimer > r.pendingHide
  {
    var s := ToastState(message, kind, true);
    st.(state := s, log := st.log + Notify(st.listeners, s), pendingHide := st.nextTimer, nextTimer := st.nextTimer + 1)
  }

  /**
   * A timer fires. Only the pending hide timer still exists (the earlier
   * ones were cleared); it hides the toast, keeping its text, and tells
   * every listener.
   */
  function Fire(st: Store, timer: nat): (r: Store)
    ensures timer != st.pendingHide || timer == 0 ==> r == st
    ensures timer == st.pendingHide && timer != 0 ==>
              r.state == st.state.(visible := false) && r.log == st.log + Notify(st.listeners, r.state)
    ensures r.listeners == st.listeners
  {
    if timer == 0 || timer != st.pendingHide then st
    else
      var s := st.state.(visible := false);
      st.(state := s, log := st.log + Notify(st.listeners, s), pendingHide := 0)
  }

  /** Store invariant: a pending timer is one that has been handed out. */
  predicate Valid(st: Store)
  {
    st.pendingHide < st.nextTimer && st.nextTimer > 0
  }

  lemma InitialValid()
    ensures Valid(Initial)
  {
  }

  lemma ShowPreservesValid(st: Store, message: string, kind: string)
    requires Valid(st)
    ensures Valid(Show(st, message, kind))
  {
  }

  lemma FirePreservesValid(st: Store, timer: nat)
    requires Valid(st)
    ensures Valid(Fire(st, timer))
  {
  }

  lemma SubscribePreservesValid(st: Store, fn: nat)
    requires Valid(st)
    ensures Valid(Subscribe(st, fn)) && Valid(Unsubscribe(st, fn))
  {
  }

  /**
   * Two toasts in quick succession: the first toast's timer has been
   * cancelled, so when it fires nothing changes and the second toast
   * stays visible.
   */
  lemma SecondShowCancelsFirstHide(st: Store, m1: string, k1: string, m2: string, k2: string)
    requires Valid(st)
    ensures var first := Show(st, m1, k1);
            var second := Show(first, m2, k2);
            Fire(second, first.pendingHide) == second && second.state.visible && second.state.message == m2
  {
  }

  /** The hide timer of the latest toast hides exactly that toast. */
  lemma LatestHideHides(st: Store, m: string, k: string)
    requires Valid(st)
    ensures var shown := Show(st, m, k);
            Fire(shown, shown.pendingHide).state == ToastState(m, k, false)
  {
  }
}

=== FILE: users.dfy ===
/**
 * The custom user model: Django's user plus a `role` column holding one of
 * two choices, stored as the lower-case choice value.
 */
module Users {
  import opened Wrappers

  datatype Role = Student | Instructor

  /** The `role` column is a CharField of at most this many characters. */
  const RoleMaxLength: nat := 20

  /** New users are students unless they ask otherwise. */
  const DefaultRole: Role := Student

  /** The value stored in the `role` column. */
  function RoleValue(r: Role): (s: string)
    ensures 0 < |s| <= RoleMaxLength
    ensures forall i :: 0 <= i < |s| ==> 'a' <= s[i] <= 'z'
  {
    match r
    case Student => "student"
    case Instructor => "instructor"
  }

  /** The human-readable label of the choice. */
  function RoleLabel(r: Role): string
  {
    match r
    case Student => "Student"
    case Instructor => "Instructor"
  }

  /** Reads a stored or submitted role value; anything but the two choice values is rejected. */
  function ParseRole(s: string): (r: Option<Role>)
    ensures r.Some? ==> RoleValue(r.value) == s
    ensures r.None? ==> forall role: Role :: RoleValue(role) != s
  {
    if s == "student" then Some(Student)
    else if s == "instructor" then Some(Instructor)
    else None
  }

  lemma RoleRoundTrip(r: Role)
    ensures ParseRole(RoleValue(r)) == Some(r)
  {
  }

  /** The two stored values are different, so a role comparison by string tells the roles apart. */
  lemma RoleValueInjective(a: Role, b: Role)
    ensures RoleValue(a) == RoleValue(b) <==> a == b
  {
  }

  /** The fields of a user the model reads; the password is kept only as its hash. */
  datatype User = User(id: nat, username: string, email: string, role: Role, passwordHash: string)

  /** `request.user`: an anonymous user or an authenticated account. */
  datatype Principal = Anonymous | Member(user: User)
  {
    predicate IsAuthenticated()
    {
      Member?
    }
  }
}

=== FILE: views.dfy ===
/**
 * The course endpoints. Each view runs the framework's request cycle —
 * permission classes, object lookup, object permissions, serializer
 * validation, save — over an immutable store and answers with the store
 * after the request and either its result or the error that ended it.
 *
 * URL keyword arguments are parameters: one the view reads with `.get`
 * is an `Option`, one it indexes directly is a plain number.
 */
module CourseViews {
  import opened Wrappers
  import opened Seqs
  import opened Users
  import opened Store
  import opened Permissions
  import opened CourseSerializers

  /** The store after a request, with the request's result. */
  datatype Reply<T> = Reply(db: Db, result: Result<T, Error>)

  /** A course as the list endpoints serialise it; the lesson count is present only where the query annotates it. */
  datatype CourseRow = CourseRow(course: Course, lessonsCount: Option<nat>)

  datatype CourseDetail = CourseDetail(course: Course, lessons: seq<Lesson>)

  // Query building blocks.

  /** `order_by("-created_at")` as an ascending key. */
  function NewestFirst(c: Course): real
  {
    -(c.createdAt as real)
  }

  /** `order_by("order")`, also the lessons' default ordering. */
  function ByOrder(l: Lesson): real
  {
    l.order as real
  }

  function InCourse(courseId: nat): Lesson -> bool
  {
    (l: Lesson) => l.courseId == courseId
  }

  /** `course.lessons`: the lessons whose foreign key names the course. */
  function LessonsOf(db: Db, courseId: nat): (r: seq<Lesson>)
    ensures forall l :: l in r <==> l in db.lessons && l.courseId == courseId
  {
    Filter(db.lessons, InCourse(courseId))
  }

  /** `Count("lessons")`. */
  function LessonCount(db: Db, courseId: nat): nat
  {
    |LessonsOf(db, courseId)|
  }

  function Annotated(db: Db): Course -> CourseRow
  {
    (c: Course) => CourseRow(c, Some(LessonCount(db, c.id)))
  }

  function Plain(c: Course): CourseRow
  {
    CourseRow(c, None)
  }

  function RowCourse(r: CourseRow): Course
  {
    r.course
  }

  function OwnedBy(instructorId: nat): Course -> bool
  {
    (c: Course) => c.instructorId == instructorId
  }

  /** Reading `.course` back from rows built by `Annotated` or `Plain` gives the courses they were built from. */
  lemma RowsKeepCourses(cs: seq<Course>, rows: seq<CourseRow>)
    requires |rows| == |cs| && forall i :: 0 <= i < |cs| ==> rows[i].course == cs[i]
    ensures Map(rows, RowCourse) == cs
  {
  }

  // Course endpoints.

  /**
   * `CourseListView` (anyone): every course, newest first, with the number
   * of its lessons.
   */
  function ListCourses(db: Db): (r: seq<CourseRow>)
    ensures multiset(Map(r, RowCourse)) == multiset(db.courses)
    ensures forall i, j :: 0 <= i < j < |r| ==> r[i].course.createdAt >= r[j].course.createdAt
    ensures forall i :: 0 <= i < |r| ==> r[i].lessonsCount == Some(LessonCount(db, r[i].course.id))
  {
    var sorted := SortBy(db.courses, NewestFirst);
    var rows := Map(sorted, Annotated(db));
    RowsKeepCourses(sorted, rows);
    rows
  }

  /** The checks of the instructor-only endpoints: signed in, then the instructor role. */
  function InstructorChecks(m: Method, p: Principal, db: Db): (r: Result<(), Error>)
    ensures r.Ok? <==> IsInstructor(p)
    ensures p.Anonymous? ==> r == Err(NotAuthenticated)
    ensures p.Member? && r.Err? ==> r == Err(PermissionDenied(DefaultDenial))
  {
    CheckPair(IsAuthenticated, InstructorOnly, m, p, db, None);
    CheckOne(InstructorOnly, m, p, db, None);
    CheckPermissions([IsAuthenticated, InstructorOnly], m, p, db, None)
  }

  /** The checks of the student-only endpoints: signed in, then the student role. */
  function StudentChecks(m: Method, p: Principal, db: Db): (r: Result<(), Error>)
    ensures r.Ok? <==> IsStudent(p)
    ensures p.Anonymous? ==> r == Err(NotAuthenticated)
    ensures p.Member? && r.Err? ==> r == Err(PermissionDenied(StudentDenial))
  {
    CheckPair(IsAuthenticated, StudentOnly, m, p, db, None);
    CheckOne(StudentOnly, m, p, db, None);
    CheckPermissions([IsAuthenticated, StudentOnly], m, p, db, None)
  }

  /** The view-level checks of the manage endpoints: signed in; ownership is checked on the object. */
  function ManageChecks(m: Method, p: Principal, db: Db): (r: Result<(), Error>)
    ensures r.Ok? <==> p.Member?
    ensures r.Err? ==> r == Err(NotAuthenticated)
  {
    CheckPair(IsAuthenticated, OwnerOrReadOnlyClass, m, p, db, None);
    CheckOne(OwnerOrReadOnlyClass, m, p, db, None);
    CheckPermissions([IsAuthenticated, OwnerOrReadOnlyClass], m, p, db, None)
  }

  /** The object-level check of the manage endpoints. */
  function OwnerCheck(m: Method, p: Principal, t: Target): (r: Result<(), Error>)
    ensures r.Ok? <==> OwnerOrReadOnly(m, p, t)
    ensures r.Err? ==> r == Err(Deny(p, OwnerDenial))
  {
    CheckObjectPair(m, p, t);
    CheckObject([IsAuthenticated, OwnerOrReadOnlyClass], m, p, t)
  }

  /**
   * `InstructorCourseListApiView` (instructors): the caller's own courses,
   * newest first, with lesson counts.
   */
  function ListInstructorCourses(db: Db, p: Principal): (r: Result<seq<CourseRow>, Error>)
    ensures r.Ok? <==> IsInstructor(p)
    ensures p.Anonymous? ==> r == Err(NotAuthenticated)
    ensures r.Ok? ==> multiset(Map(r.value, RowCourse)) == multiset(Filter(db.courses, OwnedBy(p.user.id)))
    ensures r.Ok? ==> forall i, j :: 0 <= i < j < |r.value| ==> r.value[i].course.createdAt >= r.value[j].course.createdAt
    ensures r.Ok? ==> forall i :: 0 <= i < |r.value| ==> r.value[i].lessonsCount == Some(LessonCount(db, r.value[i].course.id))
  {
    var allowed := InstructorChecks(Get, p, db);
    if allowed.Err? then Err(allowed.error)
    else
      var sorted := SortBy(Filter(db.courses, OwnedBy(p.user.id)), NewestFirst);
      var rows := Map(sorted, Annotated(db));
      RowsKeepCourses(sorted, rows);
      Ok(rows)
  }

  /** The instructor list holds exactly the caller's courses. */
  lemma InstructorCoursesExact(db: Db, p: Principal, c: Course)
    requires IsInstructor(p)
    ensures c in Map(ListInstructorCourses(db, p).value, RowCourse) <==> c in db.courses && c.instructorId == p.user.id
  {
    var rows := ListInstructorCourses(db, p).value;
    var mine := Filter(db.courses, OwnedBy(p.user.id));
    assert c in Map(rows, RowCourse) <==> c in multiset(mine);
  }

  /** `CourseDetailView` (anyone): one course with its lessons in lesson order. */
  function GetCourseDetail(db: Db, id: nat): (r: Result<CourseDetail, Error>)
    ensures r.Err? <==> !HasCourse(db, id)
    ensures r.Err? ==> r.error == NotFound
    ensures r.Ok? ==> r.value.course in db.courses && r.value.course.id == id
    ensures r.Ok? ==> multiset(r.value.lessons) == multiset(LessonsOf(db, id)) && SortedBy(r.value.lessons, ByOrder)
  {
    match FindCourse(db, id)
    case None => Err(NotFound)
    case Some(c) => Ok(CourseDetail(c, SortBy(LessonsOf(db, c.id), ByOrder)))
  }

  /** `CreateCourseView` (instructors): the new course is owned by the caller. */
  function CreateCourse(db: Db, p: Principal, title: string, description: string, thumbnail: Option<string>): (r: Reply<Course>)
    ensures r.result.Ok? <==> IsInstructor(p)
    ensures r.result.Err? ==> r.db == db
    ensures r.result.Ok? ==>
              && r.result.value == Course(db.nextId, title, description, thumbnail, p.user.id, db.clock)
              && r.db == AddCourse(db, title, description, thumbnail, p.user.id).db
  {
    var allowed := InstructorChecks(Post, p, db);
    if allowed.Err? then Reply(db, Err(allowed.error))
    else
      var saved := AddCourse(db, title, description, thumbnail, p.user.id);
      Reply(saved.db, Ok(saved.row))
  }

  lemma CreateCoursePreservesValid(db: Db, p: Principal, title: string, description: string, thumbnail: Option<string>)
    requires Valid(db)
    ensures Valid(CreateCourse(db, p, title, description, thumbnail).db)
  {
    if IsInstructor(p) {
      AddCoursePreservesValid(db, title, description, thumbnail, p.user.id);
    }
  }

  /**
   * `CourseUpdateDeletView`, PATCH: the owning instructor changes the
   * title and/or description; anyone else is refused.
   */
  function UpdateCourse(db: Db, p: Principal, id: nat, title: Option<string>, description: Option<string>): (r: Reply<Course>)
    ensures r.result.Err? ==> r.db == db
    ensures p.Anonymous? ==> r.result == Err(NotAuthenticated)
    ensures p.Member? && !HasCourse(db, id) ==> r.result == Err(NotFound)
    ensures r.result.Ok? ==>
              && IsInstructor(p)
              && r.result.value in r.db.courses
              && r.result.value.id == id && r.result.value.instructorId == p.user.id
              && r.db == SaveCourse(db, id, r.result.value.title, r.result.value.description)
  {
    var allowed := ManageChecks(Patch, p, db);
    if allowed.Err? then Reply(db, Err(allowed.error))
    else match FindCourse(db, id)
      case None => Reply(db, Err(NotFound))
      case Some(c) =>
        var owner := OwnerCheck(Patch, p, CourseTarget(c));
        if owner.Err? then Reply(db, Err(owner.error))
        else
          var t := title.GetOr(c.title);
          var d := description.GetOr(c.description);
          var after := SaveCourse(db, id, t, d);
          var i :| 0 <= i < |db.courses| && db.courses[i] == c;
          assert after.courses[i] == c.(title := t, description := d);
          Reply(after, Ok(c.(title := t, description := d)))
  }

  lemma UpdateCoursePreservesValid(db: Db, p: Principal, id: nat, title: Option<string>, description: Option<string>)
    requires Valid(db)
    ensures Valid(UpdateCourse(db, p, id, title, description).db)
  {
    var r := UpdateCourse(db, p, id, title, description);
    if r.result.Ok? {
      SaveCoursePreservesValid(db, id, r.result.value.title, r.result.value.description);
    }
  }

  /** In a valid store the owner of an existing course can edit it, and nobody else can. */
  lemma UpdateCourseOnlyByOwner(db: Db, p: Principal, c: Course, title: Option<string>, description: Option<string>)
    requires Valid(db) && c in db.courses
    ensures UpdateCourse(db, p, c.id, title, description).result.Ok? <==>
              p.Member? && p.user.role == Instructor && p.user.id == c.instructorId
  {
    FindCourseUnique(db, c);
  }

  /**
   * `CourseUpdateDeletView`, DELETE: the owning instructor removes the
   * course, and with it its lessons, enrollments and progress.
   */
  function DeleteCourseView(db: Db, p: Principal, id: nat): (r: Reply<()>)
    ensures r.result.Err? ==> r.db == db
    ensures p.Anonymous? ==> r.result == Err(NotAuthenticated)
    ensures p.Member? && !HasCourse(db, id) ==> r.result == Err(NotFound)
    ensures r.result.Ok? ==> r.db == DeleteCourse(db, id) && IsInstructor(p)
    ensures r.result.Ok? ==> exists c :: c in db.courses && c.id == id && c.instructorId == p.user.id
  {
    var allowed := ManageChecks(Delete, p, db);
    if allowed.Err? then Reply(db, Err(allowed.error))
    else match FindCourse(db, id)
      case None => Reply(db, Err(NotFound))
      case Some(c) =>
        var owner := OwnerCheck(Delete, p, CourseTarget(c));
        if owner.Err? then Reply(db, Err(owner.error))
        else Reply(DeleteCourse(db, id), Ok(()))
  }

  lemma DeleteCourseViewPreservesValid(db: Db, p: Principal, id: nat)
    requires Valid(db)
    ensures Valid(DeleteCourseView(db, p, id).db)
  {
    if DeleteCourseView(db, p, id).result.Ok? {
      DeleteCoursePreservesValid(db, id);
    }
  }

  /** In a valid store the owner of an existing course can delete it, and nobody else can. */
  lemma DeleteCourseOnlyByOwner(db: Db, p: Principal, c: Course)
    requires Valid(db) && c in db.courses
    ensures DeleteCourseView(db, p, c.id).result.Ok? <==> p.Member? && p.user.role == Instructor && p.user.id == c.instructorId
  {
    FindCourseUnique(db, c);
  }

  // Lesson endpoints.

  /** `LessonListByCourseView` (anyone): the course's lessons by order; an unknown course has none. */
  function ListLessons(db: Db, courseId: nat): (r: seq<Lesson>)
    ensures multiset(r) == multiset(LessonsOf(db, courseId))
    ensures SortedBy(r, ByOrder)
    ensures forall l :: l in r <==> l in db.lessons && l.courseId == courseId
  {
    var r := SortBy(LessonsOf(db, courseId), ByOrder);
    assert forall l :: l in r <==> l in multiset(LessonsOf(db, courseId));
    r
  }

  /** In a valid store no two lessons of a course share an order, so the list is strictly increasing. */
  lemma ListLessonsStrict(db: Db, courseId: nat)
    requires Valid(db)
    ensures forall i, j :: 0 <= i < j < |ListLessons(db, courseId)| ==>
              ListLessons(db, courseId)[i].order < ListLessons(db, courseId)[j].order
  {
    var r := ListLessons(db, courseId);
    LessonsOfDistinct(db, courseId);
    DistinctPermutation(r, LessonsOf(db, courseId));
    forall i, j | 0 <= i < j < |r| ensures r[i].order < r[j].order {
      assert r[i] in db.lessons && r[j] in db.lessons;
      LessonRowsDiffer(db.lessons, r[i], r[j]);
    }
  }

  /** The lessons of a course are pairwise distinct rows. */
  lemma LessonsOfDistinct(db: Db, courseId: nat)
    requires Valid(db)
    ensures Pairwise(LessonsOf(db, courseId), DistinctLessons)
    ensures Distinct(LessonsOf(db, courseId))
  {
    PairwiseFilter(db.lessons, DistinctLessons, InCourse(courseId));
    var s := LessonsOf(db, courseId);
    assert forall i, j :: 0 <= i < j < |s| ==> DistinctLessons(s[i], s[j]);
  }

  function LessonAt(courseId: nat, lessonId: nat): Lesson -> bool
  {
    (l: Lesson) => l.courseId == courseId && l.id == lessonId
  }

  /** `CourseLessonDetailApiView` (anyone): the lesson with that key, if it belongs to that course. */
  function CourseLessonDetail(db: Db, courseId: nat, lessonId: nat): (r: seq<Lesson>)
    ensures forall l :: l in r <==> l in db.lessons && l.courseId == courseId && l.id == lessonId
    ensures r == [] <==> !LessonInCourse(db.lessons, lessonId, courseId)
  {
    var r := Filter(db.lessons, LessonAt(courseId, lessonId));
    assert r != [] ==> r[0] in r;
    r
  }

  /** `LessonDetailApiView` (anyone): the lesson with that key, as a list of at most one. */
  function LessonDetail(db: Db, lessonId: nat): (r: seq<Lesson>)
    ensures forall l :: l in r <==> l in db.lessons && l.id == lessonId
  {
    Filter(db.lessons, LessonWithId(lessonId))
  }

  function LessonKey(l: Lesson): nat
  {
    l.id
  }

  /** A primary key matches at most one lesson of a valid store. */
  lemma LessonDetailAtMostOne(db: Db, lessonId: nat)
    requires Valid(db)
    ensures |LessonDetail(db, lessonId)| <= 1
  {
    var r := LessonDetail(db, lessonId);
    PairwiseFilter(db.lessons, DistinctLessons, LessonWithId(lessonId));
    var ids := Map(r, LessonKey);
    assert forall i :: 0 <= i < |r| ==> r[i] in r;
    assert forall i, j :: 0 <= i < j < |r| ==> DistinctLessons(r[i], r[j]);
    DistinctIncluded(ids, [lessonId]);
  }

  /**
   * `LessonCreateApiView` (the course's owner): checks ownership of the
   * course in the URL, validates the order, then inserts; a clash the
   * insert hits is reported like the validation error.
   */
  function CreateLesson(db: Db, p: Principal, courseId: Option<nat>, title: string, videoUrl: string, duration: nat, order: nat): (r: Reply<Lesson>)
    ensures r.result.Err? ==> r.db == db
    ensures p.Anonymous? ==> r.result == Err(NotAuthenticated)
    ensures r.result.Ok? ==>
              && IsInstructor(p) && courseId.Some?
              && (exists c :: c in db.courses && c.id == courseId.value && c.instructorId == p.user.id)
              && r.result.value == Lesson(db.nextId, courseId.value, title, videoUrl, duration, order)
              && r.db.lessons == db.lessons + [r.result.value]
    ensures r.result.Err? && r.result.error.ValidationError? ==>
              r.result.error == ValidationError("order", OrderTakenMessage)
              && courseId.Some? && OrderTaken(db.lessons, courseId.value, order, None)
  {
    CheckPair(IsAuthenticated, CourseOwnerClass, Post, p, db, courseId);
    CheckOne(CourseOwnerClass, Post, p, db, courseId);
    var allowed := CheckPermissions([IsAuthenticated, CourseOwnerClass], Post, p, db, courseId);
    if allowed.Err? then Reply(db, Err(allowed.error))
    else
      var attrs := LessonPatch(Some(title), Some(videoUrl), Some(duration), Some(order));
      var valid := ValidateLesson(db, Creating(courseId), attrs);
      if valid.Err? then Reply(db, Err(valid.error))
      else match FindCourse(db, courseId.value)
        case None => Reply(db, Err(NotFound))
        case Some(c) =>
          match AddLesson(db, c.id, title, videoUrl, duration, order)
          case Err(_) => Reply(db, Err(ValidationError("order", OrderTakenMessage)))
          case Ok(saved) => Reply(saved.db, Ok(saved.row))
  }

  /** In a valid store the owner of an existing course adds a lesson exactly when its order is free. */
  lemma CreateLessonByOwner(db: Db, p: Principal, c: Course, title: string, videoUrl: string, duration: nat, order: nat)
    requires Valid(db) && c in db.courses && c.id != 0
    requires p.Member? && p.user.role == Instructor && p.user.id == c.instructorId
    ensures CreateLesson(db, p, Some(c.id), title, videoUrl, duration, order).result.Ok? <==> !OrderTaken(db.lessons, c.id, order, None)
  {
    CourseOwnerIff(Post, p, db, Some(c.id));
  }

  lemma CreateLessonPreservesValid(db: Db, p: Principal, courseId: Option<nat>, title: string, videoUrl: string, duration: nat, order: nat)
    requires Valid(db)
    ensures Valid(CreateLesson(db, p, courseId, title, videoUrl, duration, order).db)
  {
    var r := CreateLesson(db, p, courseId, title, videoUrl, duration, order);
    if r.result.Ok? {
      AddLessonPreservesValid(db, courseId.value, title, videoUrl, duration, order);
    }
  }

  /**
   * The object `LessonUpdateDeleteApiView.get_object` loads: the lesson
   * with that key in that course, joined with its course (404 otherwise).
   */
  function ManagedLesson(db: Db, courseId: nat, lessonId: nat): (r: Result<Target, Error>)
    ensures r.Err? ==> r.error == NotFound
    ensures r.Ok? ==>
              && r.value.LessonTarget? && r.value.lesson in db.lessons
              && r.value.lesson.id == lessonId && r.value.lesson.courseId == courseId
              && exists c :: c in db.courses && c.id == courseId && c.instructorId == r.value.courseInstructorId
    ensures Valid(db) && LessonInCourse(db.lessons, lessonId, courseId) ==> r.Ok?
  {
    match Find(db.lessons, LessonAt(courseId, lessonId))
    case None => Err(NotFound)
    case Some(l) =>
      match FindCourse(db, l.courseId)
      case None => Err(NotFound)
      case Some(c) => Ok(LessonTarget(l, c.instructorId))
  }

  /**
   * `LessonUpdateDeleteApiView`, PATCH: the owner of the lesson's course
   * changes any of its fields; the order is validated against the other
   * lessons of the course. The save itself is not guarded, so a clash it
   * hits would surface as a server error.
   */
  function UpdateLesson(db: Db, p: Principal, courseId: nat, lessonId: nat, patch: LessonPatch): (r: Reply<Lesson>)
    ensures r.result.Err? ==> r.db == db
    ensures p.Anonymous? ==> r.result == Err(NotAuthenticated)
    ensures r.result.Ok? ==>
              && IsInstructor(p)
              && (exists l :: l in db.lessons && l.id == lessonId && l.courseId == courseId && r.result.value == ApplyPatch(l, patch))
              && SaveLesson(db, r.result.value) == Ok(r.db)
    ensures r.result.Ok? ==> exists c :: c in db.courses && c.id == courseId && c.instructorId == p.user.id
  {
    var allowed := ManageChecks(Patch, p, db);
    if allowed.Err? then Reply(db, Err(allowed.error))
    else match ManagedLesson(db, courseId, lessonId)
      case Err(e) => Reply(db, Err(e))
      case Ok(t) =>
        var owner := OwnerCheck(Patch, p, t);
        if owner.Err? then Reply(db, Err(owner.error))
        else
          var valid := ValidateLesson(db, Updating(t.lesson), patch);
          if valid.Err? then Reply(db, Err(valid.error))
          else
            var u := ApplyPatch(t.lesson, patch);
            match SaveLesson(db, u)
            case Err(_) => Reply(db, Err(ServerError))
            case Ok(after) => Reply(after, Ok(u))
  }

  /**
   * In a valid store a lesson can be edited by the owner of its course,
   * and by nobody else, exactly when its resulting order is not held by
   * another lesson of the course.
   */
  lemma UpdateLessonOnlyByOwner(db: Db, p: Principal, c: Course, l: Lesson, patch: LessonPatch)
    requires Valid(db) && c in db.courses && l in db.lessons && l.courseId == c.id
    ensures UpdateLesson(db, p, c.id, l.id, patch).result.Ok? <==>
              && p.Member? && p.user.role == Instructor && p.user.id == c.instructorId
              && !OrderTaken(db.lessons, c.id, ApplyPatch(l, patch).order, Some(l.id))
  {
    FindCourseUnique(db, c);
    var found := Find(db.lessons, LessonAt(c.id, l.id));
    assert LessonInCourse(db.lessons, l.id, c.id) by {
      var j :| 0 <= j < |db.lessons| && db.lessons[j] == l;
    }
    assert found.Some?;
    if found.value != l {
      LessonRowsDiffer(db.lessons, found.value, l);
    }
    assert ManagedLesson(db, c.id, l.id) == Ok(LessonTarget(l, c.instructorId));
    OwnerOrReadOnlyIff(Patch, p, LessonTarget(l, c.instructorId));
  }

  /** Validation anticipates the unique constraint, so an update never ends in a server error. */
  lemma UpdateLessonNoServerError(db: Db, p: Principal, courseId: nat, lessonId: nat, patch: LessonPatch)
    ensures UpdateLesson(db, p, courseId, lessonId, patch).result != Err(ServerError)
  {
    var t := ManagedLesson(db, courseId, lessonId);
    if t.Ok? {
      ValidateLessonMatchesUpdate(db, t.value.lesson, patch);
    }
  }

  lemma UpdateLessonPreservesValid(db: Db, p: Principal, courseId: nat, lessonId: nat, patch: LessonPatch)
    requires Valid(db)
    ensures Valid(UpdateLesson(db, p, courseId, lessonId, patch).db)
  {
    var r := UpdateLesson(db, p, courseId, lessonId, patch);
    if r.result.Ok? {
      var l :| l in db.lessons && l.id == lessonId && l.courseId == courseId && r.result.value == ApplyPatch(l, patch);
      SaveLessonPreservesValid(db, r.result.value);
    }
  }

  /** `LessonUpdateDeleteApiView`, DELETE: the owner of the lesson's course removes it and its progress rows. */
  function DeleteLessonView(db: Db, p: Principal, courseId: nat, lessonId: nat): (r: Reply<()>)
    ensures r.result.Err? ==> r.db == db
    ensures p.Anonymous? ==> r.result == Err(NotAuthenticated)
    ensures p.Member? && !LessonInCourse(db.lessons, lessonId, courseId) ==> r.result == Err(NotFound)
    ensures r.result.Ok? ==> IsInstructor(p) && r.db == DeleteLesson(db, lessonId)
    ensures r.result.Ok? ==> exists c :: c in db.courses && c.id == courseId && c.instructorId == p.user.id
  {
    var allowed := ManageChecks(Delete, p, db);
    if allowed.Err? then Reply(db, Err(allowed.error))
    else match ManagedLesson(db, courseId, lessonId)
      case Err(e) => Reply(db, Err(e))
      case Ok(t) =>
        var owner := OwnerCheck(Delete, p, t);
        if owner.Err? then Reply(db, Err(owner.error))
        else Reply(DeleteLesson(db, lessonId), Ok(()))
  }

  lemma DeleteLessonViewPreservesValid(db: Db, p: Principal, courseId: nat, lessonId: nat)
    requires Valid(db)
    ensures Valid(DeleteLessonView(db, p, courseId, lessonId).db)
  {
    if DeleteLessonView(db, p, courseId, lessonId).result.Ok? {
      DeleteLessonPreservesValid(db, lessonId);
    }
  }

  // Enrollment endpoints.

  /**
   * `EnrollCourseAPiView` (students): enrolls the caller in the course
   * named by `pk`. A repeated enrollment is refused by validation before
   * the course is looked up; an unknown course is 404.
   */
  function Enroll(db: Db, p: Principal, pk: nat): (r: Reply<Enrollment>)
    ensures r.result.Err? ==> r.db == db
    ensures p.Anonymous? ==> r.result == Err(NotAuthenticated)
    ensures r.result.Ok? <==> IsStudent(p) && HasCourse(db, pk) && !IsEnrolled(db, p.user.id, pk)
    ensures IsStudent(p) && IsEnrolled(db, p.user.id, pk) ==> r.result == Err(ValidationError("detail", AlreadyEnrolledMessage))
    ensures IsStudent(p) && !IsEnrolled(db, p.user.id, pk) && !HasCourse(db, pk) ==> r.result == Err(NotFound)
    ensures r.result.Ok? ==>
              && r.result.value.studentId == p.user.id && r.result.value.courseId == pk
              && r.db.enrollments == db.enrollments + [r.result.value]
  {
    var allowed := StudentChecks(Post, p, db);
    if allowed.Err? then Reply(db, Err(allowed.error))
    else
      var valid := ValidateEnrollment(db, p.user, Some(pk));
      if valid.Err? then Reply(db, Err(valid.error))
      else match FindCourse(db, pk)
        case None => Reply(db, Err(NotFound))
        case Some(c) =>
          match AddEnrollment(db, p.user.id, c.id)
          case Err(_) => Reply(db, Err(ValidationError("detail", AlreadyEnrolledMessage)))
          case Ok(saved) => Reply(saved.db, Ok(saved.row))
  }

  /** Enrolling twice in a row: the second request is refused as a duplicate and changes nothing. */
  lemma EnrollTwiceRefused(db: Db, p: Principal, pk: nat)
    requires Enroll(db, p, pk).result.Ok?
    ensures Enroll(Enroll(db, p, pk).db, p, pk) == Reply(Enroll(db, p, pk).db, Err(ValidationError("detail", AlreadyEnrolledMessage)))
  {
    var d := Enroll(db, p, pk).db;
    assert d.enrollments[|db.enrollments|].studentId == p.user.id && d.enrollments[|db.enrollments|].courseId == pk;
  }

  lemma EnrollPreservesValid(db: Db, p: Principal, pk: nat)
    requires Valid(db)
    ensures Valid(Enroll(db, p, pk).db)
  {
    if Enroll(db, p, pk).result.Ok? {
      AddEnrollmentPreservesValid(db, p.user.id, pk);
    }
  }

  function EnrolledIn(db: Db, studentId: nat): Course -> bool
  {
    (c: Course) => IsEnrolled(db, studentId, c.id)
  }

  /**
   * `MyEnrolledCoursesApiView` (students): the courses the caller is
   * enrolled in, newest first. The query does not annotate a lesson count,
   * so the rows carry none.
   */
  function MyEnrolledCourses(db: Db, p: Principal): (r: Result<seq<CourseRow>, Error>)
    ensures r.Ok? <==> IsStudent(p)
    ensures p.Anonymous? ==> r == Err(NotAuthenticated)
    ensures r.Ok? ==> multiset(Map(r.value, RowCourse)) == multiset(Filter(db.courses, EnrolledIn(db, p.user.id)))
    ensures r.Ok? ==> forall i, j :: 0 <= i < j < |r.value| ==> r.value[i].course.createdAt >= r.value[j].course.createdAt
    ensures r.Ok? ==> forall i :: 0 <= i < |r.value| ==> r.value[i].lessonsCount.None?
  {
    var allowed := StudentChecks(Get, p, db);
    if allowed.Err? then Err(allowed.error)
    else
      var sorted := SortBy(Filter(db.courses, EnrolledIn(db, p.user.id)), NewestFirst);
      var rows := Map(sorted, Plain);
      RowsKeepCourses(sorted, rows);
      Ok(rows)
  }

  /** The caller's enrolled-courses list holds exactly the courses with an enrollment of theirs. */
  lemma MyEnrolledCoursesExact(db: Db, p: Principal, c: Course)
    requires IsStudent(p)
    ensures c in Map(MyEnrolledCourses(db, p).value, RowCourse) <==> c in db.courses && IsEnrolled(db, p.user.id, c.id)
  {
    var rows := MyEnrolledCourses(db, p).value;
    var mine := Filter(db.courses, EnrolledIn(db, p.user.id));
    assert c in Map(rows, RowCourse) <==> c in multiset(mine);
  }

  // Progress endpoints.

  const NotEnrolledDenial := "You are not enrolled in this course."
  const NotEnrolledListDenial := "You are not enrolled in this course!"
  const AlreadyCompletedMessage := "Lesson Already Completed!"

  /**
   * `MarkLessonCompletedApiView.perform_create`: the lesson must belong to
   * the course in the URL (404) and the student be enrolled there (403);
   * the progress row is saved as completed, and a duplicate is reported.
   */
  function PerformMarkCompleted(db: Db, student: User, courseId: nat, lessonId: nat): (r: Reply<Progress>)
    ensures r.result.Err? ==> r.db == db
    ensures r.result == Err(NotFound) <==> !LessonInCourse(db.lessons, lessonId, courseId)
    ensures LessonInCourse(db.lessons, lessonId, courseId) && !IsEnrolled(db, student.id, courseId) ==>
              r.result == Err(PermissionDenied(NotEnrolledDenial))
    ensures r.result.Ok? <==>
              LessonInCourse(db.lessons, lessonId, courseId) && IsEnrolled(db, student.id, courseId) && !HasProgress(db, student.id, lessonId)
    ensures r.result.Ok? ==>
              && r.result.value == Progress(db.nextId, student.id, lessonId, true)
              && r.db.progress == db.progress + [r.result.value]
  {
    match Find(db.lessons, LessonAt(courseId, lessonId))
    case None => Reply(db, Err(NotFound))
    case Some(lesson) =>
      if !IsEnrolled(db, student.id, courseId) then Reply(db, Err(PermissionDenied(NotEnrolledDenial)))
      else match AddProgress(db, student.id, lesson.id, true)
        case Err(_) => Reply(db, Err(ValidationError("detail", AlreadyCompletedMessage)))
        case Ok(saved) => Reply(saved.db, Ok(saved.row))
  }

  /**
   * `MarkLessonCompletedApiView` (students): permission, then the
   * serializer's checks on the lesson named by `pk`, then the save.
   */
  function MarkCompleted(db: Db, p: Principal, pk: Option<nat>, courseId: nat, lessonId: nat): (r: Reply<Progress>)
    ensures r.result.Err? ==> r.db == db
    ensures p.Anonymous? ==> r.result == Err(NotAuthenticated)
    ensures r.result.Ok? ==>
              && IsStudent(p) && IsEnrolled(db, p.user.id, courseId)
              && r.result.value.studentId == p.user.id && r.result.value.lessonId == lessonId && r.result.value.completed
              && r.db.progress == db.progress + [r.result.value]
    ensures p.Member? && !IsStudent(p) ==> r.result == Err(PermissionDenied(StudentDenial))
    ensures r.result.Ok? <==>
              && IsStudent(p) && pk.Some? && HasLesson(db, pk.value)
              && IsEnrolled(db, p.user.id, FindLesson(db, pk.value).value.courseId) && !HasProgress(db, p.user.id, pk.value)
              && LessonInCourse(db.lessons, lessonId, courseId) && IsEnrolled(db, p.user.id, courseId)
              && !HasProgress(db, p.user.id, lessonId)
  {
    var allowed := StudentChecks(Post, p, db);
    if allowed.Err? then Reply(db, Err(allowed.error))
    else
      var valid := ValidateProgress(db, p.user, pk);
      if valid.Err? then Reply(db, Err(valid.error))
      else PerformMarkCompleted(db, p.user, courseId, lessonId)
  }

  /** Completing the same lesson again is refused by validation and changes nothing. */
  lemma MarkCompletedTwiceRefused(db: Db, p: Principal, courseId: nat, lessonId: nat)
    requires MarkCompleted(db, p, Some(lessonId), courseId, lessonId).result.Ok?
    ensures var d := MarkCompleted(db, p, Some(lessonId), courseId, lessonId).db;
            MarkCompleted(d, p, Some(lessonId), courseId, lessonId) == Reply(d, Err(ValidationError("detail", ProgressExistsMessage)))
  {
    var d := MarkCompleted(db, p, Some(lessonId), courseId, lessonId).db;
    var row := d.progress[|db.progress|];
    assert row.studentId == p.user.id && row.lessonId == lessonId;
    assert HasProgress(d, p.user.id, lessonId);
    var l := FindLesson(db, lessonId).value;
    assert d.lessons == db.lessons && d.enrollments == db.enrollments;
    assert FindLesson(d, lessonId) == FindLesson(db, lessonId);
  }

  /**
   * The refusal `perform_create` raises when the save hits the (student,
   * lesson) constraint is reached exactly when the serializer's checks on
   * `pk` pass but the lesson named by the course route is already
   * completed: the two routes name different lessons.
   */
  lemma MarkCompletedSaveClash(db: Db, p: Principal, pk: nat, courseId: nat, lessonId: nat)
    ensures MarkCompleted(db, p, Some(pk), courseId, lessonId).result == Err(ValidationError("detail", AlreadyCompletedMessage)) <==>
              && IsStudent(p) && ValidateProgress(db, p.user, Some(pk)).Ok?
              && LessonInCourse(db.lessons, lessonId, courseId) && IsEnrolled(db, p.user.id, courseId)
              && HasProgress(db, p.user.id, lessonId)
    ensures MarkCompleted(db, p, Some(pk), courseId, lessonId).result == Err(ValidationError("detail", AlreadyCompletedMessage)) ==>
              pk != lessonId
  {
    assert AlreadyCompletedMessage != NotEnrolledMessage && AlreadyCompletedMessage != ProgressExistsMessage;
    var f := Find(db.lessons, LessonAt(courseId, lessonId));
    if f.Some? {
      assert f.value.id == lessonId;
    }
  }

  lemma MarkCompletedPreservesValid(db: Db, p: Principal, pk: Option<nat>, courseId: nat, lessonId: nat)
    requires Valid(db)
    ensures Valid(MarkCompleted(db, p, pk, courseId, lessonId).db)
  {
    if MarkCompleted(db, p, pk, courseId, lessonId).result.Ok? {
      AddProgressPreservesValid(db, p.user.id, lessonId, true);
    }
  }

  /** The student's completed progress rows for lessons of the course (`lesson__course`, `completed=True`). */
  function CompletedIn(lessons: seq<Lesson>, studentId: nat, courseId: nat): Progress -> bool
  {
    (r: Progress) => r.studentId == studentId && r.completed && LessonInCourse(lessons, r.lessonId, courseId)
  }

  function CompletedRows(db: Db, studentId: nat, courseId: nat): (r: seq<Progress>)
    ensures forall x :: x in r <==> x in db.progress && CompletedIn(db.lessons, studentId, courseId)(x)
  {
    Filter(db.progress, CompletedIn(db.lessons, studentId, courseId))
  }

  function ProgressLesson(r: Progress): nat
  {
    r.lessonId
  }

  /**
   * `ListLessonPogressPerCourseApiView` (students): the ids of the lessons
   * of the course the caller has completed; 404 for an unknown course, 403
   * when not enrolled.
   */
  function CompletedLessons(db: Db, p: Principal, courseId: nat): (r: Result<seq<nat>, Error>)
    ensures p.Anonymous? ==> r == Err(NotAuthenticated)
    ensures IsStudent(p) && !HasCourse(db, courseId) ==> r == Err(NotFound)
    ensures IsStudent(p) && HasCourse(db, courseId) && !IsEnrolled(db, p.user.id, courseId) ==>
              r == Err(PermissionDenied(NotEnrolledListDenial))
    ensures r.Ok? <==> IsStudent(p) && HasCourse(db, courseId) && IsEnrolled(db, p.user.id, courseId)
    ensures r.Ok? ==> |r.value| == |CompletedRows(db, p.user.id, courseId)|
    ensures r.Ok? ==> forall id :: id in r.value <==>
              exists x :: x in db.progress && x.studentId == p.user.id && x.completed && x.lessonId == id
                          && LessonInCourse(db.lessons, id, courseId)
  {
    var allowed := StudentChecks(Get, p, db);
    if allowed.Err? then Err(allowed.error)
    else match FindCourse(db, courseId)
      case None => Err(NotFound)
      case Some(c) =>
        if !IsEnrolled(db, p.user.id, c.id) then Err(PermissionDenied(NotEnrolledListDenial))
        else
          var rows := CompletedRows(db, p.user.id, c.id);
          var ids := Map(rows, ProgressLesson);
          assert forall id :: id in ids <==> exists i :: 0 <= i < |rows| && rows[i].lessonId == id;
          Ok(ids)
  }

  /** The completed ids of a student in a course are distinct ids of that course's lessons. */
  lemma CompletedIdsDistinct(db: Db, studentId: nat, courseId: nat)
    requires Valid(db)
    ensures Distinct(Map(CompletedRows(db, studentId, courseId), ProgressLesson))
    ensures forall id :: id in Map(CompletedRows(db, studentId, courseId), ProgressLesson) ==> id in Map(LessonsOf(db, courseId), LessonKey)
  {
    CompletedIdsUnique(db, studentId, courseId);
    CompletedIdsInCourse(db, studentId, courseId);
  }

  lemma CompletedIdsUnique(db: Db, studentId: nat, courseId: nat)
    requires Valid(db)
    ensures Distinct(Map(CompletedRows(db, studentId, courseId), ProgressLesson))
  {
    var rows := CompletedRows(db, studentId, courseId);
    PairwiseFilter(db.progress, DistinctProgress, CompletedIn(db.lessons, studentId, courseId));
    var ids := Map(rows, ProgressLesson);
    forall i, j | 0 <= i < j < |ids| ensures ids[i] != ids[j] {
      assert DistinctProgress(rows[i], rows[j]);
      assert rows[i] in rows && rows[j] in rows;
    }
  }

  lemma CompletedIdsInCourse(db: Db, studentId: nat, courseId: nat)
    ensures forall id :: id in Map(CompletedRows(db, studentId, courseId), ProgressLesson) ==> id in Map(LessonsOf(db, courseId), LessonKey)
  {
    var rows := CompletedRows(db, studentId, courseId);
    var ids := Map(rows, ProgressLesson);
    var lessonIds := Map(LessonsOf(db, courseId), LessonKey);
    forall id | id in ids ensures id in lessonIds {
      var i :| 0 <= i < |ids| && ids[i] == id;
      assert rows[i] in rows;
      CourseLessonListed(db, courseId, id);
    }
  }

  lemma CourseLessonListed(db: Db, courseId: nat, id: nat)
    requires LessonInCourse(db.lessons, id, courseId)
    ensures id in Map(LessonsOf(db, courseId), LessonKey)
  {
    var k :| 0 <= k < |db.lessons| && db.lessons[k].id == id && db.lessons[k].courseId == courseId;
    var s := LessonsOf(db, courseId);
    assert db.lessons[k] in s;
    var m :| 0 <= m < |s| && s[m] == db.lessons[k];
    assert Map(s, LessonKey)[m] == id;
  }

  /** A student never has more completed lessons in a course than the course has lessons. */
  lemma CompletedAtMostTotal(db: Db, studentId: nat, courseId: nat)
    requires Valid(db)
    ensures |CompletedRows(db, studentId, courseId)| <= LessonCount(db, courseId)
  {
    CompletedIdsDistinct(db, studentId, courseId);
    LessonsOfDistinct(db, courseId);
    var s := LessonsOf(db, courseId);
    var lessonIds := Map(s, LessonKey);
    forall i, j | 0 <= i < j < |lessonIds| ensures lessonIds[i] != lessonIds[j] {
      assert DistinctLessons(s[i], s[j]);
    }
    DistinctIncluded(Map(CompletedRows(db, studentId, courseId), ProgressLesson), lessonIds);
  }

  /**
   * Python's `round(x, 2)`: to the nearest hundredth, a tie going to the
   * even hundredth. The value is taken as the exact quotient; binary
   * floating point is not modelled.
   */
  function Round2(x: real): (r: real)
    ensures -0.005 <= r - x <= 0.005
    ensures (r * 100.0).Floor as real == r * 100.0
    ensures 0.0 <= x ==> 0.0 <= r
    ensures x <= 100.0 ==> r <= 100.0
    ensures (x * 100.0).Floor as real == x * 100.0 ==> r == x
  {
    var scaled := x * 100.0;
    var n := scaled.Floor;
    var frac := scaled - n as real;
    var k := if frac > 0.5 then n + 1 else if frac < 0.5 then n else if n % 2 == 0 then n else n + 1;
    assert (k as real / 100.0) * 100.0 == k as real;
    k as real / 100.0
  }

  /** What `CourseProgressApiView` answers with status 200: a notice, or the figures. */
  datatype ProgressReport =
    | Notice(detail: string)
    | Stats(courseId: nat, total: nat, completed: nat, percent: real)

  const OnlyStudentsNotice := "Only students can view their progress."
  const NotEnrolledNotice := "You're not enrolled to this course. Enroll First to see Progress!"

  /** The percentage the view reports: 0 for a course without lessons, else rounded to two decimals. */
  function Percent(completed: nat, total: nat): (r: real)
    ensures total == 0 ==> r == 0.0
    ensures completed <= total ==> 0.0 <= r <= 100.0
    ensures 0 < total && completed == total ==> r == 100.0
    ensures 0 < total ==> -0.005 <= r - (completed as real / total as real) * 100.0 <= 0.005
  {
    if total == 0 then 0.0
    else
      var x := (completed as real / total as real) * 100.0;
      assert completed <= total ==> x <= 100.0;
      assert completed == total ==> x == 100.0 && (x * 100.0).Floor == 10000;
      Round2(x)
  }

  /**
   * `CourseProgressApiView` (signed-in users): a non-student or a student
   * not enrolled gets a notice with status 200; an unknown course is 404;
   * otherwise the lesson total, the completed count and the percentage.
   */
  function CourseProgress(db: Db, p: Principal, courseId: nat): (r: Result<ProgressReport, Error>)
    ensures p.Anonymous? <==> r == Err(NotAuthenticated)
    ensures p.Member? && p.user.role != Student ==> r == Ok(Notice(OnlyStudentsNotice))
    ensures IsStudent(p) && !HasCourse(db, courseId) ==> r == Err(NotFound)
    ensures IsStudent(p) && HasCourse(db, courseId) && !IsEnrolled(db, p.user.id, courseId) ==> r == Ok(Notice(NotEnrolledNotice))
    ensures r.Ok? && r.value.Stats? ==>
              && IsStudent(p) && IsEnrolled(db, p.user.id, courseId) && r.value.courseId == courseId
              && r.value.total == LessonCount(db, courseId)
              && r.value.completed == |CompletedRows(db, p.user.id, courseId)|
              && r.value.percent == Percent(r.value.completed, r.value.total)
  {
    CheckOne(IsAuthenticated, Get, p, db, None);
    var allowed := CheckPermissions([IsAuthenticated], Get, p, db, None);
    if allowed.Err? then Err(allowed.error)
    else if RoleValue(p.user.role) != "student" then Ok(Notice(OnlyStudentsNotice))
    else match FindCourse(db, courseId)
      case None => Err(NotFound)
      case Some(c) =>
        if !IsEnrolled(db, p.user.id, c.id) then Ok(Notice(NotEnrolledNotice))
        else
          var total := LessonCount(db, c.id);
          var completed := |CompletedRows(db, p.user.id, c.id)|;
          Ok(Stats(c.id, total, completed, Percent(completed, total)))
  }

  /** In a valid store the reported figures are consistent: at most all lessons done, a percentage in [0, 100]. */
  lemma CourseProgressBounds(db: Db, p: Principal, courseId: nat)
    requires Valid(db)
    requires CourseProgress(db, p, courseId).Ok? && CourseProgress(db, p, courseId).value.Stats?
    ensures var s := CourseProgress(db, p, courseId).value;
            s.completed <= s.total && 0.0 <= s.percent <= 100.0
  {
    CompletedAtMostTotal(db, p.user.id, courseId);
  }

  /** The progress figures and the completed-lessons list agree on how many lessons are done. */
  lemma ProgressAgreesWithList(db: Db, p: Principal, courseId: nat)
    requires CompletedLessons(db, p, courseId).Ok?
    ensures CourseProgress(db, p, courseId).Ok? && CourseProgress(db, p, courseId).value.Stats?
    ensures CourseProgress(db, p, courseId).value.completed == |CompletedLessons(db, p, courseId).value|
  {
  }
}

=== FILE: wire.dfy ===
/**
 * The JSON the server sends for its records, as the client receives it:
 * the fields of the lesson serializer (all model fields), the course list
 * serializer's fields the pages read, and the course progress response.
 * Dates, thumbnail URLs and the instructor's name are not rendered here.
 */
module Wire {
  import opened Json
  import opened Wrappers
  import Store
  import CourseViews
  import Accounts

  function NatJson(n: nat): Value
  {
    Num(n as real)
  }

  /** A lesson as `LessonSerializers` writes it. */
  function LessonJson(l: Store.Lesson): (v: Value)
    ensures Prop(v, "id") == NatJson(l.id) && Prop(v, "order") == NatJson(l.order)
    ensures Prop(v, "course") == NatJson(l.courseId) && Prop(v, "title") == Str(l.title)
  {
    LessonAt(l, 0, "id");
    LessonAt(l, 1, "title");
    LessonAt(l, 4, "order");
    LessonAt(l, 5, "course");
    Obj(LessonFields(l))
  }

  function LessonFields(l: Store.Lesson): seq<Field>
  {
    [ Field("id", NatJson(l.id)),
      Field("title", Str(l.title)),
      Field("video_url", Str(l.videoUrl)),
      Field("duration", NatJson(l.duration)),
      Field("order", NatJson(l.order)),
      Field("course", NatJson(l.courseId))]
  }

  /** The entry at position `i` is the first one under its key. */
  lemma LessonAt(l: Store.Lesson, i: nat, key: string)
    requires i < 6 && LessonFields(l)[i].key == key
    ensures Lookup(LessonFields(l), key) == LessonFields(l)[i].val
  {
    LookupFirst(LessonFields(l), i, key);
  }

  /**
   * A row of the course lists as `CourseSerializer` writes it. The
   * read-only `lessons_count` is skipped, not written as null, when the
   * queryset did not annotate it.
   */
  function CourseRowJson(r: CourseViews.CourseRow): (v: Value)
    ensures Prop(v, "id") == NatJson(r.course.id) && Prop(v, "title") == Str(r.course.title)
    ensures Prop(v, "description") == Str(r.course.description)
    ensures Prop(v, "lessons_count") == (if r.lessonsCount.Some? then NatJson(r.lessonsCount.value) else Undefined)
    ensures Prop(v, "course") == Undefined && Prop(v, "progress") == Undefined
  {
    RowAt(r, 0, "id");
    RowAt(r, 1, "title");
    RowAt(r, 2, "description");
    RowCount(r);
    RowLacks(r, "course");
    RowLacks(r, "progress");
    Obj(RowFields(r))
  }

  function RowFields(r: CourseViews.CourseRow): seq<Field>
  {
    [ Field("id", NatJson(r.course.id)),
      Field("title", Str(r.course.title)),
      Field("description", Str(r.course.description)),
      Field("instructor", NatJson(r.course.instructorId))]
    + (match r.lessonsCount case Some(n) => [Field("lessons_count", NatJson(n))] case None => [])
  }

  lemma RowAt(r: CourseViews.CourseRow, i: nat, key: string)
    requires i < |RowFields(r)| && RowFields(r)[i].key == key
    ensures Lookup(RowFields(r), key) == RowFields(r)[i].val
  {
    LookupFirst(RowFields(r), i, key);
  }

  lemma RowCount(r: CourseViews.CourseRow)
    ensures Lookup(RowFields(r), "lessons_count") ==
              (if r.lessonsCount.Some? then NatJson(r.lessonsCount.value) else Undefined)
  {
    if r.lessonsCount.Some? { RowAt(r, 4, "lessons_count"); }
    else { RowLacks(r, "lessons_count"); }
  }

  lemma RowLacks(r: CourseViews.CourseRow, key: string)
    requires key == "course" || key == "progress" || (key == "lessons_count" && r.lessonsCount.None?)
    ensures Lookup(RowFields(r), key) == Undefined
  {
  }

  /** The lessons of a response, in the order given, each as `LessonSerializers` writes it. */
  function LessonsJson(ls: seq<Store.Lesson>): (r: seq<Value>)
    ensures |r| == |ls|
    ensures forall i :: 0 <= i < |r| ==> r[i] == LessonJson(ls[i])
  {
    seq(|ls|, i requires 0 <= i < |ls| => LessonJson(ls[i]))
  }

  /** A course as `CourseDetailSerializer` writes it: the course fields and its lessons inline. */
  function CourseDetailJson(d: CourseViews.CourseDetail): (v: Value)
    ensures Prop(v, "id") == NatJson(d.course.id) && Prop(v, "title") == Str(d.course.title)
    ensures Prop(v, "lessons") == Arr(LessonsJson(d.lessons))
  {
    var fs := DetailFields(d);
    LookupFirst(fs, 0, "id");
    LookupFirst(fs, 1, "title");
    LookupFirst(fs, 4, "lessons");
    Obj(fs)
  }

  function DetailFields(d: CourseViews.CourseDetail): seq<Field>
  {
    [ Field("id", NatJson(d.course.id)),
      Field("title", Str(d.course.title)),
      Field("description", Str(d.course.description)),
      Field("instructor", NatJson(d.course.instructorId)),
      Field("lessons", Arr(LessonsJson(d.lessons)))]
  }

  /** The course progress response: a notice, or the four counters. */
  function ReportJson(r: CourseViews.ProgressReport): (v: Value)
    ensures r.Stats? ==> Prop(v, "progress_percent") == Num(r.percent)
    ensures r.Notice? ==> Prop(v, "progress_percent") == Undefined && Prop(v, "detail") == Str(r.detail)
  {
    match r
    case Notice(d) => Obj([Field("detail", Str(d))])
    case Stats(courseId, total, completed, percent) =>
      var fs := [
        Field("course_id", NatJson(courseId)),
        Field("total_lessons", NatJson(total)),
        Field("completed_lessons", NatJson(completed)),
        Field("progress_percent", Num(percent))];
      LookupFirst(fs, 3, "progress_percent");
      Obj(fs)
  }

  /**
   * The response object the HTTP client resolves with: the decoded body
   * under `data` next to the status and the request's bookkeeping.
   */
  function Envelope(body: Value, status: nat): (v: Value)
    ensures Prop(v, "data") == body
    ensures Prop(v, "results") == Undefined
  {
    Obj([
      Field("data", body),
      Field("status", NatJson(status)),
      Field("statusText", Str("")),
      Field("headers", Obj([])),
      Field("config", Obj([])),
      Field("request", Obj([]))])
  }

  /** The `/me` body the client keeps as its user. */
  function MeJson(b: Accounts.MeBody): (v: Value)
    ensures Prop(v, "id") == NatJson(b.id) && Prop(v, "role") == Str(b.role)
  {
    var fs := [
      Field("id", NatJson(b.id)),
      Field("username", Str(b.username)),
      Field("role", Str(b.role))];
    LookupFirst(fs, 0, "id");
    LookupFirst(fs, 2, "role");
    Obj(fs)
  }
}

=== FILE: wrappers.dfy ===
/** Optional values and error-carrying results, used wherever the source returns `None` or raises. */
module Wrappers {

  datatype Option<+T> = None | Some(value: T)
  {
    function GetOr(default: T): T
    {
      match this
      case Some(v) => v
      case None => default
    }
  }

  datatype Result<+T, +E> = Ok(value: T) | Err(error: E)
}
